=== FILE: README.md ===
# Kelompok Tani registry — a Dafny model of its data rules

The application is a registry of farmer groups (*kelompok tani*) for one district.
Each group is a document in the `kelompok_tani` collection of a hosted document
database. An ordinary group keeps its members in an `anggota` subcollection. A
*Gapoktan* is a federation of groups. It keeps its board in `pengurus` and its links
to member groups in `kelompok_anggota`. A global statistics record `stats/global`
caches the number of groups, members and hectares.

This project models the rules the application applies to that data:

- renaming a group id by copy-then-delete, including the chunked batches;
- the statistics cache, recomputed and read;
- the public list: Gapoktan enrichment, card normalisation, the category/name order,
  the search filter and the 8-per-page paging;
- the admin pages: member add, edit and delete with the cached member count, the
  officer lookup, and the group delete;
- the public member table's role-priority order;
- the forms: title-casing and required fields for groups, the name check and
  role options for members, the Gapoktan board form, and the link-selection modal;
- the group card's choice of count and land figures.

The store is `DocStore.Store`. It holds the group collection as a sequence of
documents, every subcollection keyed by (parent id, name), and the optional
statistics record. A subcollection lives at its own path, so it survives its
parent's deletion, as in the hosted store. Field values are `Values.Value`. `Num`
stands for anything `parseFloat` reads as a number. `Str` stands for any other text,
and `Ref` for a document reference. Where this encoding falls short of real parsing is
listed under "Left out". Every operation is a pure function from a store
(or a page, or a form) to a new one. A store call that may throw takes the failure
as a parameter: `failAt`, `fails`, `countFails`, `Faults` or `lostBeforeReread`.

Modules, one per source file or concern:

| module | file | models |
|---|---|---|
| `Values`, `Docs`, `DocStore`, `Lists`, `Text` | values, docs, store, lists, text | values and JavaScript's `||`/`??`/`parseFloat` readings; collections and merging writes; the store; `filter`; ASCII case mapping, `trim`, `split`/`join`, `localeCompare` |
| `Chunking` | chunking | `chunkArray` |
| `FirestoreRename`, `RenameProps`, `RenameStatistik` | rename, rename_props, rename_stats | `copySubcollection`, `deleteSubcollection`, `renameKelompokDoc` and their properties |
| `Statistik` | statistik | `recomputeStats`, `getStatsOrInit`, `fetchStatistikKelompok` |
| `GapoktanEnrich`, `KelompokList` | gapoktan, kelompok_list | the public list page |
| `Officers`, `Admin`, `AdminDetail` | officers, admin, admin_detail | the admin table and the admin group page |
| `MemberOrder` | public_detail | the public member table's `sortingFn` |
| `KelompokForm`, `MemberForm`, `BoardForm`, `GapoktanLinks` | kelompok_form, anggota_form, pengurus_form, tambah_gapoktan | the four form modals |
| `Card` | card | the group card |

## Model

| member | source | states |
|---|---|---|
| Chunking.ChunkArray | src/utils/firestoreRename.js:6-10 | Concatenating the chunks gives the input back exactly. Every chunk is non-empty and at most `size` long. Every chunk but the last is exactly `size` long. |
| Chunking.ChunkCount | src/utils/firestoreRename.js:6-10 | The number of chunks is the ceiling of n/size: the least k with n <= k*size. |
| Chunking.ChunkArrayEmpty | src/utils/firestoreRename.js:6-10 | There are no chunks exactly when the input is empty. |
| Chunking.ChunkAt | src/utils/firestoreRename.js:8 | Chunk i is the slice of at most `size` elements that starts at i*size. |
| Lists.FilterKeepsOrder | src/pages/Public/KelompokList.jsx:199-216 | `filter` keeps the relative order of what it keeps: a relation between every earlier and later input element holds in the output. |
| Values.ToNumber | src/pages/Public/KelompokList.jsx:31-34 | A value that reads as a number gives that number; anything else, including a missing field, gives 0 (NaN read as 0). |
| Values.KategoriOf | src/utils/statistik.js:26 | The category is never empty: a missing one reads as "Kelompok Tani". It is "Gapoktan" exactly when the strict category test holds. |
| Docs.FindSetMerge | src/utils/firestoreRename.js:27 | After a merging write, the written id holds the new fields over the old ones, and every other id is unchanged. |
| Docs.FindMergeAll | src/utils/firestoreRename.js:25-28 | A batch of merging writes with unique ids leaves each written id holding its fields over the target's. No other id changes. |
| Docs.MergeAllIdempotent | src/utils/firestoreRename.js:15-31 | Copying the same documents a second time changes nothing: re-running a copy is idempotent. |
| Docs.RetryAfterPartialCopy | src/utils/firestoreRename.js:15-31 | A copy that stopped after any prefix of its documents and is then re-run from the start ends exactly where one uninterrupted copy would. |
| Docs.MergeAllFresh | src/utils/firestoreRename.js:15-31 | Copying into a collection that holds none of the ids appends the documents unchanged. |
| Docs.RemoveIds | src/utils/firestoreRename.js:44-50 | A delete batch keeps exactly the documents whose id is not listed. |
| Docs.RemoveAllIds | src/utils/firestoreRename.js:36-51 | Deleting every document that was read empties the collection. |
| DocStore.UpdateParentEffect | src/pages/Admin/Detail.jsx:84-86 | `updateDoc` merges into the named group only when it exists. Every other group, the subcollections and the statistics are unchanged. |
| FirestoreRename.CopyBatches | src/utils/firestoreRename.js:22-30 | Copy batches only log writes under the new id and change only that one subcollection. Once all batches commit, it holds the merge of the batches' documents. |
| FirestoreRename.CopySubcollection | src/utils/firestoreRename.js:15-31 | Only reads of the old id and writes under the new id are logged, and only the target subcollection changes. On success it holds the old documents merged onto what was there. A throw is reported as a copy failure. |
| FirestoreRename.DeleteBatches | src/utils/firestoreRename.js:43-50 | Delete batches only log deletes of the old subcollection and change only it. |
| FirestoreRename.DeleteSubcollection | src/utils/firestoreRename.js:36-51 | Only deletes under the old id are logged and only the named subcollection changes. On success it is empty. |
| FirestoreRename.CopyAll | src/utils/firestoreRename.js:88-90 | The copy loop changes only subcollections of the new id that are listed. It never touches groups, statistics or other ids, and without a throw it runs to the end. |
| FirestoreRename.DeleteAll | src/utils/firestoreRename.js:93-95 | The delete loop empties every listed subcollection of the old id and touches no other path. |
| FirestoreRename.SubcollectionNames | src/utils/firestoreRename.js:81-86 | A non-empty override is used as given. Otherwise a Gapoktan moves `pengurus` and `kelompok_anggota`, and any other group moves `anggota`. |
| FirestoreRename.Attempt | src/utils/firestoreRename.js:77-98 | One awaited store call. A stopped run stays stopped. A call that throws leaves store and log as they were and stops the run in the given phase. A call that takes effect leaves the given store and is logged. The call throws exactly when it is the numbered failing one. |
| FirestoreRename.RenameKelompokDoc | src/utils/firestoreRename.js:68-99 | With no call throwing, the rename runs to the end. When it runs to the end, the old parent is gone. |
| RenameProps.RenameOrdered | src/utils/firestoreRename.js:77-98 | In every run, failed or not, the new parent is written first. Every copy call precedes every delete call, and the old parent's delete is last. |
| RenameProps.RenameCompletes | src/utils/firestoreRename.js:68-99 | With no call throwing, a rename runs to the end. |
| RenameProps.CopyAllEffect | src/utils/firestoreRename.js:88-90 | After the copy loop, a listed subcollection holds the old documents merged onto the new id's, even if it is listed twice. An unlisted one is untouched. |
| RenameProps.RenameSucceeds | src/utils/firestoreRename.js:68-99 | A completed rename between different ids leaves: the data merged onto the new parent; no old parent; each listed subcollection merged under the new id and empty under the old; every other parent and path as it was. |
| RenameProps.RenameParents | src/utils/firestoreRename.js:77-98 | Effect of a completed rename on the parents: the new one merged, the old one gone, the others and the statistics unchanged. |
| RenameProps.RenameSubs | src/utils/firestoreRename.js:88-95 | Effect of a completed rename on the subcollections, as in RenameSucceeds. |
| RenameProps.MoveSubs | src/utils/firestoreRename.js:88-95 | From a run still going, the copy loop followed by the delete loop moves the listed subcollections. |
| RenameProps.RenameFailureBeforeDeleteKeepsOld | src/utils/firestoreRename.js:77-90 | A throw while writing the parent or copying leaves the old parent and every old subcollection as they were. |
| RenameProps.RenameFailureWhileDeletingCopied | src/utils/firestoreRename.js:93-95 | A throw during the deletes comes after every copy has finished. The new parent and all listed subcollections are already in place. |
| RenameProps.RenameToFreshIdMoves | src/utils/firestoreRename.js:68-99 | Renaming to an unused id makes the new parent exactly the given data. Each listed subcollection under the new id is exactly the old documents. |
| RenameProps.RenameToSameIdLosesGroup | src/utils/firestoreRename.js:68-98 | A completed rename of an id to itself leaves no parent and empties every listed subcollection. |
| RenameProps.RenameToSameIdExample | src/utils/firestoreRename.js:68-98 | Concrete case: a group with one member, renamed onto itself, loses both the group and the member. |
| RenameProps.RenameGuarded | src/utils/firestoreRename.js:68-99 | The guarded rename is refused exactly when the two ids are equal. Otherwise it is the rename as written. |
| RenameProps.RenameGuardedKeepsDocuments | src/utils/firestoreRename.js:68-99 | For two different ids the guard lets the rename through. Once it completes, every document of every moved subcollection is under the new id, and so is the parent. |
| RenameStatistik.RenamePreservesTotals | src/utils/firestoreRename.js:68-99 | A completed rename onto a fresh id that keeps the category and moves the members leaves the recomputed statistics unchanged. |
| RenameStatistik.RenameGroups | src/utils/firestoreRename.js:77-98 | The group collection after a completed rename is the merge write followed by the old id's delete. |
| Statistik.Contribution | src/utils/statistik.js:26-37 | A group contributes nothing when its defaulted category is "Gapoktan". Otherwise it contributes the size of its `anggota` subcollection and the member land of that subcollection. |
| Statistik.MemberLandConcat | src/utils/statistik.js:34-37 | Member land is additive over any split of the member list, so the order of the members does not matter. |
| Statistik.MemberLandNonNegative | src/utils/statistik.js:34-37 | When every member's land reads as non-negative, so does the total. |
| Statistik.ComputeTotals | src/utils/statistik.js:18-20 | The group count is the number of group documents, Gapoktan included. |
| Statistik.RecomputeStats | src/utils/statistik.js:17-46 | The call fails exactly when a scan read or the final write throws, and then the store is exactly as it was: no partial snapshot. Otherwise the record is replaced wholesale: exactly the four keys, the given timestamp, and it reads back as the computed totals. Groups and subcollections are never touched. |
| Statistik.StatsRecord | src/utils/statistik.js:40-45 | The written record has exactly the four keys and the given timestamp, and reading it back gives the totals it was built from. |
| Statistik.ReadTotals | src/utils/statistik.js:56-61 | Each returned figure is the stored value when truthy, else 0. |
| Statistik.GetStatsOrInit | src/utils/statistik.js:52-78 | A failed first read is passed on with no write. A present record is returned as stored, with no write. For an absent one: a failed recompute is passed on with the store unchanged; a failed re-read is passed on after the record was written; otherwise the answer is the computed totals, or zeros if the record was lost before the re-read. Only a failed re-read leaves a changed store behind an error. Groups and subcollections are never touched. |
| Statistik.FetchStatistikKelompok | src/utils/statistik.js:79-86 | Returns the stored figures, or the freshly computed ones when there was no record. Every failure of the inner call is passed on to the caller. |
| Statistik.FailedRecomputeRetries | src/utils/statistik.js:17-78 | With no record, a recompute that throws leaves the store as it was, so the next successful call computes and returns the correct totals. |
| Statistik.RecomputeTwice | src/utils/statistik.js:17-46 | Recomputing twice with no change in between writes the same figures. Only the timestamp moves. |
| Statistik.InitThenRead | src/utils/statistik.js:64-74 | After initialisation the record exists, and a second call returns the same figures without writing. |
| Statistik.TallyConcat | src/utils/statistik.js:24-38 | The tally over a concatenation is the sum of the tallies, so scan order does not matter. |
| Statistik.TallyRemove | src/utils/statistik.js:24-38 | Removing one group from a list with unique ids removes exactly its contribution and one from the count. |
| Statistik.TallyNoMembers | src/utils/statistik.js:24-38 | The scanned member total is zero exactly when every group is a Gapoktan or has an empty `anggota` subcollection. |
| Statistik.AddGapoktanCountsGroupOnly | src/utils/statistik.js:26-29 | Adding a Gapoktan raises the group count by one and changes nothing else. |
| Statistik.AddGroupCountsMembers | src/utils/statistik.js:31-37 | Adding any other group adds its member count and member land to the totals. |
| Statistik.TotalsAfterMove | src/utils/statistik.js:17-38 | The totals do not depend on document ids. Moving the group at position k to a fresh id, with the same category and the same members, leaves them unchanged. |
| Statistik.ScenarioTotals | src/utils/statistik.js:17-38 | Concrete case: a Kelompok Tani with members of 2.5 and 1.5 hectares plus a Gapoktan linking it gives 2 groups, 2 members and 4.0 hectares. |
| GapoktanEnrich.LinkTarget | src/pages/Public/KelompokList.jsx:70-76 | A reference in `kelompokRef` wins. Otherwise a non-empty text `kelompokId` names the group. |
| GapoktanEnrich.LinkTotals | src/pages/Public/KelompokList.jsx:66-108 | A link adds something only if it is read without fault and points at an existing group. |
| GapoktanEnrich.NullishOrZero | src/pages/Public/KelompokList.jsx:132-133 | `?? 0`: the value unless missing or null. |
| GapoktanEnrich.EnrichItem | src/pages/Public/KelompokList.jsx:37-138 | A non-Gapoktan item passes through unchanged. A Gapoktan keeps its other fields. When its own reads succeed, it gets the Ketua, Sekretaris and Bendahara named on its `pengurus` board, the number of link documents and the combined totals. When they fail, it keeps its stored figures with `?? 0` defaults. |
| GapoktanEnrich.EnrichAll | src/pages/Public/KelompokList.jsx:37-39 | The list is enriched item by item, with order and ids kept. |
| GapoktanEnrich.SumLinksConcat | src/pages/Public/KelompokList.jsx:65-114 | The combined totals split over any split of the links, so the order in which reads finish does not matter. |
| GapoktanEnrich.SumLinksNonZero | src/pages/Public/KelompokList.jsx:65-114 | Non-zero combined totals come from at least one link that was read without fault and resolves to an existing group. |
| GapoktanEnrich.Enriched | src/pages/Public/KelompokList.jsx:116-125 | The enriched item keeps every field outside the seven enrichment keys. It carries the three officers named on the board, the Gapoktan marker, the link count and the combined totals. |
| GapoktanEnrich.DanglingLinkAddsNothing | src/pages/Public/KelompokList.jsx:78 | A link to a missing group, or one whose read throws, adds nothing to the totals. It still counts in `jumlah_kelompok`. |
| GapoktanEnrich.LinkAgreesWithStatistik | src/pages/Public/KelompokList.jsx:82-105 | A link to an ordinary group whose cached fields agree with its members adds exactly what the statistics count for that group. |
| GapoktanEnrich.SumLinksAgree | src/pages/Public/KelompokList.jsx:65-114 | Links that each resolve to such a group add up to the statistics tally of those groups. |
| GapoktanEnrich.EnrichAgreesWithStatistik | src/pages/Public/KelompokList.jsx:116-125 | For such a Gapoktan, the enriched member and land totals equal the statistics tally of its linked groups. |
| GapoktanEnrich.StaleLandCountsZero | src/pages/Public/KelompokList.jsx:92-105 | A linked group with a non-zero cached member count and no `total_lahan` adds its count and no land at all. This is what the admin member page leaves behind. |
| KelompokList.NumberOf | src/pages/Public/KelompokList.jsx:145-146 | `Number(x)`: a number is itself, a boolean is 1 or 0, anything else is 0. |
| KelompokList.NormalizeForCard | src/pages/Public/KelompokList.jsx:141-149 | A non-Gapoktan item passes through. A Gapoktan keeps its other fields and shows `jumlah_kelompok` as its count and `total_lahan_gabungan` as its land, missing values giving 0. |
| KelompokList.NormalizeAfterEnrich | src/pages/Public/KelompokList.jsx:141-149 | After a successful enrichment, a Gapoktan's card fields hold the number of its link documents and the combined land of its linked groups. |
| KelompokList.NormalizeIdempotent | src/pages/Public/KelompokList.jsx:141-149 | Normalising twice is normalising once. |
| KelompokList.Rank | src/pages/Public/KelompokList.jsx:23-28 | Rank 1 exactly for Gapoktan. A missing or unknown category ranks 99, and every rank is 1-4 or 99. |
| KelompokList.Compare | src/pages/Public/KelompokList.jsx:183-196 | Under "Semua", different categories compare strictly, by rank. Within one category, or for a single category, two items tie exactly when their names are equal. |
| KelompokList.CompareAntisymmetric | src/pages/Public/KelompokList.jsx:183-196 | Swapping the items negates the comparison. |
| KelompokList.CompareTransitive | src/pages/Public/KelompokList.jsx:183-196 | The comparator is transitive, so it is a total preorder. |
| KelompokList.SortItems | src/pages/Public/KelompokList.jsx:183-196 | The sorted list is a permutation of the input. |
| KelompokList.SortSorted | src/pages/Public/KelompokList.jsx:183-196 | The sorted list is in comparator order. |
| KelompokList.SortForView | src/pages/Public/KelompokList.jsx:183-196 | The view order is a permutation of the list. |
| KelompokList.SortedByRank | src/pages/Public/KelompokList.jsx:183-189 | Under "Semua", categories appear in rank order: Gapoktan, Kelompok Tani, Kelompok Kebun, KWT, then the rest. |
| KelompokList.SortedByName | src/pages/Public/KelompokList.jsx:183-196 | Within one rank, or in a single-category view, names are in order. |
| KelompokList.DisplayText | src/pages/Public/KelompokList.jsx:199-216 | `(v ?? "").toString()`: missing or null gives "", text is itself, a number is its printed form. |
| KelompokList.Search | src/pages/Public/KelompokList.jsx:199-216 | An item is kept exactly when the lowercased term occurs in its lowercased name, an officer name, or the text of its land or member count. No item is added. |
| KelompokList.SearchKeepsSorted | src/pages/Public/KelompokList.jsx:183-216 | Searching a list in comparator order leaves it in comparator order, so the sorted list stays sorted on screen. |
| KelompokList.SearchEmpty | src/pages/Public/KelompokList.jsx:199-216 | An empty term keeps the whole list in order. |
| KelompokList.SearchFindsName | src/pages/Public/KelompokList.jsx:199-216 | A name match is found whatever the case of the term or of the name. |
| KelompokList.Matches | src/pages/Public/KelompokList.jsx:199-215 | An empty term matches every item. |
| KelompokList.PageItems | src/pages/Public/KelompokList.jsx:231-233 | Page p shows at most 8 items: exactly those at positions (p-1)*8 onward, in order. It is empty exactly when it starts past the end, and otherwise holds exactly min(8, remaining) items. |
| KelompokList.TotalPagesIsChunkCount | src/pages/Public/KelompokList.jsx:235 | `Math.ceil(n / 8)` is the number of 8-element chunks of the list. |
| KelompokList.PageIsChunk | src/pages/Public/KelompokList.jsx:231-235 | Page p is the p-th chunk of the list. |
| KelompokList.PagesCoverList | src/pages/Public/KelompokList.jsx:231-235 | Pages 1 to totalPages, laid end to end, give back the whole list. |
| KelompokList.PageBeyondLast | src/pages/Public/KelompokList.jsx:231-235 | A page past the last is empty. |
| KelompokList.TotalPages | src/pages/Public/KelompokList.jsx:235 | `Math.ceil(n / 8)`: the least page count whose pages hold n items. |
| KelompokList.PrevPage | src/pages/Public/KelompokList.jsx:303 | Never below page 1. It stays put exactly on page 1 and otherwise moves back. |
| KelompokList.NextPage | src/pages/Public/KelompokList.jsx:313-315 | Never past the last page. From a page in range it stays put exactly on the last page and otherwise moves forward. |
| KelompokList.PageStepsStayInRange | src/pages/Public/KelompokList.jsx:303-314 | Prev and Next keep the page within 1..totalPages. Prev steps back one except on page 1, and Next steps forward one except on the last page. |
| Officers.FirstWithRole | src/pages/Admin/Admin.jsx:33-37 | The first member holding the role, when there is one. No member before it holds the role, and none is found exactly when nobody holds it. |
| Officers.OfficerName | src/pages/Admin/Admin.jsx:33-37 | Exactly the first role holder's `nama` when that is truthy, else "-": "-" with no holder or a falsy name, and any other result is that truthy name. |
| Officers.OfficerNameAppend | src/pages/Admin/Admin.jsx:33-37 | First match wins: members appended after an existing holder do not change who is shown. |
| Officers.OfficerNameAbsent | src/pages/Admin/Admin.jsx:33-37 | A role nobody holds shows "-". |
| Admin.AdminRow | src/pages/Admin/Admin.jsx:23-46 | A row keeps the group's fields and adds the three officer names looked up in its `anggota` subcollection. |
| Admin.AdminRows | src/pages/Admin/Admin.jsx:23-46 | One row per group, in store order. |
| Admin.RowCells | src/pages/Admin/Admin.jsx:104-138 | The category cell shows "Kelompok Tani" when the category is falsy. The count and land cells show 0 when falsy. |
| Admin.ShownKategoriIsCounted | src/pages/Admin/Admin.jsx:104 | For a textual or missing category, the shown category is the one the statistics use. |
| Admin.HandleDeleteGroup | src/pages/Admin/Admin.jsx:59-80 | A delete removes the group document and every row with that id. A failed delete changes nothing. Subcollections and statistics are untouched. |
| Admin.DeleteGroupRows | src/pages/Admin/Admin.jsx:75 | The table keeps exactly the rows with another id, in order. |
| Admin.FilterIsRemove | src/pages/Admin/Admin.jsx:75 | The page's filter and the store's delete remove the same rows. |
| Admin.DeleteLeavesMembers | src/pages/Admin/Admin.jsx:74 | After the delete as written, the group document is gone but every subcollection under its id holds what it held. |
| Admin.OrphanedMemberExample | src/pages/Admin/Admin.jsx:74 | Concrete case: a group with one member, deleted, leaves that member stored with no group above it. |
| Admin.DeleteGroupCascade | src/pages/Admin/Admin.jsx:62-74 | The permanent delete the dialog promises: no group document and no owned subcollection under the id. Every other group, path and the statistics are unchanged. |
| Admin.CascadeLeavesNoOrphans | src/pages/Admin/Admin.jsx:74 | If no owned subcollection was orphaned before, none is after a cascade delete. |
| Admin.DeleteGroupTotals | src/pages/Admin/Admin.jsx:74 | Either delete takes exactly the group's contribution and one group out of the statistics. |
| AdminDetail.WithJabatan | src/pages/Admin/Detail.jsx:115-118 | A saved member keeps its fields and always has a truthy role: the given one, or "Anggota" when it is falsy. |
| AdminDetail.HandleDelete | src/pages/Admin/Detail.jsx:64-97 | The member document and every page row with its id go, other subcollections and the statistics unchanged. A failed delete changes nothing. After the delete, only `jumlah_anggota` of the group changes, to the new list length; if that count write fails, no group document changes. |
| AdminDetail.DeleteCountFailureStale | src/pages/Admin/Detail.jsx:82-86 | Deleting a listed member whose count write fails leaves page and store in step but the cached count wrong. |
| AdminDetail.HandleAdd | src/pages/Admin/Detail.jsx:125-141 | Exactly one member, with its role defaulted, is appended to the store and to the page. Other subcollections and the statistics are unchanged, and a failed add changes nothing. After the add, only `jumlah_anggota` of the group changes, to the old length plus one; if that count write fails, no group document changes. |
| AdminDetail.AddCountFailureStale | src/pages/Admin/Detail.jsx:128-140 | When the member is added but the count write throws, page and store stay in step while the cached count is left one short. |
| AdminDetail.MergeWhere | src/pages/Admin/Detail.jsx:119-123 | Rows with the edited id get the new fields merged in. The length and all other rows are unchanged. |
| AdminDetail.HandleEdit | src/pages/Admin/Detail.jsx:109-124 | The stored member and the page row get the new fields merged in. Editing a member no longer stored, or a failed write, changes nothing. Group documents and the statistics are never touched. |
| AdminDetail.SetCount | src/pages/Admin/Detail.jsx:84-86 | Writing the count sets `jumlah_anggota` of an existing group to n and changes no other group, field, subcollection or the statistics. With no group document nothing changes. |
| AdminDetail.DeleteKeepsSync | src/pages/Admin/Detail.jsx:80-88 | A delete keeps page and store in step and the cached count equal to the list length. Of the group fields only `jumlah_anggota` changes, so `total_lahan` is never maintained. |
| AdminDetail.AddKeepsSync | src/pages/Admin/Detail.jsx:125-141 | An add keeps page and store in step and the cached count right. Of the group fields only `jumlah_anggota` changes. |
| AdminDetail.SetMergeExisting | src/pages/Admin/Detail.jsx:112-123 | With unique member ids, the store's merge into the edited member and the page's merge into matching rows agree. |
| AdminDetail.EditKeepsSync | src/pages/Admin/Detail.jsx:109-124 | An edit keeps page and store in step and the list length, and so the cached count, as they were. |
| AdminDetail.AddThenDelete | src/pages/Admin/Detail.jsx:64-141 | Deleting a member just added restores the member list in the store and on the page. With a correct count, it also restores every group document. |
| AdminDetail.CountRoundTrip | src/pages/Admin/Detail.jsx:84-86 | Setting the count to n+1 and back to a correct n leaves the group documents as they were. |
| MemberOrder.RoleOf | src/pages/Public/Detail.jsx:68-69 | The role compared is always truthy: "Anggota" when the member's role is falsy. |
| MemberOrder.RoleRank | src/pages/Public/Detail.jsx:52-57 | A rank 1-4 exists exactly for the four known roles. |
| MemberOrder.CompareMembers | src/pages/Public/Detail.jsx:67-76 | Different known roles compare strictly, by priority. A known role against an unknown one is a tie. Equal ranks tie exactly when the lowercased names are equal. |
| MemberOrder.CompareMembersAntisymmetric | src/pages/Public/Detail.jsx:67-76 | Swapping the two members negates the comparison, for any roles. |
| MemberOrder.CompareMembersTransitive | src/pages/Public/Detail.jsx:67-76 | Over the four known roles the comparison is transitive, so it is a total preorder. |
| MemberOrder.RolesOrderFirst | src/pages/Public/Detail.jsx:70-72 | Different known roles are ordered Ketua, Sekretaris, Bendahara, Anggota, whatever the names. |
| MemberOrder.SameRoleByName | src/pages/Public/Detail.jsx:73-75 | Equal ranks compare by lowercased name: before or tied exactly when the names are, tied exactly when they are equal. |
| MemberOrder.EmptyRoleIsAnggota | src/pages/Public/Detail.jsx:68-69 | A member with no role compares exactly like one whose role is "Anggota". |
| MemberOrder.UnknownRoleNotTransitive | src/pages/Public/Detail.jsx:67-76 | An unknown role ties with both a chairman and an ordinary member, while those two are strictly ordered. Transitivity holds only over known roles. |
| KelompokForm.CasePart | src/components/forms/KelompokFormModal.jsx:53-65 | A part whose upper case is KWT or a roman numeral II-X becomes fully upper case. Any other part becomes first letter upper, rest lower. Only letter case changes. |
| KelompokForm.CaseWord | src/components/forms/KelompokFormModal.jsx:57-67 | Casing a hyphenated word changes only the case of its letters. |
| KelompokForm.TitleCase | src/components/forms/KelompokFormModal.jsx:52-70 | Title-casing changes only the case of letters: same length, and every character is the original or its other case. |
| KelompokForm.TitleCaseLayout | src/components/forms/KelompokFormModal.jsx:55-69 | Title-casing keeps the length, and a space or hyphen is at a position in the output exactly when it is there in the input. |
| KelompokForm.CasePartIdempotent | src/components/forms/KelompokFormModal.jsx:61-65 | Casing a part twice is casing it once. |
| KelompokForm.CaseWordIdempotent | src/components/forms/KelompokFormModal.jsx:57-67 | Casing a word twice is casing it once. |
| KelompokForm.TitleCaseIdempotent | src/components/forms/KelompokFormModal.jsx:52-70 | Title-casing is idempotent. |
| KelompokForm.Submit | src/components/forms/KelompokFormModal.jsx:72-93 | A form is rejected exactly when name, category, province, regency or district is empty. On acceptance the id and category pass through and the seven name and place fields are title-cased. |
| KelompokForm.SubmitIdempotent | src/components/forms/KelompokFormModal.jsx:72-93 | Submitting an accepted form again gives the same data. |
| KelompokForm.RegionText | src/components/forms/KelompokFormModal.jsx:9-11 | `defaultRegion?.[k] \|\| ""`. |
| KelompokForm.BlankForm | src/components/forms/KelompokFormModal.jsx:30-43 | The add form is empty except the place fields, which come from the default region. |
| KelompokForm.BlankFormRejected | src/components/forms/KelompokFormModal.jsx:73-76 | A blank add form is rejected: a category must be chosen. |
| KelompokForm.EditForm | src/components/forms/KelompokFormModal.jsx:17-29 | The edit form shows the group's id and text fields. The category defaults to "Kelompok Tani", and each empty place field falls back to the default region. |
| KelompokForm.EditFormKategori | src/components/forms/KelompokFormModal.jsx:22 | The edited category is the one the statistics count, and it is never empty. |
| KelompokForm.EditFormAccepted | src/components/forms/KelompokFormModal.jsx:17-29 | A named group whose place fields are set, or supplied by the region, can be resubmitted from its edit form. |
| MemberForm.OpenForm | src/components/forms/AnggotaFormModal.jsx:19-32 | The form opens as the edited member, or with all six fields empty. |
| MemberForm.SubmitMember | src/components/forms/AnggotaFormModal.jsx:40-56 | An accepted form goes to the page unchanged. A non-text name fails at `trim`, and a name that trims to "" is rejected. The role is not checked. |
| MemberForm.SubmitNameRule | src/components/forms/AnggotaFormModal.jsx:42-49 | A textual name is accepted exactly when it is not all white space, over the full set of characters `trim()` removes. |
| MemberForm.IdeographicSpaceNameRejected | src/components/forms/AnggotaFormModal.jsx:42-45 | Concrete case: a name of ideographic spaces (U+3000) is refused as missing. |
| MemberForm.BlankFormRejected | src/components/forms/AnggotaFormModal.jsx:23-49 | A freshly opened add form cannot be submitted. |
| MemberForm.OptionDisabled | src/components/forms/AnggotaFormModal.jsx:103-105 | An option is greyed out exactly when it is a unique role already held and not the edited member's own: always when adding, and when editing a member with a different role. |
| MemberForm.OptionsAlwaysOpen | src/components/forms/AnggotaFormModal.jsx:102-106 | "Anggota" is never greyed out, and with no held roles nothing is. |
| MemberForm.DetailAllowsSecondKetua | src/pages/Admin/Detail.jsx:274-279 | As written, when a member of the page is chairman, a form with a non-blank name and the role Ketua is allowed by the select and passes the submit, and adding it leaves two chairmen on the page, even if the roles were distinct before. |
| MemberForm.AddHeldRoleBreaksDistinct | src/pages/Admin/Detail.jsx:125-141 | Adding a member whose unique role a member of the page already holds leaves two holders of that role on the page. |
| MemberForm.TakenRoles | src/components/forms/AnggotaFormModal.jsx:15 | A role is listed as held exactly when some member holds it. |
| MemberForm.SavedRole | src/pages/Admin/Detail.jsx:115-118 | A saved member holds a unique role exactly when the form carried it. |
| MemberForm.AddKeepsRolesDistinct | src/pages/Admin/Detail.jsx:125-141 | With the held roles passed, adding a member the select allows keeps every unique role with at most one holder. |
| MemberForm.EditKeepsRolesDistinct | src/pages/Admin/Detail.jsx:112-124 | With the held roles and the row's data passed, editing keeps every unique role with at most one holder. |
| BoardForm.AsFields | src/components/forms/PengurusGapoktanFormModal.jsx:13-17 | A board member is stored as exactly `nama`, `jabatan` and `no_hp`. |
| BoardForm.OpenForm | src/components/forms/PengurusGapoktanFormModal.jsx:19-30 | The form opens with the edited member's text fields, each `\|\| ""`, or all empty. |
| BoardForm.OpenSaved | src/components/forms/PengurusGapoktanFormModal.jsx:19-30 | Opening a saved member shows it exactly as saved. |
| BoardForm.OptionDisabled | src/components/forms/PengurusGapoktanFormModal.jsx:90-94 | An option is greyed out exactly when the role is held and is not the edited member's own: always when adding, never for the edited member's own role. |
| BoardForm.HandleSave | src/components/forms/PengurusGapoktanFormModal.jsx:38-60 | An accepted form goes out unchanged. It is a missing-field error exactly when name or role is empty. It is a duplicate error exactly when a complete form takes a held role that is not the edited member's own. |
| BoardForm.SaveAgreesWithOptions | src/components/forms/PengurusGapoktanFormModal.jsx:44-56 | A complete form is accepted exactly when its role option is not greyed out. |
| BoardForm.OwnRoleAccepted | src/components/forms/PengurusGapoktanFormModal.jsx:44-47 | Editing without changing role is accepted although the role is held. A new member may not take a held role. |
| BoardForm.Roles | src/components/forms/PengurusGapoktanFormModal.jsx:11 | The held-roles list has one entry per board member, in board order. |
| BoardForm.ApplySave | src/components/forms/PengurusGapoktanFormModal.jsx:38-60 | An accepted add appends the form and an accepted edit replaces that row. Anything else leaves the board unchanged. |
| BoardForm.SaveKeepsDistinct | src/components/forms/PengurusGapoktanFormModal.jsx:38-60 | One save keeps the board's roles distinct. |
| BoardForm.SavesKeepDistinct | src/components/forms/PengurusGapoktanFormModal.jsx:38-60 | Any sequence of saves from a board with distinct roles keeps them distinct. |
| GapoktanLinks.Eligible | src/components/forms/TambahKelompokGapoktanModal.jsx:18-33 | The offered groups are exactly the stored groups tagged "Kelompok Tani" that are not yet linked, sorted by name. Each is offered as often as it is stored: the result is a permutation of the filtered list. |
| GapoktanLinks.UntaggedNotOffered | src/components/forms/TambahKelompokGapoktanModal.jsx:26 | A group with no category counts as a Kelompok Tani elsewhere but is never offered. |
| GapoktanLinks.SearchEligible | src/components/forms/TambahKelompokGapoktanModal.jsx:87-91 | An offered group is shown exactly when its lowercased name contains the lowercased term. |
| GapoktanLinks.SearchEligibleKeepsSorted | src/components/forms/TambahKelompokGapoktanModal.jsx:87-91 | Searching a name-ordered list keeps it in name order. |
| GapoktanLinks.ShownEligibleSorted | src/components/forms/TambahKelompokGapoktanModal.jsx:28-33 | The groups the modal shows for any search term are in name order. |
| GapoktanLinks.SearchEmptyShowsAll | src/components/forms/TambahKelompokGapoktanModal.jsx:87-91 | An empty term shows the whole list. |
| GapoktanLinks.Without | src/components/forms/TambahKelompokGapoktanModal.jsx:43 | Removing an id keeps every other id and no repeats. An absent id changes nothing. |
| GapoktanLinks.Toggle | src/components/forms/TambahKelompokGapoktanModal.jsx:40-47 | The toggled id is selected afterwards exactly when it was not before. Every other id keeps its state, and no id is repeated. |
| GapoktanLinks.ToggleTwice | src/components/forms/TambahKelompokGapoktanModal.jsx:40-47 | Toggling twice restores the selected set, and the exact selection when the id was not selected. |
| GapoktanLinks.LinkDoc | src/components/forms/TambahKelompokGapoktanModal.jsx:61-70 | A link carries the group id, a reference to the group, and its listed name or "". |
| GapoktanLinks.Links | src/components/forms/TambahKelompokGapoktanModal.jsx:57-71 | One link per selected id, in selection order. |
| GapoktanLinks.Submit | src/components/forms/TambahKelompokGapoktanModal.jsx:49-83 | An empty selection, or a failed commit, writes nothing. A committed batch appends all the links to `kelompok_anggota` and changes nothing else. |
| GapoktanLinks.LinksResolveToSelection | src/components/forms/TambahKelompokGapoktanModal.jsx:61-64 | Every written link resolves, for the list's enrichment, to the group that was selected. |
| GapoktanLinks.SubmitKeepsIdsDistinct | src/components/forms/TambahKelompokGapoktanModal.jsx:59-60 | Fresh document ids keep the link ids unique. |
| GapoktanLinks.SubmitCountsLinks | src/components/forms/TambahKelompokGapoktanModal.jsx:56-73 | After a commit, the enriched Gapoktan counts one more linked group per selected id. |
| GapoktanLinks.SubmitAddsTotals | src/components/forms/TambahKelompokGapoktanModal.jsx:56-73 | After a commit, the combined totals grow by exactly what the new links add. |
| Card.CardIsGapoktanIff | src/components/cards/CardKelompok.jsx:8 | The card's test, the list's strict test and the defaulted category agree on Gapoktan. A missing category is not Gapoktan. |
| Card.Common | src/components/cards/CardKelompok.jsx:22-34 | Officer names default to "-" and the category to "Kelompok Tani". |
| Card.CardOf | src/components/cards/CardKelompok.jsx:8-19 | The caption is "Kelompok" for a Gapoktan, else "Anggota". A Gapoktan card reads `jumlah_kelompok_gapoktan` and `total_lahan_gapoktan`; any other card reads `jumlah_anggota` and `total_lahan`. Missing values give 0. |
| Card.CardKategoriIsCounted | src/components/cards/CardKelompok.jsx:34 | For a textual or missing category, the card shows the category the statistics use. |
| Card.GapoktanCardShowsZero | src/components/cards/CardKelompok.jsx:12-19 | As written, a list card for a Gapoktan shows count 0 and land 0, while the normalised item carries the real link count and combined land. |
| Card.CardFixed | src/components/cards/CardKelompok.jsx:12-19 | Every card reads `jumlah_anggota` and `total_lahan`, and agrees with the card as written for non-Gapoktan groups. |
| Card.FixedCardShowsEnrichment | src/components/cards/CardKelompok.jsx:12-19 | With the fix, a Gapoktan card shows its number of link documents and the combined land of its linked groups. |
| Text.TrimEmptyIff | src/components/forms/AnggotaFormModal.jsx:42 | `trim()` gives "" exactly when every character is white space or a line terminator in the sense of ECMA-262: the ASCII ones, no-break space, the byte order mark, every Unicode space separator, and U+2028/U+2029. |
| Text.SplitJoin | src/components/forms/KelompokFormModal.jsx:55-69 | Splitting a join of separator-free pieces gives the pieces back. |
| Text.JoinSplit | src/components/forms/KelompokFormModal.jsx:55-69 | Joining the pieces of a split gives the text back. |
| Text.LexCompareZeroIff | src/pages/Public/Detail.jsx:75 | The comparison ties exactly on equal strings. |

## Left out

- The database client. Reads, writes, batches, `serverTimestamp` and generated document ids become parameters: timestamps are opaque values, and new ids are supplied by the caller.
- The 500-operation batch ceiling is not modelled. Only the default chunk size of 450 is.
- Concurrency. The `Promise.all` reads of the list and admin pages, and the stale `anggota.length + 1` closure, are modelled as sequential steps. The combined sums are shown independent of order.
- Chunking.ChunkArray: requires a positive size. With size 0 the source never advances its index.
- Values.ToNumber: whether a stored value is a number is decided when the value is built, not by parsing. `Num` stands for a value `parseFloat` reads as a number and `Str` for other text, so text with a numeric prefix such as "2.5 ha", which `parseFloat` reads as 2.5 but the search shows as text, has no single encoding, and numeric-looking text such as "001" is text to the source but would be `Num` here. GapoktanLinks.LinkDoc writes the chosen id as `Str` whatever it looks like.
- Floating point. Numbers are exact reals. `parseFloat`, `Number` and `toNumber` read text that does not parse as a number as 0 rather than NaN. `toFixed` display formatting is left out.
- KelompokList.DisplayText: JavaScript's number-to-text conversion is a parameter `fmt`, not a definition.
- Locale behaviour. `localeCompare` is plain lexicographic order on code points. `toUpperCase`/`toLowerCase` map ASCII letters only, so title-casing is proved over that mapping.
- Text fields holding non-text values (a number where a name is expected) read as absent in the `|| ""` readings.
- MemberForm.SubmitMember: a non-text name, on which the source's `trim` throws, is modelled as the error `NameNotText`.
- KelompokList.SortItems: stability of the browser's sort is not modelled. The contract states the permutation and the comparator order only.
- Statistik.GetStatsOrInit: another client deleting the record between write and read-back is the parameter `lostBeforeReread`. It is the only way the final fallback is reached.
- BoardForm.ApplySave: the page that hosts the board form is not part of this model. The save sequence is a model of its caller, and an edit of a missing row leaves the board unchanged.
- The `parseFloat` of the land field as it is typed into the member form is not modelled.
- Authentication, admin accounts, settings uploads, routing, the home pages, tables, toasts and dialogs are not part of this model.

## Findings

| source | as written | input that shows it | evidently intended | confidence | as-written member | corrected member |
|---|---|---|---|---|---|---|
| src/utils/firestoreRename.js:68-99 | `renameKelompokDoc` does not compare `oldId` with `newId`. It copies the group onto itself, then deletes every listed subcollection and the parent. | group `g` with one `anggota` member, renamed from `g` to `g` | renaming to the same id is refused, or does nothing | high; not executed | RenameProps.RenameToSameIdLosesGroup, RenameProps.RenameToSameIdExample | RenameProps.RenameGuarded, RenameProps.RenameGuardedKeepsDocuments |
| src/pages/Admin/Admin.jsx:74 | The group delete removes only `kelompok_tani/{id}`. Its `anggota` subcollection stays, with no parent. | group `g1` with member `m1`, deleted | the group "deleted permanently" with its subcollections | high; not executed | Admin.DeleteLeavesMembers, Admin.OrphanedMemberExample | Admin.DeleteGroupCascade, Admin.CascadeLeavesNoOrphans |
| src/components/cards/CardKelompok.jsx:12-19 | A Gapoktan card reads `jumlah_kelompok_gapoktan` and `total_lahan_gapoktan`. Nothing writes these; the list writes the figures to `jumlah_anggota` and `total_lahan`. | any Gapoktan with linked groups, shown on the public list | the card shows the linked-group count and combined land | high; not executed | Card.CardOf, Card.GapoktanCardShowsZero | Card.CardFixed, Card.FixedCardShowsEnrichment |
| src/pages/Admin/Detail.jsx:274-279 | The member modal gets no `existingJabatan`, so no role option is greyed out. Its submit does not check roles either. | a group whose member Sari is Ketua; add Budi as Ketua | the held roles are passed, so a second Ketua cannot be chosen | medium; not executed | MemberForm.DetailAllowsSecondKetua, MemberForm.DetailExisting | MemberForm.TakenRoles, MemberForm.AddKeepsRolesDistinct, MemberForm.EditKeepsRolesDistinct |

=== FILE: admin.dfy ===
/** The admin group table: one row per group with its officers looked up in its
    `anggota` subcollection, the display defaults of its cells, and the group
    delete. */
module Admin {
  import opened Values
  import opened Docs
  import opened DocStore
  import opened Officers
  import opened Lists
  import opened Statistik

  /** A table row: the group's fields with its three officers' names added. */
  function AdminRow(st: Store, g: Doc): (r: Doc)
    ensures r.id == g.id
    ensures forall k :: k in g.data && k !in {"ketua", "sekretaris", "bendahara"} ==> k in r.data && r.data[k] == g.data[k]
    ensures Get(r.data, "ketua") == Some(OfficerName(DataOf(Sub(st, g.id, "anggota")), "Ketua"))
    ensures Get(r.data, "sekretaris") == Some(OfficerName(DataOf(Sub(st, g.id, "anggota")), "Sekretaris"))
    ensures Get(r.data, "bendahara") == Some(OfficerName(DataOf(Sub(st, g.id, "anggota")), "Bendahara"))
  {
    var members := DataOf(Sub(st, g.id, "anggota"));
    Doc(g.id, g.data + map[
      "ketua" := OfficerName(members, "Ketua"),
      "sekretaris" := OfficerName(members, "Sekretaris"),
      "bendahara" := OfficerName(members, "Bendahara")])
  }

  /** The table, one row per group in store order. */
  function AdminRows(st: Store): (rows: Collection)
    ensures |rows| == |st.groups| && IdsOf(rows) == IdsOf(st.groups)
    ensures forall i :: 0 <= i < |rows| ==> rows[i] == AdminRow(st, st.groups[i])
  {
    seq(|st.groups|, i requires 0 <= i < |st.groups| => AdminRow(st, st.groups[i]))
  }

  /** The displayed cells of a row: the category (`|| "Kelompok Tani"`), the member
      count and the land (`|| 0`). */
  datatype Cells = Cells(kategori: Value, jumlahAnggota: Value, totalLahan: Value)

  function RowCells(row: Fields): (c: Cells)
    ensures Get(row, "kategori").Some? && Truthy(row["kategori"]) ==> c.kategori == row["kategori"]
    ensures !(Get(row, "kategori").Some? && Truthy(row["kategori"])) ==> c.kategori == Str("Kelompok Tani")
    ensures c.jumlahAnggota == OrZero(Get(row, "jumlah_anggota"))
    ensures c.totalLahan == OrZero(Get(row, "total_lahan"))
  {
    var k := Get(row, "kategori");
    Cells(if k.Some? && Truthy(k.value) then k.value else Str("Kelompok Tani"),
          OrZero(Get(row, "jumlah_anggota")), OrZero(Get(row, "total_lahan")))
  }

  /** For a textual or missing category, the displayed category is the one the
      statistics use to decide whether a group is a Gapoktan. */
  lemma ShownKategoriIsCounted(row: Fields)
    requires "kategori" !in row || row["kategori"].Str?
    ensures RowCells(row).kategori == Str(KategoriOf(row))
  {
  }

  /** `handleDelete` of a group: the group document goes and the table loses every
      row with that id. A failed delete changes nothing. Subcollections are left
      where they are. */
  function HandleDeleteGroup(st: Store, rows: Collection, id: Id, fails: bool): (r: (Store, Collection))
    ensures fails ==> r == (st, rows)
    ensures !fails ==> r.0.groups == RemoveIds(st.groups, [id]) && r.1 == Filter(rows, (k: Doc) => k.id != id)
    ensures r.0.subs == st.subs && r.0.stats == st.stats
  {
    if fails then (st, rows) else (DeleteParent(st, id), Filter(rows, (k: Doc) => k.id != id))
  }

  /** The table after a delete keeps every other row, in order, and no row with
      the deleted id. */
  lemma DeleteGroupRows(st: Store, rows: Collection, id: Id)
    ensures var r := HandleDeleteGroup(st, rows, id, false).1;
            && (forall d :: d in r <==> d in rows && d.id != id)
            && r == RemoveIds(rows, [id])
  {
    FilterIsRemove(rows, id);
  }

  lemma {:induction false} FilterIsRemove(rows: Collection, id: Id)
    ensures Filter(rows, (k: Doc) => k.id != id) == RemoveIds(rows, [id])
    decreases |rows|
  {
    if |rows| > 0 {
      FilterIsRemove(rows[1..], id);
    }
  }

  /** As written, deleting a group leaves its members behind: the group document is
      gone but every subcollection under its id, `anggota` included, still holds
      what it held. */
  lemma DeleteLeavesMembers(st: Store, rows: Collection, id: Id)
    ensures var st' := HandleDeleteGroup(st, rows, id, false).0;
            && Parent(st', id).None?
            && forall n :: Sub(st', id, n) == Sub(st, id, n)
  {
    FindRemoveIds(st.groups, [id], id);
  }

  /** A concrete case: group "g1" with one member. After the delete the member is
      still stored under "g1", with no group document above it. */
  lemma OrphanedMemberExample()
    ensures var m := Doc("m1", map["nama" := Str("Sari")]);
            var st := Store([Doc("g1", map["nama_kelompok" := Str("Tani Maju")])],
                            map[SubKey("g1", "anggota") := [m]], None);
            var st' := HandleDeleteGroup(st, AdminRows(st), "g1", false).0;
            Parent(st', "g1").None? && Sub(st', "g1", "anggota") == [m]
  {
    var m := Doc("m1", map["nama" := Str("Sari")]);
    var st := Store([Doc("g1", map["nama_kelompok" := Str("Tani Maju")])],
                    map[SubKey("g1", "anggota") := [m]], None);
    DeleteLeavesMembers(st, AdminRows(st), "g1");
  }

  /** The subcollections a group can own. */
  const OwnedSubcollections: seq<string> := ["anggota", "pengurus", "kelompok_anggota"]

  /** The delete the confirmation dialog promises ("deleted permanently"): the group
      document and every subcollection it owns. */
  function DeleteGroupCascade(st: Store, id: Id): (st': Store)
    ensures Parent(st', id).None?
    ensures forall n :: n in OwnedSubcollections ==> Sub(st', id, n) == []
    ensures forall q, n :: q != id || n !in OwnedSubcollections ==> Sub(st', q, n) == Sub(st, q, n)
    ensures forall q :: q != id ==> Parent(st', q) == Parent(st, q)
    ensures st'.stats == st.stats
  {
    FindRemoveIdsAll(st.groups, id);
    var s1 := WithSub(DeleteParent(st, id), id, "anggota", []);
    var s2 := WithSub(s1, id, "pengurus", []);
    WithSub(s2, id, "kelompok_anggota", [])
  }

  lemma FindRemoveIdsAll(c: Collection, id: Id)
    ensures forall q :: Find(RemoveIds(c, [id]), q) == if q == id then None else Find(c, q)
  {
    forall q ensures Find(RemoveIds(c, [id]), q) == if q == id then None else Find(c, q) {
      FindRemoveIds(c, [id], q);
    }
  }

  /** The cascade leaves no orphans: under an id without a group document, no owned
      subcollection holds anything, provided none did before. */
  lemma CascadeLeavesNoOrphans(st: Store, id: Id)
    requires forall q, n :: Parent(st, q).None? && n in OwnedSubcollections ==> Sub(st, q, n) == []
    ensures var st' := DeleteGroupCascade(st, id);
            forall q, n :: Parent(st', q).None? && n in OwnedSubcollections ==> Sub(st', q, n) == []
  {
  }

  /** Deleting a group, either way, takes exactly that group's contribution out of
      the statistics; the orphans of the plain delete are simply no longer counted. */
  lemma DeleteGroupTotals(st: Store, id: Id)
    requires Valid(st) && Parent(st, id).Some?
    ensures var t := ComputeTotals(DeleteParent(st, id));
            var c := Contribution(st, Doc(id, Parent(st, id).value));
            ComputeTotals(st) == Totals(t.jumlahKelompok + 1, t.totalAnggota + c.anggota, t.totalLahan + c.lahan)
    ensures ComputeTotals(DeleteGroupCascade(st, id)) == ComputeTotals(DeleteParent(st, id))
  {
    DeleteParentTotals(st, id);
    CascadeSameTotals(st, id);
  }

  lemma DeleteParentTotals(st: Store, id: Id)
    requires Valid(st) && Parent(st, id).Some?
    ensures var t := ComputeTotals(DeleteParent(st, id));
            var c := Contribution(st, Doc(id, Parent(st, id).value));
            ComputeTotals(st) == Totals(t.jumlahKelompok + 1, t.totalAnggota + c.anggota, t.totalLahan + c.lahan)
  {
    TallyRemove(st, st.groups, id);
    var rest := RemoveIds(st.groups, [id]);
    TallyFrame(st, DeleteParent(st, id), rest);
  }

  /** The cascade removes only subcollections of a group that is no longer counted,
      so it leaves the statistics of the plain delete as they are. */
  lemma CascadeSameTotals(st: Store, id: Id)
    requires Valid(st) && Parent(st, id).Some?
    ensures ComputeTotals(DeleteGroupCascade(st, id)) == ComputeTotals(DeleteParent(st, id))
  {
    var rest := RemoveIds(st.groups, [id]);
    forall i | 0 <= i < |rest| ensures Sub(DeleteParent(st, id), rest[i].id, "anggota") == Sub(DeleteGroupCascade(st, id), rest[i].id, "anggota") {
      assert rest[i] in rest;
    }
    TallyFrame(DeleteParent(st, id), DeleteGroupCascade(st, id), rest);
  }
}

=== FILE: admin_detail.dfy ===
/** The admin page of one group: adding, editing and deleting members, each followed
    by a local list update and, for add and delete, a rewrite of the group's cached
    `jumlah_anggota`. */
module AdminDetail {
  import opened Values
  import opened Docs
  import opened DocStore

  /** The store, the group being shown, and the member list the page holds. */
  datatype Page = Page(st: Store, groupId: Id, anggota: Collection)

  /** The page shows exactly the members the store holds for the group. */
  predicate InSync(p: Page) {
    p.anggota == Sub(p.st, p.groupId, "anggota")
  }

  /** The group's cached member count matches the list, when the group exists. */
  predicate CountCached(p: Page) {
    Parent(p.st, p.groupId).Some? ==>
      Get(Parent(p.st, p.groupId).value, "jumlah_anggota") == Some(Num(|p.anggota| as real))
  }

  /** `{...data, jabatan: data.jabatan || "Anggota"}`: a saved member always has a
      role. */
  function WithJabatan(data: Fields): (f: Fields)
    ensures "jabatan" in f && Truthy(f["jabatan"])
    ensures forall k :: k in data && k != "jabatan" ==> k in f && f[k] == data[k]
    ensures f.Keys == data.Keys + {"jabatan"}
    ensures "jabatan" in data && Truthy(data["jabatan"]) ==> f["jabatan"] == data["jabatan"]
    ensures !("jabatan" in data && Truthy(data["jabatan"])) ==> f["jabatan"] == Str("Anggota")
  {
    var j := Get(data, "jabatan");
    data["jabatan" := if j.Some? && Truthy(j.value) then j.value else Str("Anggota")]
  }

  /** The count update the page sends: `updateDoc` of `jumlah_anggota`, which changes
      nothing when the group document is gone. */
  function SetCount(st: Store, groupId: Id, n: nat): (st': Store)
    ensures st'.subs == st.subs && st'.stats == st.stats
    ensures OnlyCountChanged(st, st', groupId, n)
    ensures Parent(st', groupId).Some? ==> Get(Parent(st', groupId).value, "jumlah_anggota") == Some(Num(n as real))
  {
    UpdateParentEffect(st, groupId, map["jumlah_anggota" := Num(n as real)]);
    UpdateParent(st, groupId, map["jumlah_anggota" := Num(n as real)])
  }

  /** `handleDelete`: the member document goes, the page drops every row with that
      id, and the cached count is set to the new list length. A failed delete
      (`fails`) changes nothing. The count write is neither awaited nor caught, so
      when it fails (`countFails`) the member is still gone and the count is stale. */
  function HandleDelete(p: Page, memberId: Id, fails: bool, countFails: bool): (r: Page)
    ensures r.groupId == p.groupId
    ensures fails ==> r == p
    ensures !fails ==> r.anggota == RemoveIds(p.anggota, [memberId])
    ensures !fails ==> Sub(r.st, p.groupId, "anggota") == RemoveIds(Sub(p.st, p.groupId, "anggota"), [memberId])
    ensures !fails && !countFails ==> OnlyCountChanged(p.st, r.st, p.groupId, |r.anggota|)
    ensures countFails ==> r.st.groups == p.st.groups
    ensures forall q, n :: (q != p.groupId || n != "anggota") ==> Sub(r.st, q, n) == Sub(p.st, q, n)
    ensures r.st.stats == p.st.stats
  {
    if fails then p
    else
      var st1 := WithSub(p.st, p.groupId, "anggota", RemoveIds(Sub(p.st, p.groupId, "anggota"), [memberId]));
      var updated := RemoveIds(p.anggota, [memberId]);
      Page(if countFails then st1 else SetCount(st1, p.groupId, |updated|), p.groupId, updated)
  }

  /** `handleSubmitModal` without an edited row: the store adds the member under a
      fresh generated id, the page appends it, and the cached count becomes the page's
      previous length plus one. A failed add (`fails`) changes nothing. When only the
      count write fails (`countFails`), the member is stored and shown and the count
      is stale. */
  function HandleAdd(p: Page, newId: Id, data: Fields, fails: bool, countFails: bool): (r: Page)
    requires newId !in IdsOf(Sub(p.st, p.groupId, "anggota"))
    ensures r.groupId == p.groupId
    ensures fails ==> r == p
    ensures !fails ==> r.anggota == p.anggota + [Doc(newId, WithJabatan(data))]
    ensures !fails ==> Sub(r.st, p.groupId, "anggota") == Sub(p.st, p.groupId, "anggota") + [Doc(newId, WithJabatan(data))]
    ensures !fails && !countFails ==> OnlyCountChanged(p.st, r.st, p.groupId, |p.anggota| + 1)
    ensures countFails ==> r.st.groups == p.st.groups
    ensures forall q, n :: (q != p.groupId || n != "anggota") ==> Sub(r.st, q, n) == Sub(p.st, q, n)
    ensures r.st.stats == p.st.stats
  {
    if fails then p
    else
      var member := Doc(newId, WithJabatan(data));
      var st1 := WithSub(p.st, p.groupId, "anggota", Sub(p.st, p.groupId, "anggota") + [member]);
      Page(if countFails then st1 else SetCount(st1, p.groupId, |p.anggota| + 1), p.groupId, p.anggota + [member])
  }

  /** The page's own update of an edited row (`prev.map`): every row with that id
      gets the new fields merged in, the others stay. */
  function MergeWhere(c: Collection, id: Id, f: Fields): (r: Collection)
    ensures |r| == |c|
    ensures forall i :: 0 <= i < |c| ==> r[i] == if c[i].id == id then Doc(id, c[i].data + f) else c[i]
    decreases |c|
  {
    if |c| == 0 then []
    else [if c[0].id == id then Doc(id, c[0].data + f) else c[0]] + MergeWhere(c[1..], id, f)
  }

  /** `handleSubmitModal` with an edited row: the member document gets the new fields
      merged in and so does the page's row. Editing a member that is no longer stored
      fails, and a failed edit changes nothing. The cached count is not touched. */
  function HandleEdit(p: Page, editId: Id, data: Fields, fails: bool): (r: Page)
    ensures r.groupId == p.groupId && r.st.groups == p.st.groups && r.st.stats == p.st.stats
    ensures fails || Find(Sub(p.st, p.groupId, "anggota"), editId).None? ==> r == p
    ensures !fails && Find(Sub(p.st, p.groupId, "anggota"), editId).Some? ==>
              && r.anggota == MergeWhere(p.anggota, editId, WithJabatan(data))
              && Sub(r.st, p.groupId, "anggota") == SetMerge(Sub(p.st, p.groupId, "anggota"), Doc(editId, WithJabatan(data)))
    ensures forall q, n :: (q != p.groupId || n != "anggota") ==> Sub(r.st, q, n) == Sub(p.st, q, n)
  {
    if fails then p
    else match Update(Sub(p.st, p.groupId, "anggota"), editId, WithJabatan(data))
      case None => p
      case Some(c) => Page(WithSub(p.st, p.groupId, "anggota", c), p.groupId, MergeWhere(p.anggota, editId, WithJabatan(data)))
  }

  // ---------------------------------------------------------------------------
  // What the handlers keep
  // ---------------------------------------------------------------------------

  /** The group documents after a count update: the group's `jumlah_anggota`
      becomes `n`, nothing else changes. */
  ghost predicate OnlyCountChanged(st: Store, st': Store, groupId: Id, n: nat) {
    && (forall q :: q != groupId ==> Parent(st', q) == Parent(st, q))
    && Parent(st', groupId) ==
         if Parent(st, groupId).Some? then Some(Parent(st, groupId).value + map["jumlah_anggota" := Num(n as real)])
         else None
  }

  /** A delete keeps the page in step with the store and the cached count right; of
      the group documents only that count changes (`total_lahan` keeps its old value). */
  lemma DeleteKeepsSync(p: Page, memberId: Id)
    requires InSync(p)
    ensures var r := HandleDelete(p, memberId, false, false);
            InSync(r) && CountCached(r) && OnlyCountChanged(p.st, r.st, p.groupId, |r.anggota|)
  {
  }

  /** An add keeps the page in step with the store and, when the page was in step,
      the cached count right; of the group documents only that count changes. */
  lemma AddKeepsSync(p: Page, newId: Id, data: Fields)
    requires InSync(p) && newId !in IdsOf(Sub(p.st, p.groupId, "anggota"))
    ensures var r := HandleAdd(p, newId, data, false, false);
            InSync(r) && CountCached(r) && OnlyCountChanged(p.st, r.st, p.groupId, |r.anggota|)
  {
  }

  /** When the add's count write fails, the page and the store still agree on the
      members, but the cached count of an existing group no longer matches them. */
  lemma AddCountFailureStale(p: Page, newId: Id, data: Fields)
    requires InSync(p) && CountCached(p) && Parent(p.st, p.groupId).Some?
    requires newId !in IdsOf(Sub(p.st, p.groupId, "anggota"))
    ensures var r := HandleAdd(p, newId, data, false, true);
            InSync(r) && !CountCached(r)
  {
    var r := HandleAdd(p, newId, data, false, true);
    assert Parent(r.st, p.groupId) == Parent(p.st, p.groupId);
    assert |r.anggota| == |p.anggota| + 1;
  }

  /** When the delete's un-awaited count write fails after a member was removed, the
      cached count of an existing group is stale in the same way. */
  lemma DeleteCountFailureStale(p: Page, memberId: Id)
    requires InSync(p) && CountCached(p) && Parent(p.st, p.groupId).Some?
    requires memberId in IdsOf(p.anggota)
    ensures var r := HandleDelete(p, memberId, false, true);
            InSync(r) && !CountCached(r)
  {
    var r := HandleDelete(p, memberId, false, true);
    var i :| 0 <= i < |p.anggota| && IdsOf(p.anggota)[i] == memberId;
    RemoveIdsShrinks(p.anggota, [memberId], i);
    assert Parent(r.st, p.groupId) == Parent(p.st, p.groupId);
  }

  /** With unique member ids, the store's merge into the edited member and the page's
      merge into every matching row agree. */
  lemma {:induction false} SetMergeExisting(c: Collection, id: Id, f: Fields)
    requires DistinctIds(c) && Find(c, id).Some?
    ensures SetMerge(c, Doc(id, f)) == MergeWhere(c, id, f)
    decreases |c|
  {
    if c[0].id != id {
      SetMergeExisting(c[1..], id, f);
    } else {
      forall i | 0 <= i < |c[1..]| ensures c[1..][i].id != id {
        assert c[0].id != c[i + 1].id;
      }
      MergeWhereAbsent(c[1..], id, f);
    }
  }

  lemma {:induction false} MergeWhereAbsent(c: Collection, id: Id, f: Fields)
    requires forall i :: 0 <= i < |c| ==> c[i].id != id
    ensures MergeWhere(c, id, f) == c
    decreases |c|
  {
    if |c| > 0 {
      MergeWhereAbsent(c[1..], id, f);
    }
  }

  /** An edit keeps the page in step with a store whose members have unique ids, and
      leaves the list length, and so the cached count, as it was. */
  lemma EditKeepsSync(p: Page, editId: Id, data: Fields)
    requires InSync(p) && DistinctIds(Sub(p.st, p.groupId, "anggota"))
    ensures var r := HandleEdit(p, editId, data, false);
            && InSync(r) && |r.anggota| == |p.anggota|
            && (CountCached(p) ==> CountCached(r))
  {
    if Find(Sub(p.st, p.groupId, "anggota"), editId).Some? {
      SetMergeExisting(Sub(p.st, p.groupId, "anggota"), editId, WithJabatan(data));
    }
  }

  /** Deleting a member just added restores the member list, in the store and on the
      page, and, when the count was right before, the group documents too. */
  lemma {:induction false} AddThenDelete(p: Page, newId: Id, data: Fields)
    requires InSync(p) && CountCached(p) && newId !in IdsOf(Sub(p.st, p.groupId, "anggota"))
    ensures var r := HandleDelete(HandleAdd(p, newId, data, false, false), newId, false, false);
            && r.anggota == p.anggota
            && Sub(r.st, p.groupId, "anggota") == Sub(p.st, p.groupId, "anggota")
            && (forall q :: Parent(r.st, q) == Parent(p.st, q))
  {
    var a := HandleAdd(p, newId, data, false, false);
    var r := HandleDelete(a, newId, false, false);
    AddThenDeleteMembers(p, a, r, Doc(newId, WithJabatan(data)));
    AddKeepsSync(p, newId, data);
    DeleteKeepsSync(a, newId);
    CountRoundTrip(p.st, a.st, r.st, p.groupId, |p.anggota|);
  }

  lemma AddThenDeleteMembers(p: Page, a: Page, r: Page, member: Doc)
    requires InSync(p) && member.id !in IdsOf(p.anggota)
    requires a.anggota == p.anggota + [member] && r.anggota == RemoveIds(a.anggota, [member.id])
    requires Sub(a.st, p.groupId, "anggota") == p.anggota + [member]
    requires Sub(r.st, p.groupId, "anggota") == RemoveIds(Sub(a.st, p.groupId, "anggota"), [member.id])
    ensures r.anggota == p.anggota && Sub(r.st, p.groupId, "anggota") == p.anggota
  {
    RemoveFreshMember(p.anggota, member);
  }

  /** Setting the count to `n + 1` and then back to a correct `n` leaves the group
      documents as they were. */
  lemma CountRoundTrip(st0: Store, st1: Store, st2: Store, groupId: Id, n: nat)
    requires OnlyCountChanged(st0, st1, groupId, n + 1) && OnlyCountChanged(st1, st2, groupId, n)
    requires Parent(st0, groupId).Some? ==> Get(Parent(st0, groupId).value, "jumlah_anggota") == Some(Num(n as real))
    ensures forall q :: Parent(st2, q) == Parent(st0, q)
  {
    if Parent(st0, groupId).Some? {
      RewriteSame(Parent(st0, groupId).value, "jumlah_anggota", Num((n + 1) as real), Num(n as real));
    }
  }

  /** Writing a field twice, the second time with its original value, leaves the
      fields as they were. */
  lemma RewriteSame(g: Fields, k: string, v1: Value, v: Value)
    requires k in g && g[k] == v
    ensures g + map[k := v1] + map[k := v] == g
  {
    var h := g + map[k := v1] + map[k := v];
    assert h.Keys == g.Keys;
    forall j | j in g ensures h[j] == g[j] {
    }
  }

  /** Appending a member under a fresh id and deleting that id gives the list back. */
  lemma RemoveFreshMember(c: Collection, member: Doc)
    requires member.id !in IdsOf(c)
    ensures RemoveIds(c + [member], [member.id]) == c
  {
    RemoveIdsAppendDeleted(c, member, [member.id]);
    forall i | 0 <= i < |c| ensures c[i].id !in [member.id] {
      assert IdsOf(c)[i] == c[i].id;
    }
    RemoveIdsAbsent(c, [member.id]);
  }
}

=== FILE: anggota_form.dfy ===
/** The member form of the admin group page: the name check on submit, the blank
    form it opens with, and the rule that greys out an officer role already held by
    someone else. */
module MemberForm {
  import opened Values
  import opened Docs
  import opened DocStore
  import opened Text
  import opened Officers
  import opened AdminDetail

  /** The roles only one member may hold. */
  const UniqueRoles: set<string> := {"Ketua", "Sekretaris", "Bendahara"}

  /** The roles the select offers. */
  const RoleOptions: seq<string> := ["Ketua", "Sekretaris", "Bendahara", "Anggota"]

  const FormKeys: set<string> := {"nama", "nik", "no_hp", "luas", "jabatan", "ket"}

  /** The form the modal shows when it opens: the edited member as it is, or every
      field empty. */
  function OpenForm(initial: Option<Fields>): (f: Fields)
    ensures initial.Some? ==> f == initial.value
    ensures initial.None? ==> f.Keys == FormKeys && forall k :: k in f ==> f[k] == Str("")
  {
    if initial.Some? then initial.value
    else map["nama" := Str(""), "nik" := Str(""), "no_hp" := Str(""), "luas" := Str(""),
             "jabatan" := Str(""), "ket" := Str("")]
  }

  /** Why a submit did not reach the page: a blank name, or a name that is not text
      (`trim` of it throws before anything is sent). */
  datatype FormError = NameRequired | NameNotText

  /** `handleSubmit`: the form goes to the page exactly as it stands when its name
      is text with something other than white space in it. The role is not checked
      here. */
  function SubmitMember(form: Fields): (r: Result<Fields, FormError>)
    ensures r.Success? ==> r.value == form
    ensures r == Failure(NameNotText) <==> !(Get(form, "nama").Some? && form["nama"].Str?)
    ensures r == Failure(NameRequired) <==> Get(form, "nama").Some? && form["nama"].Str? && Trim(form["nama"].s) == ""
  {
    var n := Get(form, "nama");
    if !(n.Some? && n.value.Str?) then Failure(NameNotText)
    else if Trim(n.value.s) == "" then Failure(NameRequired)
    else Success(form)
  }

  /** A name made only of white space is rejected like an empty one, and any other
      textual name is accepted whatever the other fields hold. */
  lemma SubmitNameRule(form: Fields)
    requires Get(form, "nama").Some? && form["nama"].Str?
    ensures SubmitMember(form).Success? <==> !AllSpace(form["nama"].s)
  {
    TrimEmptyIff(form["nama"].s);
  }

  /** A name made only of ideographic spaces, which `trim()` removes, is refused. */
  lemma IdeographicSpaceNameRejected()
    ensures SubmitMember(map["nama" := Str("\U{3000}\U{3000}")]) == Failure(NameRequired)
  {
    var s := "\U{3000}\U{3000}";
    assert AllSpace(s);
    TrimEmptyIff(s);
  }

  /** A freshly opened add form cannot be submitted. */
  lemma BlankFormRejected()
    ensures SubmitMember(OpenForm(None)) == Failure(NameRequired)
  {
    assert Trim("") == "";
  }

  /** The `disabled` flag of a role option: one of the three unique roles, already
      in the list of held roles, and not the edited member's own role. */
  function OptionDisabled(role: string, existing: seq<string>, initial: Option<Fields>): (d: bool)
    ensures d ==> role in UniqueRoles && role in existing
    ensures role in UniqueRoles && role in existing && initial.None? ==> d
    ensures initial.Some? && HasRole(initial.value, role) ==> !d
    ensures role in UniqueRoles && role in existing && initial.Some? && !HasRole(initial.value, role) ==> d
  {
    role in UniqueRoles && role in existing && !(initial.Some? && HasRole(initial.value, role))
  }

  /** "Anggota" can always be chosen, and with no held roles nothing is greyed out. */
  lemma OptionsAlwaysOpen(role: string, existing: seq<string>, initial: Option<Fields>)
    ensures !OptionDisabled("Anggota", existing, initial)
    ensures !OptionDisabled(role, [], initial)
  {
  }

  /** The submitted form respects the select: its role, when it is text, is not one
      the select greys out. */
  predicate RoleAllowed(form: Fields, existing: seq<string>, initial: Option<Fields>) {
    Get(form, "jabatan").Some? && form["jabatan"].Str? ==> !OptionDisabled(form["jabatan"].s, existing, initial)
  }

  /** No two members hold the same unique role. */
  predicate RolesDistinct(ms: seq<Fields>) {
    forall i, j, r :: 0 <= i < |ms| && 0 <= j < |ms| && i != j && r in UniqueRoles && HasRole(ms[i], r) ==> !HasRole(ms[j], r)
  }

  // ---------------------------------------------------------------------------
  // The page as written
  // ---------------------------------------------------------------------------

  /** The held roles the group page hands the modal: none, so `existingJabatan` is
      undefined and read as the empty list. */
  const DetailExisting: seq<string> := []

  /** With nothing greyed out and no role check on submit, the group page lets a
      second chairman be added next to an existing one, even when the roles were
      distinct before. */
  lemma DetailAllowsSecondKetua(p: Page, newId: Id, form: Fields, k: nat)
    requires newId !in IdsOf(Sub(p.st, p.groupId, "anggota"))
    requires RolesDistinct(DataOf(p.anggota))
    requires k < |p.anggota| && HasRole(DataOf(p.anggota)[k], "Ketua")
    requires Get(form, "nama").Some? && form["nama"].Str? && !AllSpace(form["nama"].s)
    requires Get(form, "jabatan") == Some(Str("Ketua"))
    ensures RoleAllowed(form, DetailExisting, None)
    ensures SubmitMember(form) == Success(form)
    ensures !RolesDistinct(DataOf(HandleAdd(p, newId, form, false, false).anggota))
  {
    SubmitNameRule(form);
    AddHeldRoleBreaksDistinct(p, newId, form, "Ketua", k);
  }

  /** Adding a member whose role someone on the page already holds puts two holders
      of that role on the page. */
  lemma AddHeldRoleBreaksDistinct(p: Page, newId: Id, form: Fields, role: string, k: nat)
    requires newId !in IdsOf(Sub(p.st, p.groupId, "anggota"))
    requires role in UniqueRoles && Get(form, "jabatan") == Some(Str(role))
    requires k < |p.anggota| && HasRole(DataOf(p.anggota)[k], role)
    ensures !RolesDistinct(DataOf(HandleAdd(p, newId, form, false, false).anggota))
  {
    var ms := DataOf(HandleAdd(p, newId, form, false, false).anggota);
    assert ms[k] == DataOf(p.anggota)[k];
    assert ms[|p.anggota|] == WithJabatan(form);
    assert HasRole(ms[k], role) && HasRole(ms[|p.anggota|], role);
  }

  // ---------------------------------------------------------------------------
  // The page passing the held roles
  // ---------------------------------------------------------------------------

  /** The roles held in a member list, in list order: what the group page should hand
      the modal as `existingJabatan`. */
  function TakenRoles(ms: seq<Fields>): (r: seq<string>)
    ensures forall role :: role in r <==> exists i :: 0 <= i < |ms| && HasRole(ms[i], role)
    decreases |ms|
  {
    if |ms| == 0 then []
    else
      var j := Get(ms[0], "jabatan");
      var rest := TakenRoles(ms[1..]);
      assert forall role :: role in rest <==> exists i :: 1 <= i < |ms| && HasRole(ms[i], role) by {
        forall role | role in rest ensures exists i :: 1 <= i < |ms| && HasRole(ms[i], role) {
          var i :| 0 <= i < |ms[1..]| && HasRole(ms[1..][i], role);
          assert HasRole(ms[i + 1], role);
        }
        forall role | exists i :: 1 <= i < |ms| && HasRole(ms[i], role) ensures role in rest {
          var i :| 1 <= i < |ms| && HasRole(ms[i], role);
          assert HasRole(ms[1..][i - 1], role);
        }
      }
      (if j.Some? && j.value.Str? then [j.value.s] else []) + rest
  }

  /** A saved member holds a unique role exactly when the form carried it. */
  lemma SavedRole(form: Fields, base: Fields, r: string)
    requires r in UniqueRoles
    ensures HasRole(base + WithJabatan(form), r) <==> Get(form, "jabatan") == Some(Str(r))
  {
  }

  /** Every role some member holds is in the list of held roles. */
  lemma TakenRolesHeld(ms: seq<Fields>)
    ensures forall j, r :: 0 <= j < |ms| && HasRole(ms[j], r) ==> r in TakenRoles(ms)
  {
  }

  /** Adding a member whose role the select allows, against the held roles of the
      list, keeps every unique role with at most one holder. */
  lemma AddKeepsRolesDistinct(p: Page, newId: Id, form: Fields)
    requires newId !in IdsOf(Sub(p.st, p.groupId, "anggota"))
    requires RolesDistinct(DataOf(p.anggota))
    requires RoleAllowed(form, TakenRoles(DataOf(p.anggota)), None)
    ensures RolesDistinct(DataOf(HandleAdd(p, newId, form, false, false).anggota))
  {
    var old_ := DataOf(p.anggota);
    var ms := DataOf(HandleAdd(p, newId, form, false, false).anggota);
    assert |ms| == |old_| + 1;
    assert ms[|old_|] == map[] + WithJabatan(form);
    TakenRolesHeld(old_);
    forall i, j, r | 0 <= i < |ms| && 0 <= j < |ms| && i != j && r in UniqueRoles && HasRole(ms[i], r)
      ensures !HasRole(ms[j], r)
    {
      SavedRole(form, map[], r);
      if i < |old_| {
        assert ms[i] == old_[i];
      }
      if j < |old_| {
        assert ms[j] == old_[j];
      }
    }
  }

  /** Editing row `k`, with the held roles of the list and the row's own data handed
      to the modal, keeps every unique role with at most one holder. */
  lemma EditListDistinct(c: Collection, k: nat, form: Fields)
    requires k < |c| && DistinctIds(c)
    requires RolesDistinct(DataOf(c))
    requires RoleAllowed(form, TakenRoles(DataOf(c)), Some(c[k].data))
    ensures RolesDistinct(DataOf(MergeWhere(c, c[k].id, WithJabatan(form))))
  {
    var old_ := DataOf(c);
    var ms := DataOf(MergeWhere(c, c[k].id, WithJabatan(form)));
    EditedRows(c, k, form);
    EditedDistinct(old_, ms, k, form);
  }

  /** A list whose row `k` alone took the edited fields keeps its unique roles
      distinct when the select allowed the edit. */
  lemma EditedDistinct(old_: seq<Fields>, ms: seq<Fields>, k: nat, form: Fields)
    requires |ms| == |old_| && k < |old_| && ms[k] == old_[k] + WithJabatan(form)
    requires forall t :: 0 <= t < |ms| && t != k ==> ms[t] == old_[t]
    requires RolesDistinct(old_)
    requires RoleAllowed(form, TakenRoles(old_), Some(old_[k]))
    ensures RolesDistinct(ms)
  {
    forall i, j, r | 0 <= i < |ms| && 0 <= j < |ms| && i != j && r in UniqueRoles && HasRole(ms[i], r)
      ensures !HasRole(ms[j], r)
    {
      EditPairDistinct(old_, ms, k, form, i, j, r);
    }
  }

  /** With unique ids, the page's edit changes row `k` alone. */
  lemma EditedRows(c: Collection, k: nat, form: Fields)
    requires k < |c| && DistinctIds(c)
    ensures var old_ := DataOf(c);
            var ms := DataOf(MergeWhere(c, c[k].id, WithJabatan(form)));
            && |ms| == |old_| && ms[k] == old_[k] + WithJabatan(form)
            && forall t :: 0 <= t < |ms| && t != k ==> ms[t] == old_[t]
  {
    var old_ := DataOf(c);
    var ms := DataOf(MergeWhere(c, c[k].id, WithJabatan(form)));
    forall t | 0 <= t < |ms| && t != k ensures ms[t] == old_[t] {
      assert c[t].id != c[k].id;
    }
  }

  /** One pair of rows after row `k` took the edited fields: they cannot both hold the
      same unique role. */
  lemma EditPairDistinct(old_: seq<Fields>, ms: seq<Fields>, k: nat, form: Fields, i: int, j: int, r: string)
    requires |ms| == |old_| && k < |old_| && ms[k] == old_[k] + WithJabatan(form)
    requires forall t :: 0 <= t < |ms| && t != k ==> ms[t] == old_[t]
    requires RolesDistinct(old_)
    requires RoleAllowed(form, TakenRoles(old_), Some(old_[k]))
    requires 0 <= i < |ms| && 0 <= j < |ms| && i != j && r in UniqueRoles && HasRole(ms[i], r)
    ensures !HasRole(ms[j], r)
  {
    TakenRolesHeld(old_);
    SavedRole(form, old_[k], r);
  }

  /** Editing a member on the page, with the held roles and the member's own data
      handed to the modal, keeps every unique role with at most one holder. */
  lemma EditKeepsRolesDistinct(p: Page, k: nat, form: Fields)
    requires k < |p.anggota| && DistinctIds(p.anggota)
    requires RolesDistinct(DataOf(p.anggota))
    requires RoleAllowed(form, TakenRoles(DataOf(p.anggota)), Some(p.anggota[k].data))
    ensures RolesDistinct(DataOf(HandleEdit(p, p.anggota[k].id, form, false).anggota))
  {
    EditListDistinct(p.anggota, k, form);
  }
}

=== FILE: card.dfy ===
/** The group card of the public list: a caption and count, the land area, the three
    officers and the category, each with its display default. */
module Card {
  import opened Values
  import opened Docs
  import opened DocStore
  import opened GapoktanEnrich
  import opened KelompokList

  datatype CardView = CardView(caption: string, count: Value, land: real, kategori: Value,
                               ketua: Value, sekretaris: Value, bendahara: Value)

  /** `v || d`. */
  function Or(v: Option<Value>, d: Value): (r: Value)
    ensures v.Some? && Truthy(v.value) ==> r == v.value
    ensures !(v.Some? && Truthy(v.value)) ==> r == d
  {
    if v.Some? && Truthy(v.value) then v.value else d
  }

  /** `(kategori || "") === "Gapoktan"`. */
  predicate CardIsGapoktan(f: Fields) {
    Or(Get(f, "kategori"), Str("")) == Str("Gapoktan")
  }

  /** The card's test, the list's strict test and the defaulted category all agree
      on which groups are Gapoktan; a missing category is not. */
  lemma CardIsGapoktanIff(f: Fields)
    ensures CardIsGapoktan(f) <==> IsGapoktan(f)
    ensures CardIsGapoktan(f) <==> KategoriOf(f) == "Gapoktan"
  {
    KategoriGapoktanIff(f);
  }

  /** The parts every card shows the same way: officers defaulting to "-" and the
      category to "Kelompok Tani". */
  function Common(f: Fields, caption: string, count: Value, land: real): (c: CardView)
    ensures c.caption == caption && c.count == count && c.land == land
    ensures c.kategori == Or(Get(f, "kategori"), Str("Kelompok Tani"))
    ensures c.ketua == Or(Get(f, "ketua"), Str("-")) && c.sekretaris == Or(Get(f, "sekretaris"), Str("-"))
    ensures c.bendahara == Or(Get(f, "bendahara"), Str("-"))
  {
    CardView(caption, count, land, Or(Get(f, "kategori"), Str("Kelompok Tani")),
             Or(Get(f, "ketua"), Str("-")), Or(Get(f, "sekretaris"), Str("-")), Or(Get(f, "bendahara"), Str("-")))
  }

  /** The card as written: a Gapoktan shows `jumlah_kelompok_gapoktan` and
      `total_lahan_gapoktan`, any other group `jumlah_anggota` and `total_lahan`. */
  function CardOf(f: Fields): (c: CardView)
    ensures c.caption == (if IsGapoktan(f) then "Kelompok" else "Anggota")
    ensures IsGapoktan(f) ==> c.count == Or(Get(f, "jumlah_kelompok_gapoktan"), Num(0.0))
                              && c.land == ToNumber(Get(f, "total_lahan_gapoktan"))
    ensures !IsGapoktan(f) ==> c.count == Or(Get(f, "jumlah_anggota"), Num(0.0))
                               && c.land == ToNumber(Get(f, "total_lahan"))
    ensures c == Common(f, c.caption, c.count, c.land)
  {
    CardIsGapoktanIff(f);
    if CardIsGapoktan(f) then
      Common(f, "Kelompok", Or(Get(f, "jumlah_kelompok_gapoktan"), Num(0.0)), ToNumber(Get(f, "total_lahan_gapoktan")))
    else
      Common(f, "Anggota", Or(Get(f, "jumlah_anggota"), Num(0.0)), ToNumber(Get(f, "total_lahan")))
  }

  /** For a textual or missing category, the card shows the category the statistics
      count the group under. */
  lemma CardKategoriIsCounted(f: Fields)
    requires "kategori" !in f || f["kategori"].Str?
    ensures CardOf(f).kategori == Str(KategoriOf(f))
  {
  }

  /** The two `_gapoktan` figures are written by neither the enrichment nor the card
      normalisation, so an item without them still lacks them once shown. */
  lemma GapoktanFiguresStayAbsent(st: Store, item: Doc, faults: Faults)
    requires "jumlah_kelompok_gapoktan" !in item.data && "total_lahan_gapoktan" !in item.data
    ensures var shown := NormalizeForCard(EnrichItem(st, item, faults)).data;
            "jumlah_kelompok_gapoktan" !in shown && "total_lahan_gapoktan" !in shown
  {
    assert "jumlah_kelompok_gapoktan" !in EnrichedKeys && "jumlah_kelompok_gapoktan" !in CardKeys;
    assert "total_lahan_gapoktan"[14] != "total_lahan_gabungan"[14];
    assert "total_lahan_gapoktan" !in EnrichedKeys && "total_lahan_gapoktan" !in CardKeys;
  }

  /** As written, the list's Gapoktan cards show a count of 0 and no land: the card
      reads two fields that neither the enrichment nor the card normalisation
      writes, while the normalised item carries the real figures. */
  lemma GapoktanCardShowsZero(st: Store, item: Doc, faults: Faults)
    requires IsGapoktan(item.data) && item.id !in faults.groupReads
    requires "jumlah_kelompok_gapoktan" !in item.data && "total_lahan_gapoktan" !in item.data
    ensures var shown := NormalizeForCard(EnrichItem(st, item, faults));
            var links := Sub(st, item.id, "kelompok_anggota");
            && CardOf(shown.data).count == Num(0.0)
            && CardOf(shown.data).land == 0.0
            && Get(shown.data, "jumlah_anggota") == Some(Num(|links| as real))
            && Get(shown.data, "total_lahan") == Some(Num(SumLinks(st, item.id, links, faults).lahan))
  {
    var shown := NormalizeForCard(EnrichItem(st, item, faults));
    GapoktanFiguresStayAbsent(st, item, faults);
    NormalizeAfterEnrich(st, item, faults);
    MissingGapoktanFieldsShowZero(shown.data);
  }

  /** A Gapoktan card over fields without the two `_gapoktan` figures. */
  lemma MissingGapoktanFieldsShowZero(f: Fields)
    requires IsGapoktan(f) && "jumlah_kelompok_gapoktan" !in f && "total_lahan_gapoktan" !in f
    ensures CardOf(f).count == Num(0.0) && CardOf(f).land == 0.0
  {
  }

  /** The card as the list's normalisation intends: every group shows
      `jumlah_anggota` and `total_lahan`, which for a Gapoktan hold its linked
      groups and their combined land. */
  function CardFixed(f: Fields): (c: CardView)
    ensures c.caption == (if IsGapoktan(f) then "Kelompok" else "Anggota")
    ensures c.count == Or(Get(f, "jumlah_anggota"), Num(0.0)) && c.land == ToNumber(Get(f, "total_lahan"))
    ensures c == Common(f, c.caption, c.count, c.land)
    ensures !IsGapoktan(f) ==> c == CardOf(f)
  {
    CardIsGapoktanIff(f);
    Common(f, if CardIsGapoktan(f) then "Kelompok" else "Anggota",
           Or(Get(f, "jumlah_anggota"), Num(0.0)), ToNumber(Get(f, "total_lahan")))
  }

  /** With the fix, a Gapoktan card shows the number of its link documents and the
      combined land of the linked groups. */
  lemma FixedCardShowsEnrichment(st: Store, item: Doc, faults: Faults)
    requires IsGapoktan(item.data) && item.id !in faults.groupReads
    ensures var c := CardFixed(NormalizeForCard(EnrichItem(st, item, faults)).data);
            var links := Sub(st, item.id, "kelompok_anggota");
            && c.caption == "Kelompok"
            && c.count == Num(|links| as real)
            && c.land == SumLinks(st, item.id, links, faults).lahan
  {
    var shown := NormalizeForCard(EnrichItem(st, item, faults));
    var links := Sub(st, item.id, "kelompok_anggota");
    NormalizeAfterEnrich(st, item, faults);
    assert IsGapoktan(shown.data);
    OrZeroNum(|links| as real);
  }

  /** `x || 0` of a number is that number. */
  lemma OrZeroNum(x: real)
    ensures Or(Some(Num(x)), Num(0.0)) == Num(x)
  {
  }
}

=== FILE: chunking.dfy ===
/** `chunkArray`: cutting a sequence into consecutive pieces of a fixed size, so that
    no write batch exceeds the store's per-batch operation ceiling. */
module Chunking {

  function Flatten<T>(xss: seq<seq<T>>): seq<T>
    decreases |xss|
  {
    if |xss| == 0 then [] else xss[0] + Flatten(xss[1..])
  }

  /** The default chunk size, kept under the store's 500-operation batch ceiling. */
  const DefaultChunkSize: nat := 450

  /** Chunks of `size` elements, the last one possibly shorter. A size of 0 would
      never end in the source (its index never advances), hence the precondition. */
  function ChunkArray<T>(xs: seq<T>, size: nat): (chunks: seq<seq<T>>)
    requires size > 0
    ensures Flatten(chunks) == xs
    ensures forall i :: 0 <= i < |chunks| ==> 0 < |chunks[i]| <= size
    ensures forall i :: 0 <= i < |chunks| - 1 ==> |chunks[i]| == size
  {
    ChunksSound(xs, size);
    Chunks(xs, size)
  }

  /** The recursion of `chunkArray`: the first `size` elements, then the chunks of
      the rest. */
  function Chunks<T>(xs: seq<T>, size: nat): seq<seq<T>>
    requires size > 0
    decreases |xs|
  {
    if |xs| == 0 then []
    else if |xs| <= size then [xs]
    else [xs[..size]] + Chunks(xs[size..], size)
  }

  lemma {:induction false} ChunksSound<T>(xs: seq<T>, size: nat)
    requires size > 0
    ensures Flatten(Chunks(xs, size)) == xs
    ensures forall i :: 0 <= i < |Chunks(xs, size)| ==> 0 < |Chunks(xs, size)[i]| <= size
    ensures forall i :: 0 <= i < |Chunks(xs, size)| - 1 ==> |Chunks(xs, size)[i]| == size
    decreases |xs|
  {
    if |xs| > size {
      var rest := Chunks(xs[size..], size);
      ChunksSound(xs[size..], size);
      assert Chunks(xs, size) == [xs[..size]] + rest;
      assert Flatten([xs[..size]] + rest) == xs[..size] + Flatten(rest);
    }
  }

  /** The number of chunks is the ceiling of `|xs| / size`: the least `k` with
      `|xs| <= k * size`. */
  lemma {:induction false} ChunkCount<T>(xs: seq<T>, size: nat)
    requires size > 0
    ensures |xs| <= Times(|ChunkArray(xs, size)|, size) < |xs| + size
    decreases |xs|
  {
    if |xs| > size {
      ChunkCount(xs[size..], size);
    }
  }

  lemma MulSucc(k: nat, size: nat)
    ensures (k + 1) * size == k * size + size
  {
  }

  /** An empty sequence has no chunks; a non-empty one has at least one. */
  lemma ChunkArrayEmpty<T>(xs: seq<T>, size: nat)
    requires size > 0
    ensures |ChunkArray(xs, size)| == 0 <==> |xs| == 0
  {
  }

  /** `i * size`, spelt out so that the proofs below stay linear. */
  function Times(i: nat, size: nat): nat {
    if i == 0 then 0 else Times(i - 1, size) + size
  }

  lemma {:induction false} TimesIsProduct(i: nat, size: nat)
    ensures Times(i, size) == i * size
  {
    if i > 0 {
      TimesIsProduct(i - 1, size);
      MulSucc(i - 1, size);
    }
  }

  /** At most the first `n` elements of `s`. */
  function Take<T>(s: seq<T>, n: nat): seq<T> {
    if |s| <= n then s else s[..n]
  }

  /** Chunk `i` holds the (at most) `size` elements that start at `i * size`. */
  lemma ChunkAt<T>(xs: seq<T>, size: nat, i: nat)
    requires size > 0 && i < |ChunkArray(xs, size)|
    ensures Times(i, size) < |xs|
    ensures ChunkArray(xs, size)[i] == Take(xs[Times(i, size)..], size)
  {
    ChunksAt(xs, size, i);
  }

  lemma {:induction false} ChunksAt<T>(xs: seq<T>, size: nat, i: nat)
    requires size > 0 && i < |Chunks(xs, size)|
    ensures Times(i, size) < |xs|
    ensures Chunks(xs, size)[i] == Take(xs[Times(i, size)..], size)
    decreases i
  {
    if i == 0 {
      assert xs[0..] == xs;
    } else {
      var ys := xs[size..];
      ChunksAt(ys, size, i - 1);
      DropDrop(xs, size, Times(i - 1, size));
    }
  }

  lemma DropDrop<T>(xs: seq<T>, a: nat, b: nat)
    requires a + b <= |xs|
    ensures xs[a + b..] == xs[a..][b..]
  {
  }

  function Min(a: int, b: int): int {
    if a <= b then a else b
  }
}

=== FILE: docs.dfy ===
/** Documents and collections of the abstract document store. A collection is the
    sequence of its documents in read order; document ids are unique within it. */
module Docs {
  import opened Values

  datatype Doc = Doc(id: Id, data: Fields)

  type Collection = seq<Doc>

  predicate DistinctIds(c: Collection) {
    forall i, j :: 0 <= i < j < |c| ==> c[i].id != c[j].id
  }

  function IdsOf(c: Collection): (ids: seq<Id>)
    ensures |ids| == |c|
    ensures forall i :: 0 <= i < |c| ==> ids[i] == c[i].id
  {
    seq(|c|, i requires 0 <= i < |c| => c[i].id)
  }

  lemma IdsOfConcat(a: Collection, b: Collection)
    ensures IdsOf(a + b) == IdsOf(a) + IdsOf(b)
  {
  }

  /** The fields of the document with that id, if there is one (`getDoc`). */
  function Find(c: Collection, id: Id): (r: Option<Fields>)
    ensures r.None? <==> id !in IdsOf(c)
    ensures r.Some? ==> Doc(id, r.value) in c
  {
    if |c| == 0 then None
    else if c[0].id == id then Some(c[0].data)
    else Find(c[1..], id)
  }

  /** The fields a merging write leaves: the written fields over the old ones. */
  function MergeInto(prior: Option<Fields>, f: Fields): Fields {
    if prior.Some? then prior.value + f else f
  }

  /** `set(ref, data, {merge: true})`: update the document in place, or add it at the end. */
  function SetMerge(c: Collection, d: Doc): Collection {
    if |c| == 0 then [d]
    else if c[0].id == d.id then [Doc(d.id, c[0].data + d.data)] + c[1..]
    else [c[0]] + SetMerge(c[1..], d)
  }

  /** A batch of merging writes, applied in order. */
  function MergeAll(c: Collection, ds: seq<Doc>): Collection
    decreases |ds|
  {
    if |ds| == 0 then c else MergeAll(SetMerge(c, ds[0]), ds[1..])
  }

  /** A batch of deletes: every document whose id is listed goes. */
  function RemoveIds(c: Collection, ids: seq<Id>): (r: Collection)
    ensures forall d :: d in r <==> d in c && d.id !in ids
    ensures |r| <= |c|
  {
    if |c| == 0 then []
    else if c[0].id in ids then RemoveIds(c[1..], ids)
    else [c[0]] + RemoveIds(c[1..], ids)
  }

  /** `updateDoc`: merge into an existing document; it fails when there is none. */
  function Update(c: Collection, id: Id, f: Fields): (r: Option<Collection>)
    ensures r.None? <==> Find(c, id).None?
  {
    if Find(c, id).None? then None else Some(SetMerge(c, Doc(id, f)))
  }

  lemma {:induction false} FindSetMerge(c: Collection, d: Doc, id: Id)
    ensures Find(SetMerge(c, d), id)
         == if id == d.id then Some(MergeInto(Find(c, id), d.data)) else Find(c, id)
  {
    if |c| > 0 && c[0].id != d.id {
      FindSetMerge(c[1..], d, id);
    }
  }

  lemma {:induction false} SetMergeLength(c: Collection, d: Doc)
    ensures |SetMerge(c, d)| == if Find(c, d.id).Some? then |c| else |c| + 1
    ensures IdsOf(SetMerge(c, d)) == if Find(c, d.id).Some? then IdsOf(c) else IdsOf(c) + [d.id]
  {
    if |c| > 0 && c[0].id != d.id {
      SetMergeLength(c[1..], d);
      IdsOfConcat([c[0]], c[1..]);
      IdsOfConcat([c[0]], SetMerge(c[1..], d));
      assert c == [c[0]] + c[1..];
    } else if |c| > 0 {
      IdsOfConcat([Doc(d.id, c[0].data + d.data)], c[1..]);
      IdsOfConcat([c[0]], c[1..]);
      assert c == [c[0]] + c[1..];
    }
  }

  lemma SetMergeDistinct(c: Collection, d: Doc)
    requires DistinctIds(c)
    ensures DistinctIds(SetMerge(c, d))
  {
    SetMergeLength(c, d);
    var r := SetMerge(c, d);
    forall i, j | 0 <= i < j < |r| ensures r[i].id != r[j].id {
      assert IdsOf(r)[i] == r[i].id && IdsOf(r)[j] == r[j].id;
    }
  }

  /** A merging write of a new id appends it. */
  lemma {:induction false} SetMergeAppends(c: Collection, d: Doc)
    requires d.id !in IdsOf(c)
    ensures SetMerge(c, d) == c + [d]
  {
    if |c| > 0 {
      assert IdsOf(c[1..]) == IdsOf(c)[1..];
      SetMergeAppends(c[1..], d);
      assert [c[0]] + (c[1..] + [d]) == c + [d];
    }
  }

  /** A merging write that adds nothing new leaves the collection as it was. */
  lemma {:induction false} SetMergeAbsorbed(c: Collection, d: Doc)
    requires Find(c, d.id).Some? && Find(c, d.id).value + d.data == Find(c, d.id).value
    ensures SetMerge(c, d) == c
  {
    if c[0].id != d.id {
      SetMergeAbsorbed(c[1..], d);
      assert [c[0]] + c[1..] == c;
    } else {
      assert [c[0]] + c[1..] == c;
    }
  }

  lemma {:induction false} MergeAllConcat(c: Collection, a: seq<Doc>, b: seq<Doc>)
    ensures MergeAll(c, a + b) == MergeAll(MergeAll(c, a), b)
    decreases |a|
  {
    if |a| > 0 {
      assert (a + b)[0] == a[0] && (a + b)[1..] == a[1..] + b;
      MergeAllConcat(SetMerge(c, a[0]), a[1..], b);
    } else {
      assert a + b == b;
    }
  }

  /** After merging a batch with unique ids, each id holds its document's fields over
      whatever the target held; every other id is as it was. */
  lemma {:induction false} FindMergeAll(c: Collection, ds: seq<Doc>, id: Id)
    requires DistinctIds(ds)
    ensures Find(MergeAll(c, ds), id)
         == if Find(ds, id).Some? then Some(MergeInto(Find(c, id), Find(ds, id).value)) else Find(c, id)
    decreases |ds|
  {
    if |ds| > 0 {
      FindMergeAll(SetMerge(c, ds[0]), ds[1..], id);
      FindSetMerge(c, ds[0], id);
      if id == ds[0].id {
        assert id !in IdsOf(ds[1..]) by {
          forall k | 0 <= k < |ds[1..]| ensures IdsOf(ds[1..])[k] != id {
            assert ds[1..][k] == ds[k + 1];
          }
        }
      }
    }
  }

  /** Copying a batch with unique ids into a collection that holds none of them
      appends the batch unchanged. */
  lemma {:induction false} MergeAllFresh(c: Collection, ds: seq<Doc>)
    requires DistinctIds(ds)
    requires forall i :: 0 <= i < |ds| ==> ds[i].id !in IdsOf(c)
    ensures MergeAll(c, ds) == c + ds
    decreases |ds|
  {
    if |ds| > 0 {
      SetMergeAppends(c, ds[0]);
      forall i | 0 <= i < |ds[1..]| ensures ds[1..][i].id !in IdsOf(c + [ds[0]]) {
        assert ds[1..][i] == ds[i + 1];
        assert IdsOf(c + [ds[0]]) == IdsOf(c) + [ds[0].id];
      }
      MergeAllFresh(c + [ds[0]], ds[1..]);
      assert c + [ds[0]] + ds[1..] == c + ds;
    }
  }

  lemma {:induction false} MergeAllAbsorbed(c: Collection, ds: seq<Doc>)
    requires forall i :: 0 <= i < |ds| ==>
      Find(c, ds[i].id).Some? && Find(c, ds[i].id).value + ds[i].data == Find(c, ds[i].id).value
    ensures MergeAll(c, ds) == c
    decreases |ds|
  {
    if |ds| > 0 {
      SetMergeAbsorbed(c, ds[0]);
      MergeAllAbsorbed(c, ds[1..]);
    }
  }

  lemma FindOwn(ds: Collection, i: nat)
    requires DistinctIds(ds) && i < |ds|
    ensures Find(ds, ds[i].id) == Some(ds[i].data)
  {
    if i > 0 {
      assert ds[1..][i - 1] == ds[i];
      FindOwn(ds[1..], i - 1);
    }
  }

  /** Merging the same batch twice is the same as merging it once. */
  lemma MergeAllIdempotent(c: Collection, ds: seq<Doc>)
    requires DistinctIds(ds)
    ensures MergeAll(MergeAll(c, ds), ds) == MergeAll(c, ds)
  {
    var m := MergeAll(c, ds);
    forall i | 0 <= i < |ds|
      ensures Find(m, ds[i].id).Some? && Find(m, ds[i].id).value + ds[i].data == Find(m, ds[i].id).value
    {
      FindOwn(ds, i);
      FindMergeAll(c, ds, ds[i].id);
      var v := MergeInto(Find(c, ds[i].id), ds[i].data);
      assert v + ds[i].data == v;
    }
    MergeAllAbsorbed(m, ds);
  }

  /** A copy interrupted after its first `k` documents and then re-run from the
      start ends where one uninterrupted copy would have. */
  lemma RetryAfterPartialCopy(c: Collection, ds: seq<Doc>, k: nat)
    requires DistinctIds(ds) && k <= |ds|
    ensures MergeAll(MergeAll(c, ds[..k]), ds) == MergeAll(c, ds)
  {
    var pre, post := ds[..k], ds[k..];
    assert ds == pre + post;
    assert DistinctIds(pre);
    MergeAllConcat(MergeAll(c, pre), pre, post);
    MergeAllIdempotent(c, pre);
    MergeAllConcat(c, pre, post);
  }

  lemma {:induction false} RemoveIdsConcat(c: Collection, a: seq<Id>, b: seq<Id>)
    ensures RemoveIds(RemoveIds(c, a), b) == RemoveIds(c, a + b)
  {
    if |c| > 0 {
      RemoveIdsConcat(c[1..], a, b);
    }
  }

  /** Deleting no ids changes nothing. */
  lemma {:induction false} RemoveNoIds(c: Collection)
    ensures RemoveIds(c, []) == c
  {
    if |c| > 0 {
      RemoveNoIds(c[1..]);
      assert [c[0]] + c[1..] == c;
    }
  }

  /** Deleting every listed id of a collection empties it. */
  lemma {:induction false} RemoveAllIds(c: Collection, ids: seq<Id>)
    requires forall i :: 0 <= i < |c| ==> c[i].id in ids
    ensures RemoveIds(c, ids) == []
  {
    if |c| > 0 {
      RemoveAllIds(c[1..], ids);
    }
  }

  lemma {:induction false} FindRemoveIds(c: Collection, ids: seq<Id>, id: Id)
    ensures Find(RemoveIds(c, ids), id) == if id in ids then None else Find(c, id)
  {
    if |c| > 0 {
      FindRemoveIds(c[1..], ids, id);
    }
  }

  /** Deleting a listed id that some document carries makes the collection shorter. */
  lemma {:induction false} RemoveIdsShrinks(c: Collection, ids: seq<Id>, i: nat)
    requires i < |c| && c[i].id in ids
    ensures |RemoveIds(c, ids)| < |c|
    decreases |c|
  {
    if c[0].id !in ids {
      RemoveIdsShrinks(c[1..], ids, i - 1);
    }
  }

  /** Deleting ids no document has changes nothing. */
  lemma {:induction false} RemoveIdsAbsent(c: Collection, ids: seq<Id>)
    requires forall i :: 0 <= i < |c| ==> c[i].id !in ids
    ensures RemoveIds(c, ids) == c
  {
    if |c| > 0 {
      RemoveIdsAbsent(c[1..], ids);
      assert [c[0]] + c[1..] == c;
    }
  }

  /** A document whose id is not deleted survives at its place. */
  lemma {:induction false} RemoveIdsAppend(c: Collection, d: Doc, ids: seq<Id>)
    requires d.id !in ids
    ensures RemoveIds(c + [d], ids) == RemoveIds(c, ids) + [d]
    decreases |c|
  {
    if |c| == 0 {
      assert [d][1..] == [];
    } else {
      assert (c + [d])[1..] == c[1..] + [d];
      RemoveIdsAppend(c[1..], d, ids);
    }
  }

  /** Deleting one id present in a collection with unique ids removes exactly one
      document. */
  lemma {:induction false} RemoveOneLength(c: Collection, id: Id)
    requires DistinctIds(c) && id in IdsOf(c)
    ensures |RemoveIds(c, [id])| + 1 == |c|
    decreases |c|
  {
    if c[0].id == id {
      assert forall i :: 0 <= i < |c[1..]| ==> c[1..][i].id != id by {
        forall i | 0 <= i < |c[1..]| ensures c[1..][i].id != id {
          assert c[1..][i] == c[i + 1];
        }
      }
      RemoveIdsAbsent(c[1..], [id]);
    } else {
      assert id in IdsOf(c[1..]) by {
        var k :| 0 <= k < |c| && IdsOf(c)[k] == id;
        assert IdsOf(c[1..])[k - 1] == id;
      }
      RemoveOneLength(c[1..], id);
    }
  }

  /** A document whose id is deleted leaves no trace. */
  lemma {:induction false} RemoveIdsAppendDeleted(c: Collection, d: Doc, ids: seq<Id>)
    requires d.id in ids
    ensures RemoveIds(c + [d], ids) == RemoveIds(c, ids)
    decreases |c|
  {
    if |c| == 0 {
      assert [d][1..] == [];
    } else {
      assert (c + [d])[1..] == c[1..] + [d];
      RemoveIdsAppendDeleted(c[1..], d, ids);
    }
  }
}

=== FILE: gapoktan.dfy ===
/** `enrichGapoktanItems`: the public list decorates each Gapoktan (a federation of
    farmer groups) with its officers and with member and land totals combined over
    the groups it links to through its `kelompok_anggota` subcollection. */
module GapoktanEnrich {
  import opened Values
  import opened Docs
  import opened DocStore
  import opened Officers
  import opened Statistik

  /** Members and land added up over linked groups. The member figure is a real
      because a cached `jumlah_anggota` goes through `toNumber` and may hold any
      number. */
  datatype Combined = Combined(anggota: real, lahan: real)

  const Zero := Combined(0.0, 0.0)

  function Add(a: Combined, b: Combined): Combined {
    Combined(a.anggota + b.anggota, a.lahan + b.lahan)
  }

  /** Which reads throw. A Gapoktan id in `groupReads` fails on its own board or
      link reads; a (Gapoktan id, link id) pair in `linkReads` fails while its
      linked group is being read. */
  datatype Faults = Faults(groupReads: set<Id>, linkReads: set<(Id, Id)>)

  /** The group a link document points at. A truthy `kelompokRef` is used when it is
      a reference; any other truthy value there makes the read throw, and the link
      is skipped. Otherwise a truthy text `kelompokId` names the group; a non-text
      one also makes the read throw. */
  function LinkTarget(link: Fields): (r: Option<Id>)
    ensures Get(link, "kelompokRef").Some? && Get(link, "kelompokRef").value.Ref? ==>
              r == Some(link["kelompokRef"].target)
    ensures r.Some? && !(Get(link, "kelompokRef").Some? && Get(link, "kelompokRef").value.Ref?) ==>
              Get(link, "kelompokId") == Some(Str(r.value)) && r.value != ""
  {
    var ref := Get(link, "kelompokRef");
    if ref.Some? && Truthy(ref.value) then
      (if ref.value.Ref? then Some(ref.value.target) else None)
    else
      var kid := Get(link, "kelompokId");
      if kid.Some? && kid.value.Str? && kid.value.s != "" then Some(kid.value.s) else None
  }

  /** What one linked group adds. A cached `jumlah_anggota` that reads as a non-zero
      number is used as is, together with the cached `total_lahan`. Otherwise the
      group's `anggota` subcollection is counted, and its member land is summed
      unless the cached `total_lahan` is non-zero. A dangling or unreadable link
      adds nothing. */
  function LinkTotals(st: Store, gap: Id, link: Doc, faults: Faults): (c: Combined)
    ensures c != Zero ==> (gap, link.id) !in faults.linkReads
    ensures c != Zero ==> LinkTarget(link.data).Some? && Parent(st, LinkTarget(link.data).value).Some?
  {
    if (gap, link.id) in faults.linkReads then Zero
    else match LinkTarget(link.data)
      case None => Zero
      case Some(t) =>
        match Parent(st, t)
        case None => Zero
        case Some(kd) =>
          var lahanField := ToNumber(Get(kd, "total_lahan"));
          var anggotaField := ToNumber(Get(kd, "jumlah_anggota"));
          if anggotaField == 0.0 then
            var members := Sub(st, t, "anggota");
            Combined(|members| as real, if lahanField == 0.0 then MemberLand(members) else lahanField)
          else
            Combined(anggotaField, lahanField)
  }

  /** The sum over all link documents, in any order (the source adds them as the
      concurrent reads complete). */
  function SumLinks(st: Store, gap: Id, links: Collection, faults: Faults): Combined
    decreases |links|
  {
    if |links| == 0 then Zero
    else Add(LinkTotals(st, gap, links[0], faults), SumLinks(st, gap, links[1..], faults))
  }

  /** The fields enrichment writes onto a Gapoktan. */
  const EnrichedKeys: set<string> :=
    {"ketua", "sekretaris", "bendahara", "_isGapoktan", "jumlah_kelompok",
     "total_lahan_gabungan", "total_anggota_gabungan"}

  /** `x ?? 0`: the value unless it is missing or null. */
  function NullishOrZero(v: Option<Value>): (r: Value)
    ensures v.Some? && !v.value.Null? ==> r == v.value
    ensures v.None? || v.value.Null? ==> r == Num(0.0)
  {
    if v.Some? && !v.value.Null? then v.value else Num(0.0)
  }

  /** One list item after enrichment. Items that are not (strictly) Gapoktan pass
      through. A Gapoktan whose own reads fail keeps its stored figures, with `??`
      defaults; otherwise it gets its officers from `pengurus`, the number of link
      documents, and the combined totals. */
  function EnrichItem(st: Store, item: Doc, faults: Faults): (r: Doc)
    ensures r.id == item.id
    ensures !IsGapoktan(item.data) ==> r == item
    ensures IsGapoktan(r.data) <==> IsGapoktan(item.data)
    ensures IsGapoktan(item.data) ==> Get(r.data, "_isGapoktan") == Some(Bool(true))
    ensures forall k :: k in item.data && k !in EnrichedKeys ==> k in r.data && r.data[k] == item.data[k]
    ensures IsGapoktan(item.data) && item.id !in faults.groupReads ==>
              var links := Sub(st, item.id, "kelompok_anggota");
              var c := SumLinks(st, item.id, links, faults);
              && Get(r.data, "jumlah_kelompok") == Some(Num(|links| as real))
              && Get(r.data, "total_anggota_gabungan") == Some(Num(c.anggota))
              && Get(r.data, "total_lahan_gabungan") == Some(Num(c.lahan))
    ensures IsGapoktan(item.data) && item.id !in faults.groupReads ==>
              var board := DataOf(Sub(st, item.id, "pengurus"));
              && Get(r.data, "ketua") == Some(OfficerName(board, "Ketua"))
              && Get(r.data, "sekretaris") == Some(OfficerName(board, "Sekretaris"))
              && Get(r.data, "bendahara") == Some(OfficerName(board, "Bendahara"))
    ensures IsGapoktan(item.data) && item.id in faults.groupReads ==>
              && Get(r.data, "jumlah_kelompok") == Some(NullishOrZero(Get(item.data, "jumlah_kelompok")))
              && Get(r.data, "total_lahan_gabungan") == Some(NullishOrZero(Get(item.data, "total_lahan_gabungan")))
              && Get(r.data, "total_anggota_gabungan") == Get(item.data, "total_anggota_gabungan")
  {
    if !IsGapoktan(item.data) then item
    else if item.id in faults.groupReads then Doc(item.id, KeptFigures(item.data))
    else
      var links := Sub(st, item.id, "kelompok_anggota");
      Doc(item.id, Enriched(item.data, DataOf(Sub(st, item.id, "pengurus")), |links|,
                            SumLinks(st, item.id, links, faults)))
  }

  /** A Gapoktan whose own reads fail: its stored figures with `??` defaults. */
  function KeptFigures(f: Fields): (r: Fields)
    ensures Get(r, "kategori") == Get(f, "kategori")
    ensures forall k :: k in f && k !in EnrichedKeys ==> k in r && r[k] == f[k]
    ensures Get(r, "_isGapoktan") == Some(Bool(true))
    ensures Get(r, "jumlah_kelompok") == Some(NullishOrZero(Get(f, "jumlah_kelompok")))
    ensures Get(r, "total_lahan_gabungan") == Some(NullishOrZero(Get(f, "total_lahan_gabungan")))
    ensures Get(r, "total_anggota_gabungan") == Get(f, "total_anggota_gabungan")
  {
    f + map[
      "_isGapoktan" := Bool(true),
      "jumlah_kelompok" := NullishOrZero(Get(f, "jumlah_kelompok")),
      "total_lahan_gabungan" := NullishOrZero(Get(f, "total_lahan_gabungan"))]
  }

  /** A Gapoktan read in full: officers from its board, `n` link documents and the
      combined totals `c`. */
  function Enriched(f: Fields, board: seq<Fields>, n: nat, c: Combined): (r: Fields)
    ensures Get(r, "kategori") == Get(f, "kategori")
    ensures forall k :: k in f && k !in EnrichedKeys ==> k in r && r[k] == f[k]
    ensures Get(r, "_isGapoktan") == Some(Bool(true))
    ensures Get(r, "jumlah_kelompok") == Some(Num(n as real))
    ensures Get(r, "total_anggota_gabungan") == Some(Num(c.anggota))
    ensures Get(r, "total_lahan_gabungan") == Some(Num(c.lahan))
    ensures Get(r, "ketua") == Some(OfficerName(board, "Ketua"))
    ensures Get(r, "sekretaris") == Some(OfficerName(board, "Sekretaris"))
    ensures Get(r, "bendahara") == Some(OfficerName(board, "Bendahara"))
  {
    f + map[
      "ketua" := OfficerName(board, "Ketua"),
      "sekretaris" := OfficerName(board, "Sekretaris"),
      "bendahara" := OfficerName(board, "Bendahara"),
      "_isGapoktan" := Bool(true),
      "jumlah_kelompok" := Num(n as real),
      "total_lahan_gabungan" := Num(c.lahan),
      "total_anggota_gabungan" := Num(c.anggota)]
  }

  /** The whole list, item by item, in the same order. */
  function EnrichAll(st: Store, items: Collection, faults: Faults): (r: Collection)
    ensures |r| == |items|
    ensures forall i :: 0 <= i < |items| ==> r[i] == EnrichItem(st, items[i], faults)
    ensures IdsOf(r) == IdsOf(items)
  {
    seq(|items|, i requires 0 <= i < |items| => EnrichItem(st, items[i], faults))
  }

  /** The sum over a split list is the sum of the parts, so the order in which the
      concurrent reads finish does not matter for the grouping. */
  lemma {:induction false} SumLinksConcat(st: Store, gap: Id, a: Collection, b: Collection, faults: Faults)
    ensures SumLinks(st, gap, a + b, faults) == Add(SumLinks(st, gap, a, faults), SumLinks(st, gap, b, faults))
    decreases |a|
  {
    if |a| > 0 {
      assert (a + b)[1..] == a[1..] + b;
      SumLinksConcat(st, gap, a[1..], b, faults);
    } else {
      assert a + b == b;
    }
  }

  /** Non-zero combined totals come from at least one link that was read and
      resolves to an existing group. */
  lemma {:induction false} SumLinksNonZero(st: Store, gap: Id, links: Collection, faults: Faults)
    requires SumLinks(st, gap, links, faults) != Zero
    ensures exists i :: 0 <= i < |links| && (gap, links[i].id) !in faults.linkReads
                        && LinkTarget(links[i].data).Some? && Parent(st, LinkTarget(links[i].data).value).Some?
    decreases |links|
  {
    if LinkTotals(st, gap, links[0], faults) == Zero {
      SumLinksNonZero(st, gap, links[1..], faults);
      var j :| 0 <= j < |links[1..]| && (gap, links[1..][j].id) !in faults.linkReads
               && LinkTarget(links[1..][j].data).Some? && Parent(st, LinkTarget(links[1..][j].data).value).Some?;
      assert links[1..][j] == links[j + 1];
    }
  }

  /** A link whose target is missing, or whose read fails, adds nothing to the
      combined totals, although it still counts in `jumlah_kelompok`. */
  lemma DanglingLinkAddsNothing(st: Store, gap: Id, links: Collection, link: Doc, faults: Faults)
    requires (gap, link.id) in faults.linkReads || LinkTarget(link.data).None?
             || Parent(st, LinkTarget(link.data).value).None?
    ensures SumLinks(st, gap, links + [link], faults) == SumLinks(st, gap, links, faults)
  {
    calc {
      SumLinks(st, gap, links + [link], faults);
      { SumLinksConcat(st, gap, links, [link], faults); }
      Add(SumLinks(st, gap, links, faults), SumLinks(st, gap, [link], faults));
      Add(SumLinks(st, gap, links, faults), Zero);
      SumLinks(st, gap, links, faults);
    }
  }

  /** The cached fields of a group agree with its members: either no usable member
      count is cached (and the cached land is absent or right), or both are right. */
  predicate CacheAgrees(kd: Fields, members: Collection) {
    var a := ToNumber(Get(kd, "jumlah_anggota"));
    var l := ToNumber(Get(kd, "total_lahan"));
    (a == 0.0 && (l == 0.0 || l == MemberLand(members)))
    || (a == |members| as real && l == MemberLand(members))
  }

  function AsCombined(t: Tally): Combined {
    Combined(t.anggota as real, t.lahan)
  }

  /** A link to an ordinary group whose cache agrees with its members adds exactly
      what `recomputeStats` counts for that group. */
  lemma LinkAgreesWithStatistik(st: Store, gap: Id, link: Doc, faults: Faults, g: Doc)
    requires (gap, link.id) !in faults.linkReads
    requires LinkTarget(link.data) == Some(g.id) && Parent(st, g.id) == Some(g.data)
    requires KategoriOf(g.data) != "Gapoktan"
    requires CacheAgrees(g.data, Sub(st, g.id, "anggota"))
    ensures LinkTotals(st, gap, link, faults) == AsCombined(Contribution(st, g))
  {
  }

  lemma PlusAsCombined(a: Tally, b: Tally)
    ensures AsCombined(Plus(a, b)) == Add(AsCombined(a), AsCombined(b))
  {
  }

  /** Link `i` is read without fault and resolves to the ordinary group `gs[i]`,
      whose cache agrees with its members. */
  predicate LinksResolve(st: Store, gap: Id, links: Collection, faults: Faults, gs: Collection) {
    && |gs| == |links|
    && forall i :: 0 <= i < |links| ==>
         && (gap, links[i].id) !in faults.linkReads
         && LinkTarget(links[i].data) == Some(gs[i].id) && Parent(st, gs[i].id) == Some(gs[i].data)
         && KategoriOf(gs[i].data) != "Gapoktan"
         && CacheAgrees(gs[i].data, Sub(st, gs[i].id, "anggota"))
  }

  /** Links that each resolve to an ordinary group with an agreeing cache add up to
      the statistics tally of those groups. */
  lemma {:induction false} SumLinksAgree(st: Store, gap: Id, links: Collection, faults: Faults, gs: Collection)
    requires LinksResolve(st, gap, links, faults, gs)
    ensures SumLinks(st, gap, links, faults) == AsCombined(TallyGroups(st, gs))
    decreases |links|
  {
    if |links| > 0 {
      TallyCons(st, gs);
      LinkAgreesWithStatistik(st, gap, links[0], faults, gs[0]);
      SumLinksAgree(st, gap, links[1..], faults, gs[1..]);
      var head := AsCombined(Contribution(st, gs[0]));
      var rest := AsCombined(TallyGroups(st, gs[1..]));
      assert SumLinks(st, gap, links, faults) == Add(head, rest);
      PlusAsCombined(Contribution(st, gs[0]), TallyGroups(st, gs[1..]));
    }
  }

  /** A Gapoktan whose links all resolve to ordinary groups with agreeing caches is
      shown with the member and land totals `recomputeStats` counts for those groups. */
  lemma EnrichAgreesWithStatistik(st: Store, item: Doc, faults: Faults, gs: Collection)
    requires IsGapoktan(item.data) && item.id !in faults.groupReads
    requires LinksResolve(st, item.id, Sub(st, item.id, "kelompok_anggota"), faults, gs)
    ensures Get(EnrichItem(st, item, faults).data, "total_anggota_gabungan")
         == Some(Num(TallyGroups(st, gs).anggota as real))
    ensures Get(EnrichItem(st, item, faults).data, "total_lahan_gabungan")
         == Some(Num(TallyGroups(st, gs).lahan))
  {
    SumLinksAgree(st, item.id, Sub(st, item.id, "kelompok_anggota"), faults, gs);
  }

  /** Where a linked group was edited through the admin member page, which keeps
      `jumlah_anggota` but never writes `total_lahan`, the group adds its member count
      and no land at all, whatever land its members hold. */
  lemma StaleLandCountsZero(st: Store, gap: Id, link: Doc, faults: Faults, t: Id, n: real)
    requires (gap, link.id) !in faults.linkReads && LinkTarget(link.data) == Some(t)
    requires Parent(st, t).Some? && n != 0.0
    requires Get(Parent(st, t).value, "jumlah_anggota") == Some(Num(n))
    requires "total_lahan" !in Parent(st, t).value
    ensures LinkTotals(st, gap, link, faults) == Combined(n, 0.0)
  {
  }
}

=== FILE: kelompok_form.dfy ===
/** The group form: title-casing of the text fields, the required-field check on
    submit, and the values the form starts from when adding or editing a group. */
module KelompokForm {
  import opened Values
  import opened Docs
  import opened Text

  // ---------------------------------------------------------------------------
  // Title case
  // ---------------------------------------------------------------------------

  /** Parts kept fully upper-case: the women's group abbreviation and the roman
      numerals II to X. */
  const KeepUpper: seq<string> := ["KWT", "II", "III", "IV", "V", "VI", "VII", "VIII", "IX", "X"]

  /** `b` is `a` with only the case of some letters changed. */
  predicate CaseVariant(a: string, b: string) {
    |a| == |b| && forall i :: 0 <= i < |a| ==> b[i] == UpperChar(a[i]) || b[i] == LowerChar(a[i])
  }

  /** One hyphen-separated part: fully upper-case when its upper-case form is kept,
      otherwise its first letter upper-case and the rest lower-case. */
  function CasePart(p: string): (r: string)
    ensures CaseVariant(p, r)
    ensures ToUpper(p) in KeepUpper ==> r == ToUpper(p)
    ensures ToUpper(p) !in KeepUpper && |p| > 0 ==> r[0] == UpperChar(p[0]) && r[1..] == ToLower(p[1..])
  {
    if ToUpper(p) in KeepUpper then ToUpper(p)
    else if |p| == 0 then ""
    else [UpperChar(p[0])] + ToLower(p[1..])
  }

  /** One space-separated word: its hyphen-separated parts cased one by one. */
  function CaseWord(w: string): (r: string)
    ensures CaseVariant(w, r)
  {
    var parts := Split(w, '-');
    var cased := seq(|parts|, i requires 0 <= i < |parts| => CasePart(parts[i]));
    JoinSplit(w, '-');
    JoinCaseVariant(parts, cased, '-');
    Join(cased, '-')
  }

  /** `titleCase`: only the case of letters changes, so the length and every
      non-letter stay as they were. */
  function TitleCase(t: string): (r: string)
    ensures CaseVariant(t, r)
  {
    var words := Split(t, ' ');
    var cased := seq(|words|, i requires 0 <= i < |words| => CaseWord(words[i]));
    JoinSplit(t, ' ');
    JoinCaseVariant(words, cased, ' ');
    Join(cased, ' ')
  }

  lemma CaseVariantConcat(a1: string, b1: string, a2: string, b2: string)
    requires CaseVariant(a1, b1) && CaseVariant(a2, b2)
    ensures CaseVariant(a1 + a2, b1 + b2)
  {
    forall i | 0 <= i < |a1 + a2|
      ensures (b1 + b2)[i] == UpperChar((a1 + a2)[i]) || (b1 + b2)[i] == LowerChar((a1 + a2)[i])
    {
      if i >= |a1| {
        assert (a1 + a2)[i] == a2[i - |a1|] && (b1 + b2)[i] == b2[i - |b1|];
      }
    }
  }

  /** Joining case variants, piece by piece, gives a case variant of the join. */
  lemma {:induction false} JoinCaseVariant(ws: seq<string>, vs: seq<string>, c: char)
    requires |ws| == |vs| > 0
    requires forall i :: 0 <= i < |ws| ==> CaseVariant(ws[i], vs[i])
    ensures CaseVariant(Join(ws, c), Join(vs, c))
    decreases |ws|
  {
    if |ws| > 1 {
      JoinCaseVariant(ws[1..], vs[1..], c);
      assert CaseVariant([c], [c]);
      CaseVariantConcat(ws[0], vs[0], [c], [c]);
      CaseVariantConcat(ws[0] + [c], vs[0] + [c], Join(ws[1..], c), Join(vs[1..], c));
    }
  }

  /** A case variant has every non-letter exactly where the original has it. */
  lemma VariantKeepsNonLetters(a: string, b: string, c: char)
    requires CaseVariant(a, b) && !('a' <= c <= 'z') && !('A' <= c <= 'Z')
    ensures forall i :: 0 <= i < |a| ==> (a[i] == c <==> b[i] == c)
    ensures c in a <==> c in b
  {
    forall i | 0 <= i < |a| ensures a[i] == c <==> b[i] == c {
    }
    if c in b {
      var i :| 0 <= i < |b| && b[i] == c;
      assert a[i] == c;
    }
  }

  /** Title-casing keeps the length and every space and hyphen in place. */
  lemma TitleCaseLayout(t: string)
    ensures |TitleCase(t)| == |t|
    ensures forall i :: 0 <= i < |t| ==> (t[i] == ' ' <==> TitleCase(t)[i] == ' ')
    ensures forall i :: 0 <= i < |t| ==> (t[i] == '-' <==> TitleCase(t)[i] == '-')
  {
    VariantKeepsNonLetters(t, TitleCase(t), ' ');
    VariantKeepsNonLetters(t, TitleCase(t), '-');
  }

  lemma CasePartIdempotent(p: string)
    ensures CasePart(CasePart(p)) == CasePart(p)
  {
    var q := CasePart(p);
    if ToUpper(p) in KeepUpper {
      UpperIdempotent(p);
    } else if |p| > 0 {
      UpperOfLower(p[1..]);
      assert ToUpper(q) == ToUpper(p) by {
        assert q == [UpperChar(p[0])] + ToLower(p[1..]);
        assert ToUpper(q)[0] == UpperChar(p[0]);
        forall i | 1 <= i < |q| ensures ToUpper(q)[i] == ToUpper(p)[i] {
          assert ToUpper(q)[i] == ToUpper(ToLower(p[1..]))[i - 1];
        }
      }
      LowerIdempotent(p[1..]);
    }
  }

  /** Casing each piece of a list that is already cased changes nothing. */
  lemma CasePartsFixed(parts: seq<string>)
    ensures var cased := seq(|parts|, i requires 0 <= i < |parts| => CasePart(parts[i]));
            seq(|cased|, i requires 0 <= i < |cased| => CasePart(cased[i])) == cased
  {
    var cased := seq(|parts|, i requires 0 <= i < |parts| => CasePart(parts[i]));
    forall i | 0 <= i < |parts| ensures CasePart(cased[i]) == cased[i] {
      CasePartIdempotent(parts[i]);
    }
  }

  lemma CaseWordIdempotent(w: string)
    ensures CaseWord(CaseWord(w)) == CaseWord(w)
  {
    var parts := Split(w, '-');
    var cased := seq(|parts|, i requires 0 <= i < |parts| => CasePart(parts[i]));
    forall i | 0 <= i < |cased| ensures '-' !in cased[i] {
      VariantKeepsNonLetters(parts[i], cased[i], '-');
    }
    SplitJoin(cased, '-');
    CasePartsFixed(parts);
  }

  /** Title-casing is idempotent: a title-cased text is left as it is. */
  lemma TitleCaseIdempotent(t: string)
    ensures TitleCase(TitleCase(t)) == TitleCase(t)
  {
    var words := Split(t, ' ');
    var cased := seq(|words|, i requires 0 <= i < |words| => CaseWord(words[i]));
    forall i | 0 <= i < |cased| ensures ' ' !in cased[i] && CaseWord(cased[i]) == cased[i] {
      VariantKeepsNonLetters(words[i], cased[i], ' ');
      CaseWordIdempotent(words[i]);
    }
    SplitJoin(cased, ' ');
    assert seq(|cased|, i requires 0 <= i < |cased| => CaseWord(cased[i])) == cased;
  }

  // ---------------------------------------------------------------------------
  // The form
  // ---------------------------------------------------------------------------

  datatype Form = Form(idKelompok: string, namaKelompok: string, kategori: string,
                       provinsi: string, kabupaten: string, kecamatan: string,
                       ketua: string, sekretaris: string, bendahara: string)

  datatype FormError = MissingRequired

  /** Name, category, province, regency and district are required. */
  predicate HasRequired(f: Form) {
    f.namaKelompok != "" && f.kategori != "" && f.provinsi != "" && f.kabupaten != "" && f.kecamatan != ""
  }

  /** `handleSubmit`: a form missing a required field is rejected and nothing is
      submitted; otherwise the seven name and place fields are title-cased, and the
      id and category are passed on as typed. */
  function Submit(f: Form): (r: Result<Form, FormError>)
    ensures r.Failure? <==> !HasRequired(f)
    ensures r.Success? ==>
              && r.value.idKelompok == f.idKelompok && r.value.kategori == f.kategori
              && r.value.namaKelompok == TitleCase(f.namaKelompok)
              && r.value.provinsi == TitleCase(f.provinsi) && r.value.kabupaten == TitleCase(f.kabupaten)
              && r.value.kecamatan == TitleCase(f.kecamatan) && r.value.ketua == TitleCase(f.ketua)
              && r.value.sekretaris == TitleCase(f.sekretaris) && r.value.bendahara == TitleCase(f.bendahara)
  {
    if !HasRequired(f) then Failure(MissingRequired)
    else Success(f.(namaKelompok := TitleCase(f.namaKelompok), provinsi := TitleCase(f.provinsi),
                    kabupaten := TitleCase(f.kabupaten), kecamatan := TitleCase(f.kecamatan),
                    ketua := TitleCase(f.ketua), sekretaris := TitleCase(f.sekretaris),
                    bendahara := TitleCase(f.bendahara)))
  }

  /** Submitting what was submitted gives the same data: the accepted form still has
      its required fields (title-casing keeps lengths) and is already title-cased. */
  lemma SubmitIdempotent(f: Form)
    requires Submit(f).Success?
    ensures Submit(Submit(f).value) == Submit(f)
  {
    TitleCaseLayout(f.namaKelompok);
    TitleCaseLayout(f.provinsi);
    TitleCaseLayout(f.kabupaten);
    TitleCaseLayout(f.kecamatan);
    TitleCaseIdempotent(f.namaKelompok);
    TitleCaseIdempotent(f.provinsi);
    TitleCaseIdempotent(f.kabupaten);
    TitleCaseIdempotent(f.kecamatan);
    TitleCaseIdempotent(f.ketua);
    TitleCaseIdempotent(f.sekretaris);
    TitleCaseIdempotent(f.bendahara);
  }

  /** `defaultRegion?.[k] || ""`. */
  function RegionText(region: Option<Fields>, k: string): (t: string)
    ensures region.None? ==> t == ""
    ensures region.Some? ==> t == TextOr(region.value, k, "")
  {
    if region.Some? then TextOr(region.value, k, "") else ""
  }

  /** The form for adding a group: everything empty, the place fields from the
      default region. */
  function BlankForm(region: Option<Fields>): (f: Form)
    ensures f.kategori == "" && f.namaKelompok == "" && f.idKelompok == ""
    ensures f.provinsi == RegionText(region, "provinsi") && f.kabupaten == RegionText(region, "kabupaten")
    ensures f.kecamatan == RegionText(region, "kecamatan")
  {
    Form("", "", "", RegionText(region, "provinsi"), RegionText(region, "kabupaten"),
         RegionText(region, "kecamatan"), "", "", "")
  }

  /** A blank form cannot be submitted: a category has to be chosen. */
  lemma BlankFormRejected(region: Option<Fields>)
    ensures Submit(BlankForm(region)) == Failure(MissingRequired)
  {
  }

  /** The form for editing a group: its stored text, the category defaulting to
      "Kelompok Tani" and each place field falling back to the default region. */
  function EditForm(initial: Doc, region: Option<Fields>): (f: Form)
    ensures f.idKelompok == initial.id
    ensures f.kategori == TextOr(initial.data, "kategori", "Kelompok Tani")
    ensures f.provinsi == TextOr(initial.data, "provinsi", RegionText(region, "provinsi"))
    ensures f.kabupaten == TextOr(initial.data, "kabupaten", RegionText(region, "kabupaten"))
    ensures f.kecamatan == TextOr(initial.data, "kecamatan", RegionText(region, "kecamatan"))
    ensures f.namaKelompok == TextOr(initial.data, "nama_kelompok", "")
  {
    var d := initial.data;
    Form(initial.id, TextOr(d, "nama_kelompok", ""), TextOr(d, "kategori", "Kelompok Tani"),
         TextOr(d, "provinsi", RegionText(region, "provinsi")),
         TextOr(d, "kabupaten", RegionText(region, "kabupaten")),
         TextOr(d, "kecamatan", RegionText(region, "kecamatan")),
         TextOr(d, "ketua", ""), TextOr(d, "sekretaris", ""), TextOr(d, "bendahara", ""))
  }

  /** Editing shows a group's category as the statistics count it, so a group
      without one is edited (and resubmitted) as a Kelompok Tani. */
  lemma EditFormKategori(initial: Doc, region: Option<Fields>)
    ensures EditForm(initial, region).kategori == KategoriOf(initial.data)
    ensures EditForm(initial, region).kategori != ""
  {
  }

  /** A named group whose place fields are all set, or supplied by the default
      region, can be resubmitted unchanged from its edit form. */
  lemma EditFormAccepted(initial: Doc, region: Option<Fields>)
    requires TextOr(initial.data, "nama_kelompok", "") != ""
    requires TextOr(initial.data, "provinsi", RegionText(region, "provinsi")) != ""
    requires TextOr(initial.data, "kabupaten", RegionText(region, "kabupaten")) != ""
    requires TextOr(initial.data, "kecamatan", RegionText(region, "kecamatan")) != ""
    ensures Submit(EditForm(initial, region)).Success?
  {
  }
}

=== FILE: kelompok_list.dfy ===
/** The public group list: card normalisation, the category-then-name order, the
    substring search and the 8-per-page paging. */
module KelompokList {
  import opened Values
  import opened Docs
  import opened DocStore
  import opened Text
  import opened Chunking
  import opened Lists
  import opened GapoktanEnrich

  // ---------------------------------------------------------------------------
  // Card normalisation
  // ---------------------------------------------------------------------------

  /** `Number(x)` for the values `x || 0` can produce: a number is itself, `true` is
      1, and anything that does not read as a number counts 0. */
  function NumberOf(v: Value): (n: real)
    ensures v.Num? ==> n == v.n
    ensures v.Bool? ==> n == (if v.b then 1.0 else 0.0)
    ensures !v.Num? && !v.Bool? ==> n == 0.0
  {
    match v
    case Num(x) => x
    case Bool(b) => if b then 1.0 else 0.0
    case _ => 0.0
  }

  /** The fields the card normalisation writes onto a Gapoktan. */
  const CardKeys: set<string> := {"jumlah_anggota", "total_lahan", "_isGapoktan"}

  /** A Gapoktan is shown with its number of linked groups as its count and its
      combined land as its land; every other item passes through. */
  function NormalizeForCard(item: Doc): (r: Doc)
    ensures r.id == item.id
    ensures !IsGapoktan(item.data) ==> r == item
    ensures IsGapoktan(r.data) <==> IsGapoktan(item.data)
    ensures forall k :: k in item.data && k !in CardKeys ==> k in r.data && r.data[k] == item.data[k]
    ensures IsGapoktan(item.data) ==>
              && Get(r.data, "jumlah_anggota") == Some(Num(NumberOf(OrZero(Get(item.data, "jumlah_kelompok")))))
              && Get(r.data, "total_lahan") == Some(Num(NumberOf(OrZero(Get(item.data, "total_lahan_gabungan")))))
              && Get(r.data, "_isGapoktan") == Some(Bool(true))
  {
    if !IsGapoktan(item.data) then item
    else
      Doc(item.id, item.data + map[
        "jumlah_anggota" := Num(NumberOf(OrZero(Get(item.data, "jumlah_kelompok")))),
        "total_lahan" := Num(NumberOf(OrZero(Get(item.data, "total_lahan_gabungan")))),
        "_isGapoktan" := Bool(true)])
  }

  /** After a successful enrichment, the card fields of a Gapoktan hold the number of
      its link documents and the combined land of the linked groups. */
  lemma NormalizeAfterEnrich(st: Store, item: Doc, faults: Faults)
    requires IsGapoktan(item.data) && item.id !in faults.groupReads
    ensures var r := NormalizeForCard(EnrichItem(st, item, faults));
            && Get(r.data, "jumlah_anggota") == Some(Num(|Sub(st, item.id, "kelompok_anggota")| as real))
            && Get(r.data, "total_lahan")
               == Some(Num(SumLinks(st, item.id, Sub(st, item.id, "kelompok_anggota"), faults).lahan))
  {
    var e := EnrichItem(st, item, faults);
    var links := Sub(st, item.id, "kelompok_anggota");
    var c := SumLinks(st, item.id, links, faults);
    assert IsGapoktan(e.data);
    assert Get(e.data, "jumlah_kelompok") == Some(Num(|links| as real));
    assert Get(e.data, "total_lahan_gabungan") == Some(Num(c.lahan));
    NumberOfOrZero(|links| as real);
    NumberOfOrZero(c.lahan);
  }

  /** `Number(x || 0)` of a number is that number. */
  lemma NumberOfOrZero(x: real)
    ensures NumberOf(OrZero(Some(Num(x)))) == x
  {
  }

  /** Normalising twice is normalising once. */
  lemma NormalizeIdempotent(item: Doc)
    ensures NormalizeForCard(NormalizeForCard(item)) == NormalizeForCard(item)
  {
    var once := NormalizeForCard(item);
    if IsGapoktan(item.data) {
      assert IsGapoktan(once.data);
      assert once.data + map[
        "jumlah_anggota" := Num(NumberOf(OrZero(Get(once.data, "jumlah_kelompok")))),
        "total_lahan" := Num(NumberOf(OrZero(Get(once.data, "total_lahan_gabungan")))),
        "_isGapoktan" := Bool(true)] == once.data;
    }
  }

  // ---------------------------------------------------------------------------
  // Order
  // ---------------------------------------------------------------------------

  /** The category ranks of the "Semua" (all categories) view. */
  const KategoriOrder: map<string, nat> :=
    map["Gapoktan" := 1, "Kelompok Tani" := 2, "Kelompok Kebun" := 3, "KWT" := 4]

  /** `kategoriOrder[kategori] || 99`: an absent or unknown category ranks last. A
      missing category is not read as "Kelompok Tani" here. */
  function Rank(f: Fields): (r: nat)
    ensures r == 1 <==> IsGapoktan(f)
    ensures "kategori" !in f ==> r == 99
    ensures 1 <= r <= 4 || r == 99
  {
    var k := Get(f, "kategori");
    if k.Some? && k.value.Str? && k.value.s in KategoriOrder then KategoriOrder[k.value.s] else 99
  }

  function NameOf(f: Fields): string {
    TextOr(f, "nama_kelompok", "")
  }

  /** The sort comparator: by category rank first when every category is shown, then
      by name. */
  function Compare(all: bool, a: Doc, b: Doc): (r: int)
    ensures all && Rank(a.data) != Rank(b.data) ==> (r < 0 <==> Rank(a.data) < Rank(b.data)) && r != 0
    ensures !all || Rank(a.data) == Rank(b.data) ==> (r == 0 <==> NameOf(a.data) == NameOf(b.data))
  {
    if all && Rank(a.data) != Rank(b.data) then Rank(a.data) - Rank(b.data)
    else
      LexCompareZeroIff(NameOf(a.data), NameOf(b.data));
      LexCompare(NameOf(a.data), NameOf(b.data))
  }

  lemma CompareAntisymmetric(all: bool, a: Doc, b: Doc)
    ensures Compare(all, b, a) == -Compare(all, a, b)
  {
    LexCompareAntisymmetric(NameOf(a.data), NameOf(b.data));
  }

  lemma CompareTransitive(all: bool, a: Doc, b: Doc, c: Doc)
    requires Compare(all, a, b) <= 0 && Compare(all, b, c) <= 0
    ensures Compare(all, a, c) <= 0
  {
    if !all || (Rank(a.data) == Rank(b.data) && Rank(b.data) == Rank(c.data)) {
      LexCompareTransitive(NameOf(a.data), NameOf(b.data), NameOf(c.data));
    }
  }

  predicate Sorted(all: bool, xs: seq<Doc>) {
    forall i, j :: 0 <= i < j < |xs| ==> Compare(all, xs[i], xs[j]) <= 0
  }

  /** Insertion into a sorted list, before the first element it does not follow. */
  function Insert(all: bool, x: Doc, ys: seq<Doc>): (r: seq<Doc>)
    ensures multiset(r) == multiset(ys) + multiset{x}
    ensures |r| == |ys| + 1
    decreases |ys|
  {
    if |ys| == 0 then [x]
    else if Compare(all, x, ys[0]) <= 0 then [x] + ys
    else
      assert ys == [ys[0]] + ys[1..];
      [ys[0]] + Insert(all, x, ys[1..])
  }

  /** The list in comparator order: a permutation of its input. */
  function SortItems(all: bool, xs: seq<Doc>): (r: seq<Doc>)
    ensures multiset(r) == multiset(xs)
    ensures |r| == |xs|
    decreases |xs|
  {
    if |xs| == 0 then []
    else
      assert xs == [xs[0]] + xs[1..];
      Insert(all, xs[0], SortItems(all, xs[1..]))
  }

  lemma {:induction false} InsertSorted(all: bool, x: Doc, ys: seq<Doc>)
    requires Sorted(all, ys)
    ensures Sorted(all, Insert(all, x, ys))
    decreases |ys|
  {
    if |ys| == 0 {
    } else if Compare(all, x, ys[0]) <= 0 {
      forall k | 0 <= k < |ys| ensures Compare(all, x, ys[k]) <= 0 {
        if k > 0 {
          CompareTransitive(all, x, ys[0], ys[k]);
        }
      }
      SortedCons(all, x, ys);
    } else {
      InsertSorted(all, x, ys[1..]);
      CompareAntisymmetric(all, x, ys[0]);
      HeadPrecedesInsert(all, x, ys);
      SortedCons(all, ys[0], Insert(all, x, ys[1..]));
    }
  }

  /** A sorted list stays sorted under a new head that precedes all of it. */
  lemma SortedCons(all: bool, y: Doc, rest: seq<Doc>)
    requires Sorted(all, rest)
    requires forall k :: 0 <= k < |rest| ==> Compare(all, y, rest[k]) <= 0
    ensures Sorted(all, [y] + rest)
  {
    var r := [y] + rest;
    forall i, j | 0 <= i < j < |r| ensures Compare(all, r[i], r[j]) <= 0 {
      if i > 0 {
        assert r[i] == rest[i - 1] && r[j] == rest[j - 1];
      } else {
        assert r[j] == rest[j - 1];
      }
    }
  }

  /** The head of a sorted list that `x` goes after precedes everything in the
      rest with `x` inserted. */
  lemma HeadPrecedesInsert(all: bool, x: Doc, ys: seq<Doc>)
    requires |ys| > 0 && Sorted(all, ys) && Compare(all, ys[0], x) <= 0
    ensures forall k :: 0 <= k < |Insert(all, x, ys[1..])| ==> Compare(all, ys[0], Insert(all, x, ys[1..])[k]) <= 0
  {
    var rest := Insert(all, x, ys[1..]);
    forall k | 0 <= k < |rest| ensures Compare(all, ys[0], rest[k]) <= 0 {
      assert rest[k] in multiset(rest);
      if rest[k] != x {
        assert rest[k] in multiset(ys[1..]);
        var j :| 0 <= j < |ys[1..]| && ys[1..][j] == rest[k];
        assert ys[j + 1] == rest[k];
      }
    }
  }

  lemma {:induction false} SortSorted(all: bool, xs: seq<Doc>)
    ensures Sorted(all, SortItems(all, xs))
    decreases |xs|
  {
    if |xs| > 0 {
      SortSorted(all, xs[1..]);
      InsertSorted(all, xs[0], SortItems(all, xs[1..]));
    }
  }

  /** The order of the list view: category then name under "Semua", else name. */
  function SortForView(kategori: string, xs: seq<Doc>): (r: seq<Doc>)
    ensures multiset(r) == multiset(xs)
  {
    SortItems(kategori == "Semua", xs)
  }

  /** Under "Semua", categories appear in rank order: all Gapoktan first, then
      Kelompok Tani, Kelompok Kebun, KWT and finally the rest. */
  lemma SortedByRank(xs: seq<Doc>)
    ensures var r := SortForView("Semua", xs);
            forall i, j :: 0 <= i < j < |r| ==> Rank(r[i].data) <= Rank(r[j].data)
  {
    SortSorted(true, xs);
  }

  /** Within one category, or in a single-category view, names are in order. */
  lemma SortedByName(kategori: string, xs: seq<Doc>)
    ensures var r := SortForView(kategori, xs);
            forall i, j :: 0 <= i < j < |r| && (kategori != "Semua" || Rank(r[i].data) == Rank(r[j].data)) ==>
              LexCompare(NameOf(r[i].data), NameOf(r[j].data)) <= 0
  {
    SortSorted(kategori == "Semua", xs);
  }

  // ---------------------------------------------------------------------------
  // Search
  // ---------------------------------------------------------------------------

  /** `(v ?? "").toString()`. Numbers are printed by `fmt`, JavaScript's number to
      text conversion, which is left abstract; a reference prints as a plain object. */
  function DisplayText(v: Option<Value>, fmt: real -> string): (t: string)
    ensures v.None? || v.value.Null? ==> t == ""
    ensures v.Some? && v.value.Str? ==> t == v.value.s
    ensures v.Some? && v.value.Num? ==> t == fmt(v.value.n)
  {
    if v.None? then ""
    else match v.value
      case Null => ""
      case Bool(b) => if b then "true" else "false"
      case Num(n) => fmt(n)
      case Str(s) => s
      case Ref(_) => "[object Object]"
  }

  /** An item matches the lowercased term `s` when its lowercased name or officer
      names, or the text of its land or member count, contain `s`. */
  predicate Matches(s: string, item: Doc, fmt: real -> string)
    ensures s == "" ==> Matches(s, item, fmt)
  {
    ContainsEmpty(ToLower(NameOf(item.data)));
    || Contains(ToLower(NameOf(item.data)), s)
    || Contains(ToLower(TextOr(item.data, "ketua", "")), s)
    || Contains(ToLower(TextOr(item.data, "sekretaris", "")), s)
    || Contains(ToLower(TextOr(item.data, "bendahara", "")), s)
    || Contains(DisplayText(Get(item.data, "total_lahan"), fmt), s)
    || Contains(DisplayText(Get(item.data, "jumlah_anggota"), fmt), s)
  }

  /** The search filter, order kept. */
  function Search(items: seq<Doc>, term: string, fmt: real -> string): (r: seq<Doc>)
    ensures forall x :: x in r <==> x in items && Matches(ToLower(term), x, fmt)
    ensures |r| <= |items|
  {
    Filter(items, x => Matches(ToLower(term), x, fmt))
  }

  /** The search keeps the order of the list it filters, so the sorted list stays
      sorted on screen. */
  lemma SearchKeepsSorted(all: bool, items: seq<Doc>, term: string, fmt: real -> string)
    requires Sorted(all, items)
    ensures Sorted(all, Search(items, term, fmt))
  {
    var before := (a: Doc, b: Doc) => Compare(all, a, b) <= 0;
    assert Ordered(items, before);
    FilterKeepsOrder(items, x => Matches(ToLower(term), x, fmt), before);
    var r := Search(items, term, fmt);
    assert Ordered(r, before);
    forall i, j | 0 <= i < j < |r| ensures Compare(all, r[i], r[j]) <= 0 {
      assert before(r[i], r[j]);
    }
  }

  /** An empty search term keeps every item. */
  lemma SearchEmpty(items: seq<Doc>, fmt: real -> string)
    ensures Search(items, "", fmt) == items
  {
    forall i | 0 <= i < |items| ensures Matches(ToLower(""), items[i], fmt) {
      ContainsEmpty(ToLower(NameOf(items[i].data)));
    }
    FilterAll(items, x => Matches(ToLower(""), x, fmt));
  }

  /** A name match is found whatever the case of the term or of the name. */
  lemma SearchFindsName(items: seq<Doc>, term: string, fmt: real -> string, i: nat)
    requires i < |items| && Contains(ToLower(NameOf(items[i].data)), ToLower(term))
    ensures items[i] in Search(items, term, fmt)
  {
  }

  // ---------------------------------------------------------------------------
  // Paging
  // ---------------------------------------------------------------------------

  const ItemsPerPage: nat := 8

  /** `list.slice((page - 1) * 8, page * 8)`; pages are numbered from 1. */
  function PageItems<T>(xs: seq<T>, page: nat): (r: seq<T>)
    requires page >= 1
    ensures |r| <= ItemsPerPage
    ensures forall i :: 0 <= i < |r| ==>
              (page - 1) * ItemsPerPage + i < |xs| && r[i] == xs[(page - 1) * ItemsPerPage + i]
    ensures (page - 1) * ItemsPerPage >= |xs| <==> r == []
    ensures (page - 1) * ItemsPerPage < |xs| ==> |r| == Min(ItemsPerPage, |xs| - (page - 1) * ItemsPerPage)
  {
    var start := (page - 1) * ItemsPerPage;
    if start >= |xs| then [] else xs[start .. Min(page * ItemsPerPage, |xs|)]
  }

  /** `Math.ceil(n / 8)`. */
  function TotalPages(n: nat): (r: nat)
    ensures r * ItemsPerPage >= n
    ensures r > 0 ==> (r - 1) * ItemsPerPage < n
  {
    (n + ItemsPerPage - 1) / ItemsPerPage
  }

  /** The number of pages is the number of 8-element chunks of the list. */
  lemma TotalPagesIsChunkCount<T>(xs: seq<T>)
    ensures TotalPages(|xs|) == |ChunkArray(xs, ItemsPerPage)|
  {
    var k := |ChunkArray(xs, ItemsPerPage)|;
    ChunkCount(xs, ItemsPerPage);
    TimesIsProduct(k, ItemsPerPage);
  }

  /** Page `p` is the `p`-th chunk of the list (there are `TotalPages` chunks). */
  lemma PageIsChunk<T>(xs: seq<T>, page: nat)
    requires 1 <= page <= |ChunkArray(xs, ItemsPerPage)|
    ensures PageItems(xs, page) == ChunkArray(xs, ItemsPerPage)[page - 1]
  {
    ChunkAt(xs, ItemsPerPage, page - 1);
    TimesIsProduct(page - 1, ItemsPerPage);
  }

  /** Pages 1 to `TotalPages` laid end to end give back the whole list, and no item
      is shown on two pages. */
  lemma PagesCoverList<T>(xs: seq<T>)
    ensures Flatten(seq(TotalPages(|xs|), p requires 0 <= p < TotalPages(|xs|) => PageItems(xs, p + 1))) == xs
  {
    TotalPagesIsChunkCount(xs);
    var pages := seq(TotalPages(|xs|), p requires 0 <= p < TotalPages(|xs|) => PageItems(xs, p + 1));
    forall p | 0 <= p < TotalPages(|xs|) ensures pages[p] == ChunkArray(xs, ItemsPerPage)[p] {
      PageIsChunk(xs, p + 1);
    }
    assert pages == ChunkArray(xs, ItemsPerPage);
  }

  /** A page past the last one is empty. */
  lemma PageBeyondLast<T>(xs: seq<T>, page: nat)
    requires page > TotalPages(|xs|)
    ensures PageItems(xs, page) == []
  {
    TotalPagesIsChunkCount(xs);
    ChunkCount(xs, ItemsPerPage);
    TimesIsProduct(TotalPages(|xs|), ItemsPerPage);
  }

  /** The Prev and Next buttons. */
  function PrevPage(page: nat): (r: nat)
    ensures r >= 1
    ensures page >= 1 ==> r <= page && (r == page <==> page == 1)
  {
    if page - 1 >= 1 then page - 1 else 1
  }

  function NextPage(page: nat, total: nat): (r: nat)
    ensures r <= total
    ensures page <= total ==> page <= r && (r == page <==> page == total)
  {
    if page + 1 <= total then page + 1 else total
  }

  /** Prev and Next keep the current page within `1..TotalPages`, and neither moves
      past the first or the last page. */
  lemma PageStepsStayInRange(page: nat, total: nat)
    requires 1 <= page <= total
    ensures 1 <= PrevPage(page) <= total && 1 <= NextPage(page, total) <= total
    ensures page == 1 ==> PrevPage(page) == 1
    ensures page == total ==> NextPage(page, total) == total
    ensures page > 1 ==> PrevPage(page) == page - 1
    ensures page < total ==> NextPage(page, total) == page + 1
  {
  }
}

=== FILE: lists.dfy ===
/** `Array.prototype.filter` on sequences: the order-preserving selection every list
    view of the application applies. */
module Lists {

  function Filter<T(!new)>(xs: seq<T>, keep: T -> bool): (r: seq<T>)
    ensures forall x :: x in r <==> x in xs && keep(x)
    ensures |r| <= |xs|
    decreases |xs|
  {
    if |xs| == 0 then []
    else if keep(xs[0]) then [xs[0]] + Filter(xs[1..], keep)
    else Filter(xs[1..], keep)
  }

  /** Filtering distributes over concatenation, so kept elements stay in their
      original order. */
  lemma {:induction false} FilterConcat<T(!new)>(a: seq<T>, b: seq<T>, keep: T -> bool)
    ensures Filter(a + b, keep) == Filter(a, keep) + Filter(b, keep)
    decreases |a|
  {
    if |a| == 0 {
      assert a + b == b;
    } else {
      assert (a + b)[1..] == a[1..] + b;
      FilterConcat(a[1..], b, keep);
    }
  }

  /** A filter that keeps every element is the identity. */
  lemma {:induction false} FilterAll<T(!new)>(xs: seq<T>, keep: T -> bool)
    requires forall i :: 0 <= i < |xs| ==> keep(xs[i])
    ensures Filter(xs, keep) == xs
    decreases |xs|
  {
    if |xs| > 0 {
      FilterAll(xs[1..], keep);
    }
  }

  /** Every earlier element is `before` every later one. */
  predicate Ordered<T>(xs: seq<T>, before: (T, T) -> bool) {
    forall i, j :: 0 <= i < j < |xs| ==> before(xs[i], xs[j])
  }

  /** Filtering keeps the relative order of what it keeps: any relation that holds
      between every earlier and later element of the input still holds in the output,
      so a sorted list stays sorted. */
  lemma {:induction false} FilterKeepsOrder<T(!new)>(xs: seq<T>, keep: T -> bool, before: (T, T) -> bool)
    requires Ordered(xs, before)
    ensures Ordered(Filter(xs, keep), before)
    decreases |xs|
  {
    if |xs| > 0 {
      var tail := xs[1..];
      assert Ordered(tail, before) by {
        forall i, j | 0 <= i < j < |tail| ensures before(tail[i], tail[j]) {
          assert tail[i] == xs[i + 1] && tail[j] == xs[j + 1];
        }
      }
      FilterKeepsOrder(tail, keep, before);
      var rest := Filter(tail, keep);
      if keep(xs[0]) {
        forall j | 0 <= j < |rest| ensures before(xs[0], rest[j]) {
          assert rest[j] in tail;
          var k :| 0 <= k < |tail| && tail[k] == rest[j];
          assert xs[k + 1] == rest[j];
        }
        var r := [xs[0]] + rest;
        assert Filter(xs, keep) == r;
        forall i, j | 0 <= i < j < |r| ensures before(r[i], r[j]) {
          if i == 0 {
            assert r[j] == rest[j - 1];
          } else {
            assert r[i] == rest[i - 1] && r[j] == rest[j - 1];
          }
        }
      } else {
        assert Filter(xs, keep) == rest;
      }
    }
  }
}

=== FILE: officers.dfy ===
/** Officer lookup: a group's chairman, secretary and treasurer are read off its member
    (or board) list as the first member holding that role. */
module Officers {
  import opened Values
  import opened Docs

  /** The fields of each document, in collection order. */
  function DataOf(c: Collection): (ds: seq<Fields>)
    ensures |ds| == |c|
    ensures forall i :: 0 <= i < |c| ==> ds[i] == c[i].data
  {
    seq(|c|, i requires 0 <= i < |c| => c[i].data)
  }

  /** A member holds `role` when its `jabatan` is exactly that text. */
  predicate HasRole(m: Fields, role: string) {
    Get(m, "jabatan") == Some(Str(role))
  }

  /** The position of the first member holding `role`, if any. */
  function FirstWithRole(members: seq<Fields>, role: string): (r: Option<nat>)
    ensures r.None? <==> forall j :: 0 <= j < |members| ==> !HasRole(members[j], role)
    ensures r.Some? ==> r.value < |members| && HasRole(members[r.value], role)
    ensures r.Some? ==> forall j :: 0 <= j < r.value ==> !HasRole(members[j], role)
    decreases |members|
  {
    if |members| == 0 then None
    else if HasRole(members[0], role) then Some(0)
    else
      match FirstWithRole(members[1..], role)
      case None => None
      case Some(k) => Some(k + 1)
  }

  /** The displayed officer name: the first role holder's `nama` when it is truthy,
      otherwise "-". */
  function OfficerName(members: seq<Fields>, role: string): (r: Value)
    ensures FirstWithRole(members, role).None? ==> r == Str("-")
    ensures r != Str("-") ==>
              var i := FirstWithRole(members, role).value;
              Get(members[i], "nama") == Some(r) && Truthy(r)
    ensures FirstWithRole(members, role).Some? ==>
              var nama := Get(members[FirstWithRole(members, role).value], "nama");
              nama.Some? && Truthy(nama.value) ==> r == nama.value
  {
    match FirstWithRole(members, role)
    case None => Str("-")
    case Some(i) =>
      var nama := Get(members[i], "nama");
      if nama.Some? && Truthy(nama.value) then nama.value else Str("-")
  }

  /** First match wins: members added after an existing role holder never change who
      is shown for that role. */
  lemma {:induction false} OfficerNameAppend(members: seq<Fields>, more: seq<Fields>, role: string)
    requires FirstWithRole(members, role).Some?
    ensures FirstWithRole(members + more, role) == FirstWithRole(members, role)
    ensures OfficerName(members + more, role) == OfficerName(members, role)
  {
    var i := FirstWithRole(members, role).value;
    var all := members + more;
    assert HasRole(all[i], role);
    assert forall j :: 0 <= j < i ==> all[j] == members[j];
  }

  /** A role nobody in the list holds shows "-", whatever else the list contains. */
  lemma OfficerNameAbsent(members: seq<Fields>, role: string)
    requires forall j :: 0 <= j < |members| ==> !HasRole(members[j], role)
    ensures OfficerName(members, role) == Str("-")
  {
  }
}

=== FILE: pengurus_form.dfy ===
/** The Gapoktan board form: a board member has a name, one of three roles and an
    optional phone number, and no role may be given to two board members. */
module BoardForm {
  import opened Values

  /** The roles the select offers. */
  const RoleOptions: seq<string> := ["Ketua", "Sekretaris", "Bendahara"]

  datatype Form = Form(nama: string, jabatan: string, noHp: string)

  /** A saved board member as stored fields. */
  function AsFields(f: Form): (d: Fields)
    ensures d.Keys == {"nama", "jabatan", "no_hp"}
    ensures d["nama"] == Str(f.nama) && d["jabatan"] == Str(f.jabatan) && d["no_hp"] == Str(f.noHp)
  {
    map["nama" := Str(f.nama), "jabatan" := Str(f.jabatan), "no_hp" := Str(f.noHp)]
  }

  /** The form the modal shows when it opens: the edited member's text fields, each
      `|| ""`, or all empty. */
  function OpenForm(initial: Option<Fields>): (f: Form)
    ensures initial.None? ==> f == Form("", "", "")
    ensures initial.Some? ==> f.nama == TextOr(initial.value, "nama", "")
                              && f.jabatan == TextOr(initial.value, "jabatan", "")
                              && f.noHp == TextOr(initial.value, "no_hp", "")
  {
    if initial.None? then Form("", "", "")
    else Form(TextOr(initial.value, "nama", ""), TextOr(initial.value, "jabatan", ""),
              TextOr(initial.value, "no_hp", ""))
  }

  /** Opening a saved board member shows it as it was saved. */
  lemma OpenSaved(f: Form)
    ensures OpenForm(Some(AsFields(f))) == f
  {
  }

  /** The edited member already holds `jabatan`. */
  predicate KeepsOwnRole(initial: Option<Fields>, jabatan: string) {
    initial.Some? && Get(initial.value, "jabatan") == Some(Str(jabatan))
  }

  /** The `disabled` flag of a role option: held by someone, and not the edited
      member's own role. */
  function OptionDisabled(jabatan: string, existing: seq<string>, initial: Option<Fields>): (d: bool)
    ensures d ==> jabatan in existing
    ensures KeepsOwnRole(initial, jabatan) ==> !d
    ensures jabatan in existing && initial.None? ==> d
    ensures jabatan in existing && !KeepsOwnRole(initial, jabatan) ==> d
  {
    jabatan in existing && !KeepsOwnRole(initial, jabatan)
  }

  datatype SaveError = MissingField | DuplicateRole

  /** `handleSave`: name and role are required; a role someone already holds is
      refused unless the edited member keeps its own; an accepted form goes to the
      caller unchanged. */
  function HandleSave(form: Form, initial: Option<Fields>, existing: seq<string>): (r: Result<Form, SaveError>)
    ensures r.Success? ==> r.value == form
    ensures r == Failure(MissingField) <==> form.nama == "" || form.jabatan == ""
    ensures r == Failure(DuplicateRole) <==>
              form.nama != "" && form.jabatan != "" && form.jabatan in existing && !KeepsOwnRole(initial, form.jabatan)
  {
    if form.nama == "" || form.jabatan == "" then Failure(MissingField)
    else if (initial.None? || Get(initial.value, "jabatan") != Some(Str(form.jabatan))) && form.jabatan in existing then
      Failure(DuplicateRole)
    else Success(form)
  }

  /** The save rule and the select agree: a complete form is accepted exactly when
      its role is not greyed out. */
  lemma SaveAgreesWithOptions(form: Form, initial: Option<Fields>, existing: seq<string>)
    requires form.nama != "" && form.jabatan != ""
    ensures HandleSave(form, initial, existing).Success? <==> !OptionDisabled(form.jabatan, existing, initial)
  {
  }

  /** Editing a board member without changing its role is accepted even though the
      role is listed as held, and a new member may not take a held role. */
  lemma OwnRoleAccepted(form: Form, o: Form, existing: seq<string>)
    requires form.nama != "" && form.jabatan == o.jabatan != ""
    ensures HandleSave(form, Some(AsFields(o)), existing) == Success(form)
    ensures form.jabatan in existing ==> HandleSave(form, None, existing) == Failure(DuplicateRole)
  {
  }

  // ---------------------------------------------------------------------------
  // The board as a list of saved members
  // ---------------------------------------------------------------------------

  /** The roles held on the board, in board order: the `existingJabatan` list. */
  function Roles(os: seq<Form>): (rs: seq<string>)
    ensures |rs| == |os| && forall i :: 0 <= i < |os| ==> rs[i] == os[i].jabatan
  {
    seq(|os|, i requires 0 <= i < |os| => os[i].jabatan)
  }

  predicate RolesDistinct(os: seq<Form>) {
    forall i, j :: 0 <= i < j < |os| ==> os[i].jabatan != os[j].jabatan
  }

  /** A save on the board page: adding a member, or editing the member at `index`
      (the modal opened on that member's stored fields). */
  datatype Save = Add(form: Form) | Edit(index: nat, form: Form)

  /** One save applied to the board: a rejected save, or an edit of a row that is not
      there, leaves the board as it was. */
  function ApplySave(os: seq<Form>, s: Save): (r: seq<Form>)
    ensures s.Add? && HandleSave(s.form, None, Roles(os)).Success? ==> r == os + [s.form]
    ensures s.Edit? && s.index < |os| && HandleSave(s.form, Some(AsFields(os[s.index])), Roles(os)).Success? ==>
              r == os[s.index := s.form]
    ensures |r| == |os| || |r| == |os| + 1
  {
    match s
    case Add(f) => if HandleSave(f, None, Roles(os)).Success? then os + [f] else os
    case Edit(k, f) =>
      if k < |os| && HandleSave(f, Some(AsFields(os[k])), Roles(os)).Success? then os[k := f] else os
  }

  function ApplySaves(os: seq<Form>, saves: seq<Save>): seq<Form>
    decreases |saves|
  {
    if |saves| == 0 then os else ApplySaves(ApplySave(os, saves[0]), saves[1..])
  }

  /** One accepted save keeps the roles on the board distinct. */
  lemma SaveKeepsDistinct(os: seq<Form>, s: Save)
    requires RolesDistinct(os)
    ensures RolesDistinct(ApplySave(os, s))
  {
    var r := ApplySave(os, s);
    if s.Add? && r != os {
      forall i, j | 0 <= i < j < |r| ensures r[i].jabatan != r[j].jabatan {
        if j == |os| {
          assert Roles(os)[i] == os[i].jabatan;
        }
      }
    } else if s.Edit? && r != os {
      var k := s.index;
      forall i, j | 0 <= i < j < |r| ensures r[i].jabatan != r[j].jabatan {
        if i == k || j == k {
          var other := if i == k then j else i;
          assert Roles(os)[other] == os[other].jabatan;
        }
      }
    }
  }

  /** Starting from a board with distinct roles, any sequence of saves keeps the
      roles distinct. */
  lemma {:induction false} SavesKeepDistinct(os: seq<Form>, saves: seq<Save>)
    requires RolesDistinct(os)
    ensures RolesDistinct(ApplySaves(os, saves))
    decreases |saves|
  {
    if |saves| > 0 {
      SaveKeepsDistinct(os, saves[0]);
      SavesKeepDistinct(ApplySave(os, saves[0]), saves[1..]);
    }
  }
}

=== FILE: public_detail.dfy ===
/** The public member table of one group, ordered by role priority (chairman,
    secretary, treasurer, member) and then by case-insensitive name. */
module MemberOrder {
  import opened Values
  import opened Text

  const JabatanOrder: map<string, nat> :=
    map["Ketua" := 1, "Sekretaris" := 2, "Bendahara" := 3, "Anggota" := 4]

  /** `jabatan || "Anggota"`: a member without a role is an ordinary member. */
  function RoleOf(m: Fields): (v: Value)
    ensures Truthy(v)
    ensures !("jabatan" in m && Truthy(m["jabatan"])) ==> v == Str("Anggota")
  {
    var j := Get(m, "jabatan");
    if j.Some? && Truthy(j.value) then j.value else Str("Anggota")
  }

  /** The priority of the role, when it is one of the four known ones. */
  function RoleRank(m: Fields): (r: Option<nat>)
    ensures r.Some? ==> 1 <= r.value <= 4
    ensures r.Some? <==> RoleOf(m).Str? && RoleOf(m).s in JabatanOrder
  {
    var v := RoleOf(m);
    if v.Str? && v.s in JabatanOrder then Some(JabatanOrder[v.s]) else None
  }

  /** `nama?.toLowerCase() || ""`. */
  function SortName(m: Fields): string {
    ToLower(TextOr(m, "nama", ""))
  }

  /** The `sortingFn` of the role column. Two different priorities compare by their
      difference; a known against an unknown role gives `NaN`, which the sort reads as
      a tie. Equal priorities, or two unknown roles, compare by name. */
  function CompareMembers(a: Fields, b: Fields): (r: int)
    ensures RoleRank(a).Some? && RoleRank(b).Some? && RoleRank(a) != RoleRank(b) ==>
              r != 0 && (r < 0 <==> RoleRank(a).value < RoleRank(b).value)
    ensures RoleRank(a).Some? != RoleRank(b).Some? ==> r == 0
    ensures RoleRank(a) == RoleRank(b) ==> (r == 0 <==> SortName(a) == SortName(b))
  {
    var ra := RoleRank(a);
    var rb := RoleRank(b);
    if ra != rb then
      (if ra.Some? && rb.Some? then ra.value - rb.value else 0)
    else
      LexCompareZeroIff(SortName(a), SortName(b));
      LexCompare(SortName(a), SortName(b))
  }

  predicate KnownRole(m: Fields) {
    RoleRank(m).Some?
  }

  /** Swapping the arguments negates the comparison, for any roles. */
  lemma CompareMembersAntisymmetric(a: Fields, b: Fields)
    ensures CompareMembers(b, a) == -CompareMembers(a, b)
  {
    LexCompareAntisymmetric(SortName(a), SortName(b));
  }

  /** Over the four known roles the comparison is transitive, so with antisymmetry it
      is a total preorder. */
  lemma CompareMembersTransitive(a: Fields, b: Fields, c: Fields)
    requires KnownRole(a) && KnownRole(b) && KnownRole(c)
    requires CompareMembers(a, b) <= 0 && CompareMembers(b, c) <= 0
    ensures CompareMembers(a, c) <= 0
  {
    if RoleRank(a) == RoleRank(b) && RoleRank(b) == RoleRank(c) {
      LexCompareTransitive(SortName(a), SortName(b), SortName(c));
    }
  }

  /** Different known roles are ordered Ketua, Sekretaris, Bendahara, Anggota,
      whatever the names. */
  lemma RolesOrderFirst(a: Fields, b: Fields)
    requires KnownRole(a) && KnownRole(b) && RoleRank(a) != RoleRank(b)
    ensures CompareMembers(a, b) < 0 <==> RoleRank(a).value < RoleRank(b).value
  {
  }

  /** Members of the same role are ordered by name, ignoring case. */
  lemma SameRoleByName(a: Fields, b: Fields)
    requires RoleRank(a) == RoleRank(b)
    ensures CompareMembers(a, b) <= 0 <==> LexCompare(SortName(a), SortName(b)) <= 0
    ensures CompareMembers(a, b) == 0 <==> SortName(a) == SortName(b)
  {
    LexCompareZeroIff(SortName(a), SortName(b));
  }

  /** An empty or missing role compares exactly like "Anggota". */
  lemma EmptyRoleIsAnggota(a: Fields, b: Fields)
    requires !("jabatan" in a && Truthy(a["jabatan"]))
    ensures CompareMembers(a, b) == CompareMembers(a["jabatan" := Str("Anggota")], b)
  {
    var a' := a["jabatan" := Str("Anggota")];
    assert RoleOf(a') == RoleOf(a);
    assert SortName(a') == SortName(a);
  }

  /** A role outside the four breaks transitivity: it ties with both a chairman and
      an ordinary member, while those two are strictly ordered. */
  lemma UnknownRoleNotTransitive()
    ensures var anggota := map["jabatan" := Str("Anggota"), "nama" := Str("Budi")];
            var wakil := map["jabatan" := Str("Wakil Ketua"), "nama" := Str("Citra")];
            var ketua := map["jabatan" := Str("Ketua"), "nama" := Str("Dewi")];
            && CompareMembers(anggota, wakil) == 0 && CompareMembers(wakil, ketua) == 0
            && CompareMembers(anggota, ketua) > 0
  {
    var anggota := map["jabatan" := Str("Anggota"), "nama" := Str("Budi")];
    var wakil := map["jabatan" := Str("Wakil Ketua"), "nama" := Str("Citra")];
    var ketua := map["jabatan" := Str("Ketua"), "nama" := Str("Dewi")];
    assert RoleRank(anggota) == Some(4);
    assert RoleRank(wakil) == None;
    assert RoleRank(ketua) == Some(1);
  }
}

=== FILE: rename.dfy ===
/** `renameKelompokDoc` and its helpers: renaming `kelompok_tani/{oldId}` to
    `kelompok_tani/{newId}` by writing the new parent, copying each subcollection in
    chunked merging batches, deleting each old subcollection, then deleting the old
    parent. Each store call may throw; `failAt` names the call that does (counted
    from 0, reads included), and the run stops there. */
module FirestoreRename {
  import opened Values
  import opened Docs
  import opened DocStore
  import opened Chunking

  datatype Phase = WriteNew | Copy | Delete | DeleteOld

  datatype Status = Ok | Failed(phase: Phase)

  /** The store calls a rename issues. */
  datatype Call =
    | WriteParent(id: Id)
    | ReadSub(parent: Id, name: string)
    | CopyBatch(parent: Id, name: string, ids: seq<Id>)
    | DeleteBatch(parent: Id, name: string, ids: seq<Id>)
    | DeleteParentDoc(id: Id)
  {
    predicate Writes() { WriteParent? || CopyBatch? }
    predicate Deletes() { DeleteBatch? || DeleteParentDoc? }
  }

  /** A rename in progress: the store so far, the calls that took effect, and
      whether a call has thrown. */
  datatype Run = Run(store: Store, log: seq<Call>, status: Status)

  /** `r2` continues `r1`: it keeps `r1`'s log as a prefix, a stopped run stays as
      it is, and a run that is still going has never failed. */
  predicate Extends(r1: Run, r2: Run) {
    && |r1.log| <= |r2.log|
    && r2.log[..|r1.log|] == r1.log
    && (!r1.status.Ok? ==> r2 == r1)
    && (r2.status.Ok? ==> r1.status.Ok?)
  }

  /** Every call that `r2` adds to `r1`'s log belongs to a copy from `oldId` to
      `newId`: a read of an `oldId` subcollection or a batch written under `newId`. */
  ghost predicate AddsCopySteps(r1: Run, r2: Run, oldId: Id, newId: Id)
    requires |r1.log| <= |r2.log|
  {
    forall i :: |r1.log| <= i < |r2.log| ==>
      (r2.log[i].ReadSub? && r2.log[i].parent == oldId) || (r2.log[i].CopyBatch? && r2.log[i].parent == newId)
  }

  /** Every call that `r2` adds to `r1`'s log belongs to a delete under `oldId`: a
      read of one of its subcollections or a delete batch there. */
  ghost predicate AddsDeleteSteps(r1: Run, r2: Run, oldId: Id)
    requires |r1.log| <= |r2.log|
  {
    forall i :: |r1.log| <= i < |r2.log| ==>
      (r2.log[i].ReadSub? || r2.log[i].DeleteBatch?) && r2.log[i].parent == oldId
  }

  lemma ExtendsCompose(r1: Run, r2: Run, r3: Run)
    requires Extends(r1, r2) && Extends(r2, r3)
    ensures Extends(r1, r3)
    ensures forall i :: 0 <= i < |r2.log| ==> r3.log[i] == r2.log[i]
  {
    forall i | 0 <= i < |r2.log| ensures r3.log[i] == r2.log[i] {
      assert r3.log[..|r2.log|][i] == r3.log[i];
    }
    assert r3.log[..|r1.log|] == r3.log[..|r2.log|][..|r1.log|];
  }

  lemma CopyStepsCompose(r1: Run, r2: Run, r3: Run, oldId: Id, newId: Id)
    requires Extends(r1, r2) && Extends(r2, r3)
    requires AddsCopySteps(r1, r2, oldId, newId) && AddsCopySteps(r2, r3, oldId, newId)
    ensures Extends(r1, r3) && AddsCopySteps(r1, r3, oldId, newId)
  {
    ExtendsCompose(r1, r2, r3);
  }

  lemma DeleteStepsCompose(r1: Run, r2: Run, r3: Run, oldId: Id)
    requires Extends(r1, r2) && Extends(r2, r3)
    requires AddsDeleteSteps(r1, r2, oldId) && AddsDeleteSteps(r2, r3, oldId)
    ensures Extends(r1, r3) && AddsDeleteSteps(r1, r3, oldId)
  {
    ExtendsCompose(r1, r2, r3);
  }

  /** Two steps that each add only calls satisfying `ok` together add only such
      calls. */
  lemma AddedCompose(r1: Run, r2: Run, r3: Run, ok: Call -> bool)
    requires Extends(r1, r2) && Extends(r2, r3)
    requires forall i :: |r1.log| <= i < |r2.log| ==> ok(r2.log[i])
    requires forall i :: |r2.log| <= i < |r3.log| ==> ok(r3.log[i])
    ensures Extends(r1, r3)
    ensures forall i :: |r1.log| <= i < |r3.log| ==> ok(r3.log[i])
  {
    ExtendsCompose(r1, r2, r3);
  }

  /** Only the subcollection `p`/`n` may differ between the two stores. */
  ghost predicate OnlySubChanged(s1: Store, s2: Store, p: Id, n: string) {
    && s2.groups == s1.groups
    && s2.stats == s1.stats
    && forall q, m :: (q != p || m != n) ==> Sub(s2, q, m) == Sub(s1, q, m)
  }

  /** Issue one store call: if the run is still going, either the call throws
      (when it is call number `failAt`) or it takes effect and leaves `next`. */
  function Attempt(r: Run, phase: Phase, call: Call, next: Store, failAt: Option<nat>): (r': Run)
    ensures Extends(r, r') && |r'.log| <= |r.log| + 1
    ensures r'.status.Ok? ==> r'.store == next && r'.log == r.log + [call]
    ensures !r'.status.Ok? ==> r'.store == r.store && r'.log == r.log
    ensures r.status.Ok? ==> (r'.status.Ok? <==> failAt != Some(|r.log|))
    ensures r.status.Ok? && !r'.status.Ok? ==> r'.status == Failed(phase)
  {
    if !r.status.Ok? then r
    else if failAt == Some(|r.log|) then r.(status := Failed(phase))
    else Run(next, r.log + [call], Ok)
  }

  function CopyBatches(r: Run, newId: Id, name: string, batches: seq<seq<Doc>>, failAt: Option<nat>): (r': Run)
    ensures Extends(r, r')
    ensures forall i :: |r.log| <= i < |r'.log| ==> r'.log[i].CopyBatch? && r'.log[i].parent == newId && r'.log[i].name == name
    ensures failAt.None? && r.status.Ok? ==> r'.status.Ok?
    ensures OnlySubChanged(r.store, r'.store, newId, name)
    ensures r'.status.Ok? ==> Sub(r'.store, newId, name) == MergeAll(Sub(r.store, newId, name), Flatten(batches))
    ensures r.status.Ok? && !r'.status.Ok? ==> r'.status == Failed(Copy)
    decreases |batches|
  {
    if |batches| == 0 then r
    else
      var target := Sub(r.store, newId, name);
      var next := WithSub(r.store, newId, name, MergeAll(target, batches[0]));
      var r1 := Attempt(r, Copy, CopyBatch(newId, name, IdsOf(batches[0])), next, failAt);
      var r2 := CopyBatches(r1, newId, name, batches[1..], failAt);
      MergeAllConcat(target, batches[0], Flatten(batches[1..]));
      AddedCompose(r, r1, r2, (c: Call) => c.CopyBatch? && c.parent == newId && c.name == name);
      r2
  }

  /** `copySubcollection`: read `oldId`'s subcollection, then write every document
      under `newId` with the same document id, merging onto what is there. */
  function CopySubcollection(r: Run, oldId: Id, newId: Id, name: string, failAt: Option<nat>): (r': Run)
    ensures Extends(r, r') && AddsCopySteps(r, r', oldId, newId)
    ensures failAt.None? && r.status.Ok? ==> r'.status.Ok?
    ensures OnlySubChanged(r.store, r'.store, newId, name)
    ensures r'.status.Ok? ==>
      Sub(r'.store, newId, name) == MergeAll(Sub(r.store, newId, name), Sub(r.store, oldId, name))
    ensures r.status.Ok? && !r'.status.Ok? ==> r'.status == Failed(Copy)
  {
    var r1 := Attempt(r, Copy, ReadSub(oldId, name), r.store, failAt);
    if !r1.status.Ok? then r1
    else
      var docs := Sub(r1.store, oldId, name);
      if |docs| == 0 then r1
      else CopyBatches(r1, newId, name, ChunkArray(docs, DefaultChunkSize), failAt)
  }

  function DeleteBatches(r: Run, oldId: Id, name: string, batches: seq<seq<Doc>>, failAt: Option<nat>): (r': Run)
    ensures Extends(r, r')
    ensures forall i :: |r.log| <= i < |r'.log| ==> r'.log[i].DeleteBatch? && r'.log[i].parent == oldId && r'.log[i].name == name
    ensures failAt.None? && r.status.Ok? ==> r'.status.Ok?
    ensures OnlySubChanged(r.store, r'.store, oldId, name)
    ensures r'.status.Ok? ==>
      Sub(r'.store, oldId, name) == RemoveIds(Sub(r.store, oldId, name), IdsOf(Flatten(batches)))
    ensures r.status.Ok? && !r'.status.Ok? ==> r'.status == Failed(Delete)
    decreases |batches|
  {
    if |batches| == 0 then
      RemoveNoIds(Sub(r.store, oldId, name));
      r
    else
      var target := Sub(r.store, oldId, name);
      var ids := IdsOf(batches[0]);
      var next := WithSub(r.store, oldId, name, RemoveIds(target, ids));
      var r1 := Attempt(r, Delete, DeleteBatch(oldId, name, ids), next, failAt);
      var r2 := DeleteBatches(r1, oldId, name, batches[1..], failAt);
      AddedCompose(r, r1, r2, (c: Call) => c.DeleteBatch? && c.parent == oldId && c.name == name);
      IdsOfConcat(batches[0], Flatten(batches[1..]));
      RemoveIdsConcat(target, ids, IdsOf(Flatten(batches[1..])));
      r2
  }

  /** `deleteSubcollection`: read `oldId`'s subcollection, then delete every
      document that was read. */
  function DeleteSubcollection(r: Run, oldId: Id, name: string, failAt: Option<nat>): (r': Run)
    ensures Extends(r, r') && AddsDeleteSteps(r, r', oldId)
    ensures failAt.None? && r.status.Ok? ==> r'.status.Ok?
    ensures OnlySubChanged(r.store, r'.store, oldId, name)
    ensures r'.status.Ok? ==> Sub(r'.store, oldId, name) == []
    ensures r.status.Ok? && !r'.status.Ok? ==> r'.status == Failed(Delete)
  {
    var r1 := Attempt(r, Delete, ReadSub(oldId, name), r.store, failAt);
    if !r1.status.Ok? then r1
    else
      var docs := Sub(r1.store, oldId, name);
      if |docs| == 0 then r1
      else
        var r2 := DeleteBatches(r1, oldId, name, ChunkArray(docs, DefaultChunkSize), failAt);
        RemoveAllIds(docs, IdsOf(docs));
        assert AddsDeleteSteps(r1, r2, oldId);
        DeleteStepsCompose(r, r1, r2, oldId);
        r2
  }

  /** Step 2 of the rename: copy each listed subcollection in turn. */
  function CopyAll(r: Run, oldId: Id, newId: Id, names: seq<string>, failAt: Option<nat>): (r': Run)
    ensures Extends(r, r') && AddsCopySteps(r, r', oldId, newId)
    ensures failAt.None? && r.status.Ok? ==> r'.status.Ok?
    ensures r'.store.groups == r.store.groups && r'.store.stats == r.store.stats
    ensures forall p, n :: p != newId ==> Sub(r'.store, p, n) == Sub(r.store, p, n)
    ensures forall n :: n !in names ==> Sub(r'.store, newId, n) == Sub(r.store, newId, n)
    ensures r.status.Ok? && !r'.status.Ok? ==> r'.status == Failed(Copy)
    decreases |names|
  {
    if |names| == 0 then r
    else
      var r1 := CopySubcollection(r, oldId, newId, names[0], failAt);
      var r2 := CopyAll(r1, oldId, newId, names[1..], failAt);
      CopyStepsCompose(r, r1, r2, oldId, newId);
      r2
  }

  /** Step 3 of the rename: delete each listed subcollection in turn. */
  function DeleteAll(r: Run, oldId: Id, names: seq<string>, failAt: Option<nat>): (r': Run)
    ensures Extends(r, r') && AddsDeleteSteps(r, r', oldId)
    ensures failAt.None? && r.status.Ok? ==> r'.status.Ok?
    ensures r'.store.groups == r.store.groups && r'.store.stats == r.store.stats
    ensures forall p, n :: (p != oldId || n !in names) ==> Sub(r'.store, p, n) == Sub(r.store, p, n)
    ensures r'.status.Ok? ==> forall n :: n in names ==> Sub(r'.store, oldId, n) == []
    ensures r.status.Ok? && !r'.status.Ok? ==> r'.status == Failed(Delete)
    decreases |names|
  {
    if |names| == 0 then r
    else
      var r1 := DeleteSubcollection(r, oldId, names[0], failAt);
      var r2 := DeleteAll(r1, oldId, names[1..], failAt);
      DeleteStepsCompose(r, r1, r2, oldId);
      r2
  }

  /** The subcollections a rename moves: the override when it is a non-empty array,
      else `pengurus` and `kelompok_anggota` for a Gapoktan, else `anggota`. */
  function SubcollectionNames(isGapoktan: bool, subcollectionsOverride: Option<seq<string>>): (names: seq<string>)
    ensures |names| > 0
    ensures subcollectionsOverride.Some? && |subcollectionsOverride.value| > 0 ==> names == subcollectionsOverride.value
    ensures !(subcollectionsOverride.Some? && |subcollectionsOverride.value| > 0) ==>
      names == (if isGapoktan then ["pengurus", "kelompok_anggota"] else ["anggota"])
  {
    if subcollectionsOverride.Some? && |subcollectionsOverride.value| > 0 then subcollectionsOverride.value
    else if isGapoktan then ["pengurus", "kelompok_anggota"]
    else ["anggota"]
  }

  /** `renameKelompokDoc`. `failAt` names the store call that throws, if any. */
  function RenameKelompokDoc(st: Store, oldId: Id, newId: Id, data: Fields, isGapoktan: bool,
                             subcollectionsOverride: Option<seq<string>>, failAt: Option<nat>): (r: Run)
    ensures failAt.None? ==> r.status == Ok
    ensures r.status.Ok? ==> Parent(r.store, oldId).None?
  {
    var names := SubcollectionNames(isGapoktan, subcollectionsOverride);
    var r1 := Attempt(Run(st, [], Ok), WriteNew, WriteParent(newId), SetParent(st, newId, data), failAt);
    var r2 := CopyAll(r1, oldId, newId, names, failAt);
    var r3 := DeleteAll(r2, oldId, names, failAt);
    Attempt(r3, DeleteOld, DeleteParentDoc(oldId), DeleteParent(r3.store, oldId), failAt)
  }
}

=== FILE: rename_props.dfy ===
/** What a rename does to the store, in full and when a store call throws part-way. */
module RenameProps {
  import opened Values
  import opened Docs
  import opened DocStore
  import opened FirestoreRename

  /** The order the calls of a rename take effect in: the new parent first, copies
      written only under `newId`, deletes only under `oldId`, no copy after a delete,
      and the old parent deleted last. */
  ghost predicate InOrder(log: seq<Call>, oldId: Id, newId: Id) {
    && (|log| > 0 ==> log[0] == WriteParent(newId))
    && (forall i :: 0 < i < |log| ==> !log[i].WriteParent?)
    && (forall i :: 0 <= i < |log| && log[i].CopyBatch? ==> log[i].parent == newId)
    && (forall i :: 0 <= i < |log| && log[i].DeleteBatch? ==> log[i].parent == oldId)
    && (forall i, j :: 0 <= i < j < |log| && log[i].DeleteBatch? ==> !log[j].CopyBatch?)
    && (forall i :: 0 <= i < |log| && log[i].DeleteParentDoc? ==> i == |log| - 1 && log[i] == DeleteParentDoc(oldId))
  }

  /** A log cut into four stretches: the new parent's write, copy steps, delete
      steps, and the old parent's delete. */
  ghost predicate Segmented(log: seq<Call>, k1: nat, k2: nat, k3: nat, oldId: Id, newId: Id) {
    && k1 <= 1 && k1 <= k2 <= k3 <= |log| <= k3 + 1
    && (k1 == 0 ==> |log| == 0)
    && (forall i :: 0 <= i < k1 ==> log[i] == WriteParent(newId))
    && (forall i :: k1 <= i < k2 ==>
          (log[i].ReadSub? && log[i].parent == oldId) || (log[i].CopyBatch? && log[i].parent == newId))
    && (forall i :: k2 <= i < k3 ==> (log[i].ReadSub? || log[i].DeleteBatch?) && log[i].parent == oldId)
    && (forall i :: k3 <= i < |log| ==> log[i] == DeleteParentDoc(oldId))
  }

  lemma SegmentedInOrder(log: seq<Call>, k1: nat, k2: nat, k3: nat, oldId: Id, newId: Id)
    requires Segmented(log, k1, k2, k3, oldId, newId)
    ensures InOrder(log, oldId, newId)
  {
  }

  lemma RenameOrdered(st: Store, oldId: Id, newId: Id, data: Fields, isGapoktan: bool,
                      subcollectionsOverride: Option<seq<string>>, failAt: Option<nat>)
    ensures InOrder(RenameKelompokDoc(st, oldId, newId, data, isGapoktan, subcollectionsOverride, failAt).log, oldId, newId)
  {
    var names := SubcollectionNames(isGapoktan, subcollectionsOverride);
    var r1 := Attempt(Run(st, [], Ok), WriteNew, WriteParent(newId), SetParent(st, newId, data), failAt);
    var r2 := CopyAll(r1, oldId, newId, names, failAt);
    var r3 := DeleteAll(r2, oldId, names, failAt);
    var r4 := Attempt(r3, DeleteOld, DeleteParentDoc(oldId), DeleteParent(r3.store, oldId), failAt);
    StagesSegmented(r1, r2, r3, r4, oldId, newId);
    SegmentedInOrder(r4.log, |r1.log|, |r2.log|, |r3.log|, oldId, newId);
  }

  /** The four stages of a rename lay its log out in the four stretches. */
  lemma StagesSegmented(r1: Run, r2: Run, r3: Run, r4: Run, oldId: Id, newId: Id)
    requires (r1.log == [] && !r1.status.Ok?) || r1.log == [WriteParent(newId)]
    requires Extends(r1, r2) && AddsCopySteps(r1, r2, oldId, newId)
    requires Extends(r2, r3) && AddsDeleteSteps(r2, r3, oldId)
    requires Extends(r3, r4) && |r4.log| <= |r3.log| + 1
    requires |r4.log| == |r3.log| + 1 ==> r4.log[|r3.log|] == DeleteParentDoc(oldId)
    ensures Segmented(r4.log, |r1.log|, |r2.log|, |r3.log|, oldId, newId)
  {
    ExtendsCompose(r2, r3, r4);
    ExtendsCompose(r1, r2, r4);
    var log := r4.log;
    forall i | 0 <= i < |r1.log| ensures log[i] == WriteParent(newId) {
      assert log[i] == r2.log[i];
    }
    forall i | |r1.log| <= i < |r2.log|
      ensures (log[i].ReadSub? && log[i].parent == oldId) || (log[i].CopyBatch? && log[i].parent == newId)
    {
      assert log[i] == r2.log[i];
    }
    forall i | |r2.log| <= i < |r3.log| ensures (log[i].ReadSub? || log[i].DeleteBatch?) && log[i].parent == oldId {
      assert log[i] == r3.log[i];
    }
  }

  /** With no call throwing, a rename runs to the end. */
  lemma RenameCompletes(st: Store, oldId: Id, newId: Id, data: Fields, isGapoktan: bool,
                        subcollectionsOverride: Option<seq<string>>)
    ensures RenameKelompokDoc(st, oldId, newId, data, isGapoktan, subcollectionsOverride, None).status == Ok
  {
  }

  /** The copy step, subcollection by subcollection: a listed one ends up as its old
      documents merged onto what `newId` held (copying the same name twice changes
      nothing more), an unlisted one is untouched. */
  lemma {:induction false} CopyAllEffect(r: Run, oldId: Id, newId: Id, names: seq<string>, failAt: Option<nat>, n: string)
    requires oldId != newId && r.status.Ok?
    requires DistinctIds(Sub(r.store, oldId, n))
    requires CopyAll(r, oldId, newId, names, failAt).status.Ok?
    ensures Sub(CopyAll(r, oldId, newId, names, failAt).store, newId, n)
         == if n in names then MergeAll(Sub(r.store, newId, n), Sub(r.store, oldId, n)) else Sub(r.store, newId, n)
    decreases |names|
  {
    if |names| > 0 {
      var r1 := CopySubcollection(r, oldId, newId, names[0], failAt);
      assert Sub(r1.store, oldId, n) == Sub(r.store, oldId, n);
      CopyAllEffect(r1, oldId, newId, names[1..], failAt, n);
      if n == names[0] && n in names[1..] {
        MergeAllIdempotent(Sub(r.store, newId, n), Sub(r.store, oldId, n));
      }
      assert names == [names[0]] + names[1..];
    }
  }

  /** The parents a completed rename leaves: the data merged onto `newId`, no
      `oldId`, every other parent as it was. */
  ghost predicate RenamedParents(st: Store, st': Store, oldId: Id, newId: Id, data: Fields) {
    && Parent(st', newId) == Some(MergeInto(Parent(st, newId), data))
    && Parent(st', oldId) == None
    && (forall id :: id != oldId && id != newId ==> Parent(st', id) == Parent(st, id))
    && st'.stats == st.stats
  }

  /** The subcollections a completed rename leaves: each listed one merged onto
      `newId` and emptied under `oldId`, every other path as it was. */
  ghost predicate RenamedSubs(st: Store, st': Store, oldId: Id, newId: Id, names: seq<string>) {
    && (forall n :: n in names ==> Sub(st', newId, n) == MergeAll(Sub(st, newId, n), Sub(st, oldId, n)))
    && (forall n :: n in names ==> Sub(st', oldId, n) == [])
    && (forall p, n :: (p != oldId && p != newId) || n !in names ==> Sub(st', p, n) == Sub(st, p, n))
  }

  lemma RenameSucceeds(st: Store, oldId: Id, newId: Id, data: Fields, isGapoktan: bool,
                       subcollectionsOverride: Option<seq<string>>, failAt: Option<nat>)
    requires Valid(st) && oldId != newId
    requires RenameKelompokDoc(st, oldId, newId, data, isGapoktan, subcollectionsOverride, failAt).status.Ok?
    ensures var st' := RenameKelompokDoc(st, oldId, newId, data, isGapoktan, subcollectionsOverride, failAt).store;
      && RenamedParents(st, st', oldId, newId, data)
      && RenamedSubs(st, st', oldId, newId, SubcollectionNames(isGapoktan, subcollectionsOverride))
  {
    RenameParents(st, oldId, newId, data, isGapoktan, subcollectionsOverride, failAt);
    RenameSubs(st, oldId, newId, data, isGapoktan, subcollectionsOverride, failAt);
  }

  lemma RenameParents(st: Store, oldId: Id, newId: Id, data: Fields, isGapoktan: bool,
                      subcollectionsOverride: Option<seq<string>>, failAt: Option<nat>)
    requires oldId != newId
    requires RenameKelompokDoc(st, oldId, newId, data, isGapoktan, subcollectionsOverride, failAt).status.Ok?
    ensures RenamedParents(st, RenameKelompokDoc(st, oldId, newId, data, isGapoktan, subcollectionsOverride, failAt).store,
                           oldId, newId, data)
  {
    var names := SubcollectionNames(isGapoktan, subcollectionsOverride);
    var s1 := SetParent(st, newId, data);
    var r1 := Attempt(Run(st, [], Ok), WriteNew, WriteParent(newId), s1, failAt);
    var r2 := CopyAll(r1, oldId, newId, names, failAt);
    var r3 := DeleteAll(r2, oldId, names, failAt);
    var r4 := Attempt(r3, DeleteOld, DeleteParentDoc(oldId), DeleteParent(r3.store, oldId), failAt);
    assert r3.store.groups == s1.groups && r3.store.stats == st.stats;
    forall id ensures Parent(r4.store, id) == if id == oldId then None else Parent(s1, id) {
      FindRemoveIds(r3.store.groups, [oldId], id);
    }
    forall id ensures Parent(s1, id) == if id == newId then Some(MergeInto(Parent(st, newId), data)) else Parent(st, id) {
      FindSetMerge(st.groups, Doc(newId, data), id);
    }
  }

  lemma RenameSubs(st: Store, oldId: Id, newId: Id, data: Fields, isGapoktan: bool,
                   subcollectionsOverride: Option<seq<string>>, failAt: Option<nat>)
    requires Valid(st) && oldId != newId
    requires RenameKelompokDoc(st, oldId, newId, data, isGapoktan, subcollectionsOverride, failAt).status.Ok?
    ensures RenamedSubs(st, RenameKelompokDoc(st, oldId, newId, data, isGapoktan, subcollectionsOverride, failAt).store,
                        oldId, newId, SubcollectionNames(isGapoktan, subcollectionsOverride))
  {
    var names := SubcollectionNames(isGapoktan, subcollectionsOverride);
    var s1 := SetParent(st, newId, data);
    var r1 := Attempt(Run(st, [], Ok), WriteNew, WriteParent(newId), s1, failAt);
    var r3 := DeleteAll(CopyAll(r1, oldId, newId, names, failAt), oldId, names, failAt);
    assert r1.store == s1 && r1.status.Ok?;
    forall n ensures DistinctIds(Sub(s1, oldId, n)) {
      SubValid(st, oldId, n);
    }
    MoveSubs(r1, oldId, newId, names, failAt);
    assert RenameKelompokDoc(st, oldId, newId, data, isGapoktan, subcollectionsOverride, failAt).store
        == DeleteParent(r3.store, oldId);
    SameSubs(st, s1, r3.store, DeleteParent(r3.store, oldId), oldId, newId, names);
  }

  /** The copy and delete steps, from a run that is still going. */
  lemma MoveSubs(r: Run, oldId: Id, newId: Id, names: seq<string>, failAt: Option<nat>)
    requires oldId != newId && r.status.Ok?
    requires forall n :: DistinctIds(Sub(r.store, oldId, n))
    requires DeleteAll(CopyAll(r, oldId, newId, names, failAt), oldId, names, failAt).status.Ok?
    ensures RenamedSubs(r.store, DeleteAll(CopyAll(r, oldId, newId, names, failAt), oldId, names, failAt).store,
                        oldId, newId, names)
  {
    var r2 := CopyAll(r, oldId, newId, names, failAt);
    var r3 := DeleteAll(r2, oldId, names, failAt);
    CopiedSubs(r, oldId, newId, names, failAt);
    forall p, n | (p != oldId && p != newId) || n !in names ensures Sub(r3.store, p, n) == Sub(r.store, p, n) {
      assert Sub(r2.store, p, n) == Sub(r.store, p, n);
    }
  }

  /** `RenamedSubs` looks only at the subcollections of the two stores. */
  lemma SameSubs(st: Store, s1: Store, st': Store, s2: Store, oldId: Id, newId: Id, names: seq<string>)
    requires st.subs == s1.subs && st'.subs == s2.subs
    requires RenamedSubs(s1, st', oldId, newId, names)
    ensures RenamedSubs(st, s2, oldId, newId, names)
  {
    SubsAgree(st, s1);
    SubsAgree(st', s2);
  }

  /** A throw before any delete has run leaves the old group whole: its parent and
      every subcollection under `oldId` are as they were. */
  lemma RenameFailureBeforeDeleteKeepsOld(st: Store, oldId: Id, newId: Id, data: Fields, isGapoktan: bool,
                                          subcollectionsOverride: Option<seq<string>>, failAt: Option<nat>)
    requires oldId != newId
    requires RenameKelompokDoc(st, oldId, newId, data, isGapoktan, subcollectionsOverride, failAt).status
             in {Failed(WriteNew), Failed(Copy)}
    ensures var st' := RenameKelompokDoc(st, oldId, newId, data, isGapoktan, subcollectionsOverride, failAt).store;
      && Parent(st', oldId) == Parent(st, oldId)
      && (forall n :: Sub(st', oldId, n) == Sub(st, oldId, n))
      && (forall id :: id != newId ==> Parent(st', id) == Parent(st, id))
  {
    var names := SubcollectionNames(isGapoktan, subcollectionsOverride);
    var s1 := SetParent(st, newId, data);
    var r1 := Attempt(Run(st, [], Ok), WriteNew, WriteParent(newId), s1, failAt);
    var r2 := CopyAll(r1, oldId, newId, names, failAt);
    CopyStageStatus(r1, st, s1, oldId, newId, names, failAt);
    DeleteStageKeepsNew(r2, oldId, newId, names, failAt);
    assert !r2.status.Ok?;
    SubsAgree(r1.store, st);
    forall id | id != newId ensures Parent(s1, id) == Parent(st, id) {
      FindSetMerge(st.groups, Doc(newId, data), id);
    }
  }

  /** A throw while deleting comes after every copy finished: the new group already
      holds the merged parent and every listed subcollection. */
  lemma RenameFailureWhileDeletingCopied(st: Store, oldId: Id, newId: Id, data: Fields, isGapoktan: bool,
                                         subcollectionsOverride: Option<seq<string>>, failAt: Option<nat>)
    requires Valid(st) && oldId != newId
    requires RenameKelompokDoc(st, oldId, newId, data, isGapoktan, subcollectionsOverride, failAt).status
             in {Failed(Delete), Failed(DeleteOld)}
    ensures var st' := RenameKelompokDoc(st, oldId, newId, data, isGapoktan, subcollectionsOverride, failAt).store;
      && Parent(st', newId) == Some(MergeInto(Parent(st, newId), data))
      && Parent(st', oldId) == Parent(st, oldId)
      && (forall n :: n in SubcollectionNames(isGapoktan, subcollectionsOverride) ==>
            Sub(st', newId, n) == MergeAll(Sub(st, newId, n), Sub(st, oldId, n)))
  {
    LateFailureParents(st, oldId, newId, data, isGapoktan, subcollectionsOverride, failAt);
    LateFailureSubs(st, oldId, newId, data, isGapoktan, subcollectionsOverride, failAt);
  }

  lemma LateFailureParents(st: Store, oldId: Id, newId: Id, data: Fields, isGapoktan: bool,
                           subcollectionsOverride: Option<seq<string>>, failAt: Option<nat>)
    requires oldId != newId
    requires RenameKelompokDoc(st, oldId, newId, data, isGapoktan, subcollectionsOverride, failAt).status
             in {Failed(Delete), Failed(DeleteOld)}
    ensures var st' := RenameKelompokDoc(st, oldId, newId, data, isGapoktan, subcollectionsOverride, failAt).store;
      && Parent(st', newId) == Some(MergeInto(Parent(st, newId), data))
      && Parent(st', oldId) == Parent(st, oldId)
  {
    var names := SubcollectionNames(isGapoktan, subcollectionsOverride);
    var s1 := SetParent(st, newId, data);
    var r1 := Attempt(Run(st, [], Ok), WriteNew, WriteParent(newId), s1, failAt);
    var r2 := CopyAll(r1, oldId, newId, names, failAt);
    CopyStageStatus(r1, st, s1, oldId, newId, names, failAt);
    DeleteStageKeepsNew(r2, oldId, newId, names, failAt);
    assert r2.status.Ok? && r2.store.groups == s1.groups;
    FindSetMerge(st.groups, Doc(newId, data), newId);
    FindSetMerge(st.groups, Doc(newId, data), oldId);
  }

  lemma LateFailureSubs(st: Store, oldId: Id, newId: Id, data: Fields, isGapoktan: bool,
                        subcollectionsOverride: Option<seq<string>>, failAt: Option<nat>)
    requires Valid(st) && oldId != newId
    requires RenameKelompokDoc(st, oldId, newId, data, isGapoktan, subcollectionsOverride, failAt).status
             in {Failed(Delete), Failed(DeleteOld)}
    ensures var st' := RenameKelompokDoc(st, oldId, newId, data, isGapoktan, subcollectionsOverride, failAt).store;
      forall n :: n in SubcollectionNames(isGapoktan, subcollectionsOverride) ==>
        Sub(st', newId, n) == MergeAll(Sub(st, newId, n), Sub(st, oldId, n))
  {
    var names := SubcollectionNames(isGapoktan, subcollectionsOverride);
    var s1 := SetParent(st, newId, data);
    var r1 := Attempt(Run(st, [], Ok), WriteNew, WriteParent(newId), s1, failAt);
    var r2 := CopyAll(r1, oldId, newId, names, failAt);
    CopyStageStatus(r1, st, s1, oldId, newId, names, failAt);
    DeleteStageKeepsNew(r2, oldId, newId, names, failAt);
    assert r2.status.Ok? && r1.store == s1;
    SubsAgree(st, s1);
    forall n ensures DistinctIds(Sub(s1, oldId, n)) {
      SubValid(st, oldId, n);
    }
    CopiedSubs(r1, oldId, newId, names, failAt);
  }

  /** Two stores with the same subcollection map agree on every path. */
  lemma SubsAgree(a: Store, b: Store)
    requires a.subs == b.subs
    ensures forall p, n :: Sub(a, p, n) == Sub(b, p, n)
  {
  }

  /** A completed copy step leaves each listed subcollection under `newId` as the
      old documents merged onto what was there. */
  lemma CopiedSubs(r: Run, oldId: Id, newId: Id, names: seq<string>, failAt: Option<nat>)
    requires oldId != newId && r.status.Ok?
    requires forall n :: DistinctIds(Sub(r.store, oldId, n))
    requires CopyAll(r, oldId, newId, names, failAt).status.Ok?
    ensures forall n :: n in names ==>
              Sub(CopyAll(r, oldId, newId, names, failAt).store, newId, n) == MergeAll(Sub(r.store, newId, n), Sub(r.store, oldId, n))
  {
    forall n | n in names
      ensures Sub(CopyAll(r, oldId, newId, names, failAt).store, newId, n) == MergeAll(Sub(r.store, newId, n), Sub(r.store, oldId, n))
    {
      CopyAllEffect(r, oldId, newId, names, failAt, n);
    }
  }

  /** After the parent write and the copy step, a run has either stopped in one of
      those two phases or is still going. */
  lemma CopyStageStatus(r1: Run, st: Store, s1: Store, oldId: Id, newId: Id, names: seq<string>, failAt: Option<nat>)
    requires r1 == Attempt(Run(st, [], Ok), WriteNew, WriteParent(newId), s1, failAt)
    ensures r1.status.Ok? ==> r1.store == s1
    ensures var r2 := CopyAll(r1, oldId, newId, names, failAt);
            r2.status in {Ok, Failed(WriteNew), Failed(Copy)}
  {
  }

  /** The delete step and the old parent's delete touch neither the group documents
      nor anything under `newId`; a run already stopped stays as it is. */
  lemma DeleteStageKeepsNew(r2: Run, oldId: Id, newId: Id, names: seq<string>, failAt: Option<nat>)
    requires oldId != newId
    ensures var r3 := DeleteAll(r2, oldId, names, failAt);
            var r4 := Attempt(r3, DeleteOld, DeleteParentDoc(oldId), DeleteParent(r3.store, oldId), failAt);
            && (!r2.status.Ok? ==> r4 == r2)
            && (r2.status.Ok? ==> r4.status in {Ok, Failed(Delete), Failed(DeleteOld)})
            && (r4.status in {Failed(Delete), Failed(DeleteOld)} ==> r4.store.groups == r2.store.groups)
            && (forall n :: Sub(r4.store, newId, n) == Sub(r2.store, newId, n))
  {
    var r3 := DeleteAll(r2, oldId, names, failAt);
    var r4 := Attempt(r3, DeleteOld, DeleteParentDoc(oldId), DeleteParent(r3.store, oldId), failAt);
    assert r4.store.subs == r3.store.subs;
    SubsAgree(r4.store, r3.store);
  }

  /** Renaming to an id nobody uses moves the group: the new parent holds exactly
      the given fields and each listed subcollection holds exactly the old documents. */
  lemma RenameToFreshIdMoves(st: Store, oldId: Id, newId: Id, data: Fields, isGapoktan: bool,
                             subcollectionsOverride: Option<seq<string>>)
    requires Valid(st) && oldId != newId
    requires Parent(st, newId).None?
    requires forall n :: Sub(st, newId, n) == []
    ensures var st' := RenameKelompokDoc(st, oldId, newId, data, isGapoktan, subcollectionsOverride, None).store;
      && Parent(st', newId) == Some(data)
      && Parent(st', oldId) == None
      && (forall n :: n in SubcollectionNames(isGapoktan, subcollectionsOverride) ==>
            Sub(st', newId, n) == Sub(st, oldId, n) && Sub(st', oldId, n) == [])
  {
    RenameSucceeds(st, oldId, newId, data, isGapoktan, subcollectionsOverride, None);
    forall n ensures MergeAll([], Sub(st, oldId, n)) == Sub(st, oldId, n) {
      SubValid(st, oldId, n);
      MergeAllFresh([], Sub(st, oldId, n));
    }
  }

  /** A completed rename from an id to itself deletes the group: after the copies
      land on the group's own documents, the delete steps remove them and the
      parent. */
  lemma RenameToSameIdLosesGroup(st: Store, id: Id, data: Fields, isGapoktan: bool,
                                 subcollectionsOverride: Option<seq<string>>)
    ensures var st' := RenameKelompokDoc(st, id, id, data, isGapoktan, subcollectionsOverride, None).store;
      && Parent(st', id) == None
      && (forall n :: n in SubcollectionNames(isGapoktan, subcollectionsOverride) ==> Sub(st', id, n) == [])
  {
    var names := SubcollectionNames(isGapoktan, subcollectionsOverride);
    var r1 := Attempt(Run(st, [], Ok), WriteNew, WriteParent(id), SetParent(st, id, data), None);
    var r2 := CopyAll(r1, id, id, names, None);
    var r3 := DeleteAll(r2, id, names, None);
    FindRemoveIds(r3.store.groups, [id], id);
  }

  /** The group `g` with one `anggota` member, renamed onto itself. */
  lemma RenameToSameIdExample()
    ensures var st := Store([Doc("g", map["nama_kelompok" := Str("Tani Maju")])],
                            map[SubKey("g", "anggota") := [Doc("m", map["nama" := Str("Budi")])]], None);
            var st' := RenameKelompokDoc(st, "g", "g", map["nama_kelompok" := Str("Tani Maju")], false, None, None).store;
      Parent(st, "g").Some? && |Sub(st, "g", "anggota")| == 1 && Parent(st', "g") == None && Sub(st', "g", "anggota") == []
  {
    var st := Store([Doc("g", map["nama_kelompok" := Str("Tani Maju")])],
                    map[SubKey("g", "anggota") := [Doc("m", map["nama" := Str("Budi")])]], None);
    RenameToSameIdLosesGroup(st, "g", map["nama_kelompok" := Str("Tani Maju")], false, None);
  }

  datatype RenameError = SameId

  /** The rename with the guard it needs: renaming a group onto its own id is
      refused before any store call. */
  function RenameGuarded(st: Store, oldId: Id, newId: Id, data: Fields, isGapoktan: bool,
                         subcollectionsOverride: Option<seq<string>>, failAt: Option<nat>): (r: Result<Run, RenameError>)
    ensures r.Failure? <==> oldId == newId
    ensures r.Success? ==> r.value == RenameKelompokDoc(st, oldId, newId, data, isGapoktan, subcollectionsOverride, failAt)
  {
    if oldId == newId then Failure(SameId)
    else Success(RenameKelompokDoc(st, oldId, newId, data, isGapoktan, subcollectionsOverride, failAt))
  }

  /** The guarded rename never loses a document: once it completes, every document
      of every moved subcollection is under the new id, and so is the parent. */
  lemma RenameGuardedKeepsDocuments(st: Store, oldId: Id, newId: Id, data: Fields, isGapoktan: bool,
                                    subcollectionsOverride: Option<seq<string>>, n: string, d: Doc)
    requires Valid(st)
    requires oldId != newId
    requires n in SubcollectionNames(isGapoktan, subcollectionsOverride) && d in Sub(st, oldId, n)
    ensures var st' := RenameGuarded(st, oldId, newId, data, isGapoktan, subcollectionsOverride, None).value.store;
      Find(Sub(st', newId, n), d.id).Some? && Parent(st', newId).Some?
  {
    RenameSucceeds(st, oldId, newId, data, isGapoktan, subcollectionsOverride, None);
    SubValid(st, oldId, n);
    var i :| 0 <= i < |Sub(st, oldId, n)| && Sub(st, oldId, n)[i] == d;
    FindOwn(Sub(st, oldId, n), i);
    FindMergeAll(Sub(st, newId, n), Sub(st, oldId, n), d.id);
  }
}

=== FILE: rename_stats.dfy ===
/** How a rename and the statistics cache relate: renaming a group to a fresh id
    leaves the recomputed totals as they were. */
module RenameStatistik {
  import opened Values
  import opened Docs
  import opened DocStore
  import opened FirestoreRename
  import opened RenameProps
  import opened Statistik

  /** A completed rename onto a fresh id, keeping the group's category, does not
      change what `recomputeStats` computes: the group count, the members and the land
      are the same under the new id. */
  lemma RenamePreservesTotals(st: Store, oldId: Id, newId: Id, data: Fields, isGapoktan: bool,
                              subcollectionsOverride: Option<seq<string>>)
    requires Valid(st) && oldId != newId
    requires Parent(st, oldId).Some? && Parent(st, newId).None?
    requires forall n :: Sub(st, newId, n) == []
    requires KategoriOf(data) == KategoriOf(Parent(st, oldId).value)
    requires "anggota" in SubcollectionNames(isGapoktan, subcollectionsOverride) || KategoriOf(data) == "Gapoktan"
    ensures ComputeTotals(RenameKelompokDoc(st, oldId, newId, data, isGapoktan, subcollectionsOverride, None).store)
         == ComputeTotals(st)
  {
    var st2 := RenameKelompokDoc(st, oldId, newId, data, isGapoktan, subcollectionsOverride, None).store;
    RenameCompletes(st, oldId, newId, data, isGapoktan, subcollectionsOverride);
    RenameSucceeds(st, oldId, newId, data, isGapoktan, subcollectionsOverride, None);
    RenameToFreshIdMoves(st, oldId, newId, data, isGapoktan, subcollectionsOverride);
    RenameGroups(st, oldId, newId, data, isGapoktan, subcollectionsOverride);
    var k := ParentIndex(st, oldId);
    TotalsAfterMove(st, st2, oldId, newId, data, k);
  }

  /** Where an existing group document sits in the collection. */
  lemma ParentIndex(st: Store, id: Id) returns (k: nat)
    requires Parent(st, id).Some?
    ensures k < |st.groups| && st.groups[k] == Doc(id, Parent(st, id).value)
  {
    k :| 0 <= k < |st.groups| && st.groups[k] == Doc(id, Parent(st, id).value);
  }

  /** The group collection a completed rename leaves. */
  lemma RenameGroups(st: Store, oldId: Id, newId: Id, data: Fields, isGapoktan: bool,
                     subcollectionsOverride: Option<seq<string>>)
    ensures RenameKelompokDoc(st, oldId, newId, data, isGapoktan, subcollectionsOverride, None).store.groups
         == RemoveIds(SetMerge(st.groups, Doc(newId, data)), [oldId])
  {
    var names := SubcollectionNames(isGapoktan, subcollectionsOverride);
    var r1 := Attempt(Run(st, [], Ok), WriteNew, WriteParent(newId), SetParent(st, newId, data), None);
    var r2 := CopyAll(r1, oldId, newId, names, None);
    var r3 := DeleteAll(r2, oldId, names, None);
    assert r3.store.groups == SetMerge(st.groups, Doc(newId, data));
  }
}

=== FILE: statistik.dfy ===
/** The global statistics cache `stats/global`: the number of groups, and the
    members and land of every group that is not a Gapoktan (a Gapoktan's members
    already belong to its linked groups). */
module Statistik {
  import opened Values
  import opened Docs
  import opened DocStore

  /** Members counted and land summed over some groups. */
  datatype Tally = Tally(anggota: nat, lahan: real)

  function Plus(a: Tally, b: Tally): Tally {
    Tally(a.anggota + b.anggota, a.lahan + b.lahan)
  }

  /** The land of a member list: `parseFloat(luas || 0)`, a value that does not
      parse counting nothing. */
  function MemberLand(members: Collection): real
    decreases |members|
  {
    if |members| == 0 then 0.0
    else ToNumber(Get(members[0].data, "luas")) + MemberLand(members[1..])
  }

  /** Member land is additive over a split of the member list, and a member whose
      `luas` does not read as a number adds nothing. */
  lemma {:induction false} MemberLandConcat(a: Collection, b: Collection)
    ensures MemberLand(a + b) == MemberLand(a) + MemberLand(b)
    decreases |a|
  {
    if |a| == 0 {
      assert a + b == b;
    } else {
      assert (a + b)[1..] == a[1..] + b;
      MemberLandConcat(a[1..], b);
    }
  }

  /** Land that reads as non-negative for every member sums to a non-negative total. */
  lemma {:induction false} MemberLandNonNegative(members: Collection)
    requires forall i :: 0 <= i < |members| ==> ToNumber(Get(members[i].data, "luas")) >= 0.0
    ensures MemberLand(members) >= 0.0
    decreases |members|
  {
    if |members| > 0 {
      assert forall i :: 0 <= i < |members[1..]| ==> members[1..][i] == members[i + 1];
      MemberLandNonNegative(members[1..]);
    }
  }

  /** What one group adds to the tally: nothing for a Gapoktan, else the size and
      land of its `anggota` subcollection. */
  function Contribution(st: Store, g: Doc): (t: Tally)
    ensures KategoriOf(g.data) == "Gapoktan" ==> t == Tally(0, 0.0)
    ensures KategoriOf(g.data) != "Gapoktan" ==> t.anggota == |Sub(st, g.id, "anggota")|
    ensures KategoriOf(g.data) != "Gapoktan" ==> t.lahan == MemberLand(Sub(st, g.id, "anggota"))
  {
    if KategoriOf(g.data) == "Gapoktan" then Tally(0, 0.0)
    else Tally(|Sub(st, g.id, "anggota")|, MemberLand(Sub(st, g.id, "anggota")))
  }

  function Sum(ts: seq<Tally>): Tally
    decreases |ts|
  {
    if |ts| == 0 then Tally(0, 0.0) else Plus(ts[0], Sum(ts[1..]))
  }

  /** The tally `recomputeStats` keeps over the groups it scans. */
  function TallyGroups(st: Store, gs: Collection): Tally {
    Sum(seq(|gs|, i requires 0 <= i < |gs| => Contribution(st, gs[i])))
  }

  /** The member total is zero exactly when every scanned group is a Gapoktan or
      has no members. */
  lemma TallyNoMembers(st: Store, gs: Collection)
    ensures TallyGroups(st, gs).anggota == 0 <==>
              forall i :: 0 <= i < |gs| ==> KategoriOf(gs[i].data) == "Gapoktan" || |Sub(st, gs[i].id, "anggota")| == 0
  {
    ContributionsNoMembers(st, gs, seq(|gs|, i requires 0 <= i < |gs| => Contribution(st, gs[i])));
  }

  lemma ContributionsNoMembers(st: Store, gs: Collection, cs: seq<Tally>)
    requires |cs| == |gs| && forall i :: 0 <= i < |gs| ==> cs[i] == Contribution(st, gs[i])
    ensures Sum(cs).anggota == 0 <==>
              forall i :: 0 <= i < |gs| ==> KategoriOf(gs[i].data) == "Gapoktan" || |Sub(st, gs[i].id, "anggota")| == 0
  {
    SumNoMembers(cs);
  }

  /** A sum of tallies counts no member exactly when none of them does. */
  lemma {:induction false} SumNoMembers(ts: seq<Tally>)
    ensures Sum(ts).anggota == 0 <==> forall i :: 0 <= i < |ts| ==> ts[i].anggota == 0
    decreases |ts|
  {
    if |ts| > 0 {
      SumNoMembers(ts[1..]);
      assert forall i :: 1 <= i < |ts| ==> ts[i] == ts[1..][i - 1];
    }
  }

  /** The snapshot `recomputeStats` computes. */
  datatype Totals = Totals(jumlahKelompok: nat, totalAnggota: nat, totalLahan: real)

  function ComputeTotals(st: Store): (t: Totals)
    ensures t.jumlahKelompok == |st.groups|
  {
    var tally := TallyGroups(st, st.groups);
    Totals(|st.groups|, tally.anggota, tally.lahan)
  }

  /** The record written to `stats/global`; `stamp` is the server timestamp. */
  function StatsRecord(t: Totals, stamp: Value): (d: Fields)
    ensures d.Keys == {"jumlahKelompok", "totalAnggota", "totalLahan", "lastUpdated"}
    ensures d["lastUpdated"] == stamp
    ensures ReadTotals(d) == Shown(t)
  {
    map["jumlahKelompok" := Num(t.jumlahKelompok as real), "totalAnggota" := Num(t.totalAnggota as real),
        "totalLahan" := Num(t.totalLahan), "lastUpdated" := stamp]
  }

  /** Why a statistics call threw: a read of `stats/global` failed, or the scan
      (one of its `getDocs`) or its final `setDoc` failed. */
  datatype StatsError = ReadFailed | ScanFailed

  /** `recomputeStats`: the record is replaced wholesale, never merged. Every read
      comes before the single write, so when `fails` (a read or the write throws)
      no snapshot, partial or whole, is written. */
  function RecomputeStats(st: Store, stamp: Value, fails: bool): (r: (Store, Option<StatsError>))
    ensures r.1.Some? <==> fails
    ensures r.1.Some? ==> r == (st, Some(ScanFailed))
    ensures r.0.groups == st.groups && r.0.subs == st.subs
    ensures r.1.None? ==> && r.0.stats.Some?
                          && r.0.stats.value.Keys == {"jumlahKelompok", "totalAnggota", "totalLahan", "lastUpdated"}
                          && r.0.stats.value["lastUpdated"] == stamp
                          && ReadTotals(r.0.stats.value) == Shown(ComputeTotals(st))
  {
    if fails then (st, Some(ScanFailed))
    else
      var t := ComputeTotals(st);
      (st.(stats := Some(StatsRecord(t, stamp))), None)
  }

  /** The three numbers a reader gets back. */
  datatype ShownTotals = ShownTotals(jumlahKelompok: Value, totalAnggota: Value, totalLahan: Value)

  function Shown(t: Totals): ShownTotals {
    ShownTotals(Num(t.jumlahKelompok as real), Num(t.totalAnggota as real), Num(t.totalLahan))
  }

  /** Reading a stored record: each field `|| 0`. */
  function ReadTotals(d: Fields): (r: ShownTotals)
    ensures r.jumlahKelompok == OrZero(Get(d, "jumlahKelompok"))
    ensures r.totalAnggota == OrZero(Get(d, "totalAnggota"))
    ensures r.totalLahan == OrZero(Get(d, "totalLahan"))
  {
    ShownTotals(OrZero(Get(d, "jumlahKelompok")), OrZero(Get(d, "totalAnggota")), OrZero(Get(d, "totalLahan")))
  }

  /** The awaited call of `getStatsOrInit` that throws, if any: the first read, the
      recompute, or the read-back after it. */
  datatype StatsStep = FirstRead | Recompute | Reread

  /** `getStatsOrInit`. A present record is returned as it is, however stale. An
      absent one is computed, written and read back; `lostBeforeReread` stands for
      another client deleting it between the write and the read-back, which is the
      only way the source's final fallback is reached. A throw is passed on to the
      caller; only a failed read-back leaves a new record behind. */
  function GetStatsOrInit(st: Store, stamp: Value, failAt: Option<StatsStep>, lostBeforeReread: bool)
    : (r: (Store, Result<ShownTotals, StatsError>))
    ensures failAt == Some(FirstRead) ==> r == (st, Failure(ReadFailed))
    ensures st.stats.Some? && failAt != Some(FirstRead) ==> r == (st, Success(ReadTotals(st.stats.value)))
    ensures st.stats.None? && failAt == Some(Recompute) ==> r == (st, Failure(ScanFailed))
    ensures st.stats.None? && failAt == Some(Reread) ==>
      && r.1 == Failure(ReadFailed)
      && (!lostBeforeReread ==> r.0.stats.Some? && ReadTotals(r.0.stats.value) == Shown(ComputeTotals(st)))
    ensures st.stats.None? && failAt.None? && !lostBeforeReread ==>
      r.0.stats.Some? && r.1 == Success(ReadTotals(r.0.stats.value)) && r.1 == Success(Shown(ComputeTotals(st)))
    ensures st.stats.None? && failAt.None? && lostBeforeReread ==> r.1 == Success(Shown(Totals(0, 0, 0.0)))
    ensures r.1.Failure? && r.0 != st ==> failAt == Some(Reread)
    ensures r.0.groups == st.groups && r.0.subs == st.subs
  {
    if failAt == Some(FirstRead) then (st, Failure(ReadFailed))
    else if st.stats.Some? then (st, Success(ReadTotals(st.stats.value)))
    else
      var (st1, err) := RecomputeStats(st, stamp, failAt == Some(Recompute));
      if err.Some? then (st, Failure(err.value))
      else
        var st2 := if lostBeforeReread then st1.(stats := None) else st1;
        if failAt == Some(Reread) then (st2, Failure(ReadFailed))
        else if st2.stats.Some? then (st2, Success(ReadTotals(st2.stats.value)))
        else (st2, Success(Shown(Totals(0, 0, 0.0))))
  }

  /** `fetchStatistikKelompok`: the same three numbers, or the same error. */
  function FetchStatistikKelompok(st: Store, stamp: Value, failAt: Option<StatsStep>, lostBeforeReread: bool)
    : (r: Result<ShownTotals, StatsError>)
    ensures failAt == Some(FirstRead) ==> r == Failure(ReadFailed)
    ensures st.stats.Some? && failAt != Some(FirstRead) ==> r == Success(ReadTotals(st.stats.value))
    ensures st.stats.None? && failAt == Some(Recompute) ==> r == Failure(ScanFailed)
    ensures st.stats.None? && failAt == Some(Reread) ==> r == Failure(ReadFailed)
    ensures st.stats.None? && failAt.None? && !lostBeforeReread ==> r == Success(Shown(ComputeTotals(st)))
  {
    GetStatsOrInit(st, stamp, failAt, lostBeforeReread).1
  }

  /** The snapshot depends on the groups and subcollections only, so recomputing
      twice writes the same numbers; only the timestamp moves. */
  lemma RecomputeTwice(st: Store, s1: Value, s2: Value)
    ensures RecomputeStats(RecomputeStats(st, s1, false).0, s2, false).0.stats
         == Some(StatsRecord(ComputeTotals(st), s2))
  {
    var st1 := RecomputeStats(st, s1, false).0;
    assert forall g :: Contribution(st1, g) == Contribution(st, g);
    TallyFrame(st, st1, st.groups);
  }

  /** After initialising, a direct read of the record gives what was returned. */
  lemma InitThenRead(st: Store, stamp: Value)
    requires st.stats.None?
    ensures var (st', shown) := GetStatsOrInit(st, stamp, None, false);
      st'.stats.Some? && GetStatsOrInit(st', stamp, None, false) == (st', shown)
  {
  }

  /** A failed recompute leaves the statistics as they were: a later call still
      finds no record and computes it afresh. */
  lemma FailedRecomputeRetries(st: Store, stamp: Value)
    requires st.stats.None?
    ensures var (st', r) := GetStatsOrInit(st, stamp, Some(Recompute), false);
      && r.Failure? && st' == st
      && GetStatsOrInit(st', stamp, None, false).1 == Success(Shown(ComputeTotals(st)))
  {
  }

  lemma {:induction false} SumConcat(a: seq<Tally>, b: seq<Tally>)
    ensures Sum(a + b) == Plus(Sum(a), Sum(b))
    decreases |a|
  {
    if |a| == 0 {
      assert a + b == b;
    } else {
      assert (a + b)[0] == a[0] && (a + b)[1..] == a[1..] + b;
      SumConcat(a[1..], b);
    }
  }

  /** The tally of a concatenation is the sum of the tallies. */
  lemma TallyConcat(st: Store, a: Collection, b: Collection)
    ensures TallyGroups(st, a + b) == Plus(TallyGroups(st, a), TallyGroups(st, b))
  {
    var ca := seq(|a|, i requires 0 <= i < |a| => Contribution(st, a[i]));
    var cb := seq(|b|, i requires 0 <= i < |b| => Contribution(st, b[i]));
    assert seq(|a + b|, i requires 0 <= i < |a + b| => Contribution(st, (a + b)[i])) == ca + cb;
    SumConcat(ca, cb);
  }

  /** The first group's contribution, then the rest. */
  lemma TallyCons(st: Store, gs: Collection)
    requires |gs| > 0
    ensures TallyGroups(st, gs) == Plus(Contribution(st, gs[0]), TallyGroups(st, gs[1..]))
  {
    var cs := seq(|gs|, i requires 0 <= i < |gs| => Contribution(st, gs[i]));
    assert seq(|gs[1..]|, i requires 0 <= i < |gs[1..]| => Contribution(st, gs[1..][i])) == cs[1..];
  }

  lemma TallyOne(st: Store, g: Doc)
    ensures TallyGroups(st, [g]) == Contribution(st, g)
  {
    TallyCons(st, [g]);
  }

  /** Groups whose `anggota` subcollections agree tally the same in two stores. */
  lemma TallyFrame(st1: Store, st2: Store, gs: Collection)
    requires forall i :: 0 <= i < |gs| ==> Sub(st1, gs[i].id, "anggota") == Sub(st2, gs[i].id, "anggota")
    ensures TallyGroups(st1, gs) == TallyGroups(st2, gs)
  {
    assert seq(|gs|, i requires 0 <= i < |gs| => Contribution(st1, gs[i]))
        == seq(|gs|, i requires 0 <= i < |gs| => Contribution(st2, gs[i]));
  }

  /** Taking one group out of a list with unique ids removes exactly its
      contribution and one from the count. */
  lemma {:induction false} TallyRemove(st: Store, gs: Collection, id: Id)
    requires DistinctIds(gs) && Find(gs, id).Some?
    ensures TallyGroups(st, gs) == Plus(Contribution(st, Doc(id, Find(gs, id).value)), TallyGroups(st, RemoveIds(gs, [id])))
    ensures |RemoveIds(gs, [id])| + 1 == |gs|
    decreases |gs|
  {
    if gs[0].id == id {
      TallyRemoveHead(st, gs, id);
    } else {
      var rest := RemoveIds(gs[1..], [id]);
      RemoveLater(gs, id);
      TallyRemove(st, gs[1..], id);
      TallyCons(st, gs);
      TallyCons(st, [gs[0]] + rest);
      assert ([gs[0]] + rest)[1..] == rest;
    }
  }

  /** The removed group comes first: the rest of the list is left. */
  lemma TallyRemoveHead(st: Store, gs: Collection, id: Id)
    requires DistinctIds(gs) && |gs| > 0 && gs[0].id == id
    ensures Find(gs, id) == Some(gs[0].data) && RemoveIds(gs, [id]) == gs[1..]
    ensures TallyGroups(st, gs) == Plus(Contribution(st, Doc(id, gs[0].data)), TallyGroups(st, gs[1..]))
  {
    TallyCons(st, gs);
    assert id !in IdsOf(gs[1..]);
    RemoveIdsAbsent(gs[1..], [id]);
  }

  /** The removed group comes later: the first group stays in front. */
  lemma RemoveLater(gs: Collection, id: Id)
    requires |gs| > 0 && gs[0].id != id
    ensures RemoveIds(gs, [id]) == [gs[0]] + RemoveIds(gs[1..], [id])
    ensures Find(gs, id) == Find(gs[1..], id)
  {
  }

  /** Adding a Gapoktan raises the group count and nothing else: its members are
      never counted a second time. */
  lemma AddGapoktanCountsGroupOnly(st: Store, g: Doc)
    requires IsGapoktan(g.data)
    ensures var st' := st.(groups := st.groups + [g]);
      ComputeTotals(st') == ComputeTotals(st).(jumlahKelompok := |st.groups| + 1)
  {
    var st' := st.(groups := st.groups + [g]);
    TallyConcat(st', st.groups, [g]);
    TallyOne(st', g);
    TallyFrame(st, st', st.groups);
    KategoriGapoktanIff(g.data);
  }

  /** Adding any other group adds its members and their land. */
  lemma AddGroupCountsMembers(st: Store, g: Doc)
    requires !IsGapoktan(g.data)
    ensures var st' := st.(groups := st.groups + [g]);
      && ComputeTotals(st').totalAnggota == ComputeTotals(st).totalAnggota + |Sub(st, g.id, "anggota")|
      && ComputeTotals(st').totalLahan == ComputeTotals(st).totalLahan + MemberLand(Sub(st, g.id, "anggota"))
  {
    var st' := st.(groups := st.groups + [g]);
    TallyConcat(st', st.groups, [g]);
    TallyOne(st', g);
    TallyFrame(st, st', st.groups);
    KategoriGapoktanIff(g.data);
  }

  /** Moving a group to a fresh id, its category and members kept, leaves the
      totals as they were. */
  lemma TotalsAfterMove(st: Store, st2: Store, oldId: Id, newId: Id, data: Fields, k: nat)
    requires DistinctIds(st.groups) && k < |st.groups| && st.groups[k].id == oldId
    requires newId !in IdsOf(st.groups)
    requires st2.groups == RemoveIds(SetMerge(st.groups, Doc(newId, data)), [oldId])
    requires forall p :: p != oldId && p != newId ==> Sub(st2, p, "anggota") == Sub(st, p, "anggota")
    requires KategoriOf(data) == KategoriOf(st.groups[k].data)
    requires KategoriOf(data) != "Gapoktan" ==> Sub(st2, newId, "anggota") == Sub(st, oldId, "anggota")
    ensures ComputeTotals(st2) == ComputeTotals(st)
  {
    var g := Doc(newId, data);
    FindOwn(st.groups, k);
    var f := st.groups[k].data;
    assert IdsOf(st.groups)[k] == oldId;
    var rest := RemoveIds(st.groups, [oldId]);
    SetMergeAppends(st.groups, g);
    RemoveIdsAppend(st.groups, g, [oldId]);
    OthersUnmoved(st, st2, oldId, newId, rest);
    TallyRemove(st, st.groups, oldId);
    assert Contribution(st2, g) == Contribution(st, Doc(oldId, f));
    TallyReplaced(st, st2, rest, Doc(oldId, f), g);
  }

  /** Replacing one group by another that contributes the same, the rest tallying
      the same, keeps the tally and the count. */
  lemma TallyReplaced(st: Store, st2: Store, rest: Collection, d: Doc, g: Doc)
    requires TallyGroups(st, st.groups) == Plus(Contribution(st, d), TallyGroups(st, rest))
    requires |rest| + 1 == |st.groups|
    requires st2.groups == rest + [g]
    requires Contribution(st2, g) == Contribution(st, d)
    requires forall i :: 0 <= i < |rest| ==> Sub(st2, rest[i].id, "anggota") == Sub(st, rest[i].id, "anggota")
    ensures ComputeTotals(st2) == ComputeTotals(st)
  {
    TallyConcat(st2, rest, [g]);
    TallyOne(st2, g);
    TallyFrame(st, st2, rest);
  }

  /** The groups left after removing `oldId` sit at paths the move did not touch. */
  lemma OthersUnmoved(st: Store, st2: Store, oldId: Id, newId: Id, rest: Collection)
    requires Find(st.groups, newId).None?
    requires rest == RemoveIds(st.groups, [oldId])
    requires forall p :: p != oldId && p != newId ==> Sub(st2, p, "anggota") == Sub(st, p, "anggota")
    ensures forall i :: 0 <= i < |rest| ==> Sub(st2, rest[i].id, "anggota") == Sub(st, rest[i].id, "anggota")
  {
    forall i | 0 <= i < |rest| ensures Sub(st2, rest[i].id, "anggota") == Sub(st, rest[i].id, "anggota") {
      assert rest[i] in rest;
      assert rest[i] in st.groups && rest[i].id != oldId;
      var j :| 0 <= j < |st.groups| && st.groups[j] == rest[i];
      assert IdsOf(st.groups)[j] == rest[i].id;
    }
  }

  /** A Kelompok Tani `g1` with members of 2.5 and 1.5 land and a Gapoktan `g2` that
      links it: two groups, two members, 4.0 land. */
  lemma ScenarioTotals()
    ensures var st := Store(
        [Doc("g1", map["kategori" := Str("Kelompok Tani")]), Doc("g2", map["kategori" := Str("Gapoktan")])],
        map[SubKey("g1", "anggota") := [Doc("m1", map["luas" := Num(2.5)]), Doc("m2", map["luas" := Num(1.5)])],
            SubKey("g2", "kelompok_anggota") := [Doc("g1", map["kelompokId" := Str("g1")])]],
        None);
      ComputeTotals(st) == Totals(2, 2, 4.0)
  {
    var members := [Doc("m1", map["luas" := Num(2.5)]), Doc("m2", map["luas" := Num(1.5)])];
    var g1 := Doc("g1", map["kategori" := Str("Kelompok Tani")]);
    var g2 := Doc("g2", map["kategori" := Str("Gapoktan")]);
    var st := Store([g1, g2],
        map[SubKey("g1", "anggota") := members, SubKey("g2", "kelompok_anggota") := [Doc("g1", map["kelompokId" := Str("g1")])]],
        None);
    assert MemberLand(members[1..][1..]) == 0.0;
    assert MemberLand(members) == 4.0;
    assert Sub(st, "g1", "anggota") == members;
    assert KategoriOf(g2.data) == "Gapoktan";
    assert KategoriOf(g1.data) == "Kelompok Tani";
    assert Contribution(st, g1) == Tally(2, 4.0);
    assert Contribution(st, g2) == Tally(0, 0.0);
    TallyCons(st, [g1, g2]);
    TallyOne(st, g2);
    assert [g1, g2][1..] == [g2];
  }
}

=== FILE: store.dfy ===
/** The document store the application talks to: the `kelompok_tani` group
    collection, the subcollections under each group id, and the `stats/global`
    record. A subcollection lives at its own path: it exists whether or not a
    parent document does, as in the hosted store. */
module DocStore {
  import opened Values
  import opened Docs

  datatype SubKey = SubKey(parent: Id, name: string)

  datatype Store = Store(groups: Collection, subs: map<SubKey, Collection>, stats: Option<Fields>)

  /** Every collection of the store has unique document ids. */
  predicate Valid(st: Store) {
    && DistinctIds(st.groups)
    && forall k :: k in st.subs ==> DistinctIds(st.subs[k])
  }

  /** `kelompok_tani/{parent}/{name}`; a path nobody wrote to reads as empty. */
  function Sub(st: Store, parent: Id, name: string): Collection {
    if SubKey(parent, name) in st.subs then st.subs[SubKey(parent, name)] else []
  }

  function WithSub(st: Store, parent: Id, name: string, c: Collection): (st': Store)
    ensures Sub(st', parent, name) == c
    ensures forall p, n :: (p != parent || n != name) ==> Sub(st', p, n) == Sub(st, p, n)
    ensures st'.groups == st.groups && st'.stats == st.stats
  {
    st.(subs := st.subs[SubKey(parent, name) := c])
  }

  /** `kelompok_tani/{id}` itself. */
  function Parent(st: Store, id: Id): Option<Fields> {
    Find(st.groups, id)
  }

  /** `setDoc(kelompok_tani/{id}, f, {merge: true})`. */
  function SetParent(st: Store, id: Id, f: Fields): Store {
    st.(groups := SetMerge(st.groups, Doc(id, f)))
  }

  /** `updateDoc(kelompok_tani/{id}, f)`: merges into an existing parent. When there
      is none the call is rejected and nothing changes. */
  function UpdateParent(st: Store, id: Id, f: Fields): Store {
    match Update(st.groups, id, f)
    case Some(gs) => st.(groups := gs)
    case None => st
  }

  /** `deleteDoc(kelompok_tani/{id})`: removes the parent only. */
  function DeleteParent(st: Store, id: Id): Store {
    st.(groups := RemoveIds(st.groups, [id]))
  }

  lemma SubValid(st: Store, p: Id, n: string)
    requires Valid(st)
    ensures DistinctIds(Sub(st, p, n))
  {
  }

  /** `updateDoc` of a group changes that group's fields only, and only if it
      exists. */
  lemma UpdateParentEffect(st: Store, id: Id, f: Fields)
    ensures forall q :: Parent(UpdateParent(st, id, f), q) ==
              if q == id && Parent(st, id).Some? then Some(Parent(st, id).value + f) else Parent(st, q)
    ensures UpdateParent(st, id, f).subs == st.subs && UpdateParent(st, id, f).stats == st.stats
  {
    forall q ensures Parent(UpdateParent(st, id, f), q) ==
              if q == id && Parent(st, id).Some? then Some(Parent(st, id).value + f) else Parent(st, q)
    {
      FindSetMerge(st.groups, Doc(id, f), q);
    }
  }
}

=== FILE: tambah_gapoktan.dfy ===
/** Adding member groups to a Gapoktan: the eligible groups offered, the selection,
    the name search, and the single batch that writes one link document per chosen
    group into the Gapoktan's `kelompok_anggota` subcollection. */
module GapoktanLinks {
  import opened Values
  import opened Docs
  import opened DocStore
  import opened Text
  import opened Lists
  import opened GapoktanEnrich
  import opened KelompokList

  // ---------------------------------------------------------------------------
  // The offered groups
  // ---------------------------------------------------------------------------

  /** The store query's equality filter: the stored category is exactly the text
      "Kelompok Tani". */
  predicate TaggedKelompokTani(f: Fields) {
    Get(f, "kategori") == Some(Str("Kelompok Tani"))
  }

  /** The groups offered: the tagged Kelompok Tani groups that are not yet members,
      ordered by name. */
  function Eligible(groups: Collection, existing: seq<Id>): (r: Collection)
    ensures forall d :: d in r <==> d in groups && TaggedKelompokTani(d.data) && d.id !in existing
    ensures |r| <= |groups|
    ensures Sorted(false, r)
    ensures multiset(r) == multiset(Filter(groups, (d: Doc) => TaggedKelompokTani(d.data) && d.id !in existing))
  {
    var kept := Filter(groups, (d: Doc) => TaggedKelompokTani(d.data) && d.id !in existing);
    SortSorted(false, kept);
    var r := SortItems(false, kept);
    assert forall d :: d in r <==> d in kept by {
      forall d ensures d in r <==> d in kept {
        assert d in r <==> d in multiset(r);
        assert d in kept <==> d in multiset(kept);
      }
    }
    r
  }

  /** A group stored without a category counts as a Kelompok Tani everywhere else,
      but the query does not offer it. */
  lemma UntaggedNotOffered(groups: Collection, existing: seq<Id>, d: Doc)
    requires "kategori" !in d.data
    ensures KategoriOf(d.data) == "Kelompok Tani"
    ensures d !in Eligible(groups, existing)
  {
  }

  /** The search box: the lowercased name contains the lowercased term. */
  function SearchEligible(list: Collection, term: string): (r: Collection)
    ensures forall d :: d in r <==> d in list && Contains(ToLower(NameOf(d.data)), ToLower(term))
    ensures |r| <= |list|
  {
    Filter(list, (d: Doc) => Contains(ToLower(NameOf(d.data)), ToLower(term)))
  }

  /** The search keeps the name order of the offered groups. */
  lemma SearchEligibleKeepsSorted(list: Collection, term: string)
    requires Sorted(false, list)
    ensures Sorted(false, SearchEligible(list, term))
  {
    var before := (a: Doc, b: Doc) => Compare(false, a, b) <= 0;
    assert Ordered(list, before);
    FilterKeepsOrder(list, (d: Doc) => Contains(ToLower(NameOf(d.data)), ToLower(term)), before);
    var r := SearchEligible(list, term);
    assert Ordered(r, before);
    forall i, j | 0 <= i < j < |r| ensures Compare(false, r[i], r[j]) <= 0 {
      assert before(r[i], r[j]);
    }
  }

  /** What the modal lists for a search, the eligible groups filtered by the term,
      is in name order. */
  lemma ShownEligibleSorted(groups: Collection, existing: seq<Id>, term: string)
    ensures Sorted(false, SearchEligible(Eligible(groups, existing), term))
  {
    SearchEligibleKeepsSorted(Eligible(groups, existing), term);
  }

  /** An empty search term shows the whole list. */
  lemma SearchEmptyShowsAll(list: Collection)
    ensures SearchEligible(list, "") == list
  {
    forall i | 0 <= i < |list| ensures Contains(ToLower(NameOf(list[i].data)), ToLower("")) {
      ContainsEmpty(ToLower(NameOf(list[i].data)));
    }
    FilterAll(list, (d: Doc) => Contains(ToLower(NameOf(d.data)), ToLower("")));
  }

  // ---------------------------------------------------------------------------
  // The selection
  // ---------------------------------------------------------------------------

  /** The selection is an insertion-ordered set: no id twice. */
  predicate NoRepeats(xs: seq<Id>) {
    forall i, j :: 0 <= i < j < |xs| ==> xs[i] != xs[j]
  }

  function Without(xs: seq<Id>, id: Id): (r: seq<Id>)
    ensures forall q :: q in r <==> q in xs && q != id
    ensures NoRepeats(xs) ==> NoRepeats(r)
    ensures id !in xs ==> r == xs
    decreases |xs|
  {
    if |xs| == 0 then []
    else if xs[0] == id then Without(xs[1..], id)
    else
      var rest := Without(xs[1..], id);
      assert NoRepeats(xs) ==> NoRepeats([xs[0]] + rest) by {
        if NoRepeats(xs) {
          ConsNoRepeats(xs[0], rest);
        }
      }
      [xs[0]] + rest
  }

  lemma ConsNoRepeats(x: Id, rest: seq<Id>)
    requires NoRepeats(rest) && x !in rest
    ensures NoRepeats([x] + rest)
  {
    var r := [x] + rest;
    forall i, j | 0 <= i < j < |r| ensures r[i] != r[j] {
      assert r[j] == rest[j - 1];
      if i > 0 {
        assert r[i] == rest[i - 1];
      }
    }
  }

  /** `toggleSelect`: a selected id is dropped, any other is added at the end. */
  function Toggle(sel: seq<Id>, id: Id): (r: seq<Id>)
    ensures id in r <==> id !in sel
    ensures forall q :: q != id ==> (q in r <==> q in sel)
    ensures NoRepeats(sel) ==> NoRepeats(r)
  {
    if id in sel then Without(sel, id) else sel + [id]
  }

  /** Toggling twice gives back the same selected ids, and the very same selection
      when the id was not selected. */
  lemma ToggleTwice(sel: seq<Id>, id: Id)
    ensures forall q :: q in Toggle(Toggle(sel, id), id) <==> q in sel
    ensures id !in sel ==> Toggle(Toggle(sel, id), id) == sel
  {
    if id !in sel {
      assert Toggle(sel, id) == sel + [id];
      Toggle2Append(sel, id);
    }
  }

  lemma {:induction false} Toggle2Append(sel: seq<Id>, id: Id)
    requires id !in sel
    ensures Without(sel + [id], id) == sel
    decreases |sel|
  {
    if |sel| == 0 {
      assert [] + [id] == [id];
    } else {
      assert (sel + [id])[1..] == sel[1..] + [id];
      Toggle2Append(sel[1..], id);
    }
  }

  // ---------------------------------------------------------------------------
  // The batch
  // ---------------------------------------------------------------------------

  /** The link document written for group `k`: its id, a reference to it, its name
      as shown in the list (or empty), and the creation time. */
  function LinkDoc(list: Collection, k: Id, newId: Id, stamp: Value): (d: Doc)
    ensures d.id == newId
    ensures Get(d.data, "kelompokId") == Some(Str(k)) && Get(d.data, "kelompokRef") == Some(Ref(k))
    ensures Find(list, k).None? ==> Get(d.data, "nama_kelompok") == Some(Str(""))
    ensures Find(list, k).Some? ==> Get(d.data, "nama_kelompok") == Some(Str(NameOf(Find(list, k).value)))
  {
    var name := match Find(list, k) case Some(f) => NameOf(f) case None => "";
    Doc(newId, map["kelompokId" := Str(k), "kelompokRef" := Ref(k), "nama_kelompok" := Str(name),
                   "createdAt" := stamp])
  }

  /** The link documents of a whole selection, in selection order. */
  function Links(list: Collection, sel: seq<Id>, newIds: seq<Id>, stamp: Value): (ls: Collection)
    requires |newIds| == |sel|
    ensures |ls| == |sel|
    ensures forall i :: 0 <= i < |sel| ==> ls[i] == LinkDoc(list, sel[i], newIds[i], stamp)
  {
    seq(|sel|, i requires 0 <= i < |sel| => LinkDoc(list, sel[i], newIds[i], stamp))
  }

  datatype SubmitError = NothingSelected | CommitFailed

  /** The document ids the store hands out for the new link documents: distinct and
      not yet used in the subcollection. */
  predicate FreshIds(newIds: seq<Id>, c: Collection) {
    NoRepeats(newIds) && forall i :: 0 <= i < |newIds| ==> newIds[i] !in IdsOf(c)
  }

  /** `handleSubmit`: an empty selection writes nothing; otherwise every link goes
      into one batch, which commits whole or not at all. */
  function Submit(st: Store, gap: Id, list: Collection, sel: seq<Id>, newIds: seq<Id>, stamp: Value,
                  fails: bool): (r: (Store, Option<SubmitError>))
    requires |newIds| == |sel| && FreshIds(newIds, Sub(st, gap, "kelompok_anggota"))
    ensures |sel| == 0 ==> r == (st, Some(NothingSelected))
    ensures |sel| > 0 && fails ==> r == (st, Some(CommitFailed))
    ensures r.1.Some? ==> r.0 == st
    ensures r.1.None? ==>
              && Sub(r.0, gap, "kelompok_anggota") == Sub(st, gap, "kelompok_anggota") + Links(list, sel, newIds, stamp)
              && (forall q, n :: (q != gap || n != "kelompok_anggota") ==> Sub(r.0, q, n) == Sub(st, q, n))
              && r.0.groups == st.groups && r.0.stats == st.stats
  {
    if |sel| == 0 then (st, Some(NothingSelected))
    else if fails then (st, Some(CommitFailed))
    else (WithSub(st, gap, "kelompok_anggota", Sub(st, gap, "kelompok_anggota") + Links(list, sel, newIds, stamp)), None)
  }

  /** Every link written points, for the enrichment that reads it back, at the group
      that was selected. */
  lemma LinksResolveToSelection(list: Collection, sel: seq<Id>, newIds: seq<Id>, stamp: Value)
    requires |newIds| == |sel|
    ensures var ls := Links(list, sel, newIds, stamp);
            forall i :: 0 <= i < |sel| ==> LinkTarget(ls[i].data) == Some(sel[i])
  {
  }

  /** The links of a fresh selection keep the subcollection's ids unique. */
  lemma SubmitKeepsIdsDistinct(st: Store, gap: Id, list: Collection, sel: seq<Id>, newIds: seq<Id>, stamp: Value)
    requires |newIds| == |sel| && FreshIds(newIds, Sub(st, gap, "kelompok_anggota"))
    requires DistinctIds(Sub(st, gap, "kelompok_anggota"))
    ensures DistinctIds(Sub(Submit(st, gap, list, sel, newIds, stamp, false).0, gap, "kelompok_anggota"))
  {
    if |sel| > 0 {
      var old_ := Sub(st, gap, "kelompok_anggota");
      var ls := Links(list, sel, newIds, stamp);
      var st' := Submit(st, gap, list, sel, newIds, stamp, false).0;
      assert Sub(st', gap, "kelompok_anggota") == old_ + ls;
      AppendFreshDistinct(old_, ls, newIds);
    }
  }

  /** Appending documents whose ids are fresh and distinct keeps a collection's ids
      unique. */
  lemma AppendFreshDistinct(c: Collection, ls: Collection, newIds: seq<Id>)
    requires |ls| == |newIds| && forall i :: 0 <= i < |ls| ==> ls[i].id == newIds[i]
    requires DistinctIds(c) && FreshIds(newIds, c)
    ensures DistinctIds(c + ls)
  {
    var r := c + ls;
    forall i, j | 0 <= i < j < |r| ensures r[i].id != r[j].id {
      if j >= |c| {
        assert r[j].id == newIds[j - |c|];
        if i < |c| {
          assert r[i].id == IdsOf(c)[i];
        } else {
          assert r[i].id == newIds[i - |c|];
        }
      }
    }
  }

  /** Only `kelompok_anggota` changes, so what one link reads is the same before and
      after a submit. */
  lemma LinkTotalsFrame(st: Store, st': Store, gap: Id, link: Doc, faults: Faults)
    requires st'.groups == st.groups
    requires forall t :: Sub(st', t, "anggota") == Sub(st, t, "anggota")
    ensures LinkTotals(st', gap, link, faults) == LinkTotals(st, gap, link, faults)
  {
    var t := LinkTarget(link.data);
    if t.Some? {
      assert Parent(st', t.value) == Parent(st, t.value);
      assert Sub(st', t.value, "anggota") == Sub(st, t.value, "anggota");
    }
  }

  lemma {:induction false} SumLinksFrame(st: Store, st': Store, gap: Id, links: Collection, faults: Faults)
    requires st'.groups == st.groups
    requires forall t :: Sub(st', t, "anggota") == Sub(st, t, "anggota")
    ensures SumLinks(st', gap, links, faults) == SumLinks(st, gap, links, faults)
    decreases |links|
  {
    if |links| > 0 {
      LinkTotalsFrame(st, st', gap, links[0], faults);
      SumLinksFrame(st, st', gap, links[1..], faults);
    }
  }

  /** After a committed submit, the enriched Gapoktan counts one more linked group
      per selected id. */
  lemma SubmitCountsLinks(st: Store, item: Doc, list: Collection, sel: seq<Id>, newIds: seq<Id>, stamp: Value,
                          faults: Faults)
    requires IsGapoktan(item.data) && item.id !in faults.groupReads
    requires |newIds| == |sel| && |sel| > 0 && FreshIds(newIds, Sub(st, item.id, "kelompok_anggota"))
    ensures var st' := Submit(st, item.id, list, sel, newIds, stamp, false).0;
            Get(EnrichItem(st', item, faults).data, "jumlah_kelompok")
              == Some(Num((|Sub(st, item.id, "kelompok_anggota")| + |sel|) as real))
  {
    var st' := Submit(st, item.id, list, sel, newIds, stamp, false).0;
    assert |Sub(st', item.id, "kelompok_anggota")| == |Sub(st, item.id, "kelompok_anggota")| + |sel|;
    EnrichedCount(st', item, faults, |Sub(st, item.id, "kelompok_anggota")| + |sel|);
  }

  /** The enriched count is the number of link documents. */
  lemma EnrichedCount(st: Store, item: Doc, faults: Faults, m: nat)
    requires IsGapoktan(item.data) && item.id !in faults.groupReads
    requires |Sub(st, item.id, "kelompok_anggota")| == m
    ensures Get(EnrichItem(st, item, faults).data, "jumlah_kelompok") == Some(Num(m as real))
  {
  }

  /** After a committed submit, the combined totals grow by exactly what the new
      links add. */
  lemma SubmitAddsTotals(st: Store, gap: Id, list: Collection, sel: seq<Id>, newIds: seq<Id>, stamp: Value,
                         faults: Faults)
    requires |newIds| == |sel| && |sel| > 0 && FreshIds(newIds, Sub(st, gap, "kelompok_anggota"))
    ensures var st' := Submit(st, gap, list, sel, newIds, stamp, false).0;
            SumLinks(st', gap, Sub(st', gap, "kelompok_anggota"), faults)
              == Add(SumLinks(st, gap, Sub(st, gap, "kelompok_anggota"), faults),
                     SumLinks(st, gap, Links(list, sel, newIds, stamp), faults))
  {
    var st' := Submit(st, gap, list, sel, newIds, stamp, false).0;
    assert forall t :: Sub(st', t, "anggota") == Sub(st, t, "anggota");
    AppendedTotals(st, st', gap, Sub(st, gap, "kelompok_anggota"), Links(list, sel, newIds, stamp), faults);
  }

  lemma AppendedTotals(st: Store, st': Store, gap: Id, before: Collection, added: Collection, faults: Faults)
    requires st'.groups == st.groups
    requires forall t :: Sub(st', t, "anggota") == Sub(st, t, "anggota")
    ensures SumLinks(st', gap, before + added, faults)
            == Add(SumLinks(st, gap, before, faults), SumLinks(st, gap, added, faults))
  {
    SumLinksConcat(st', gap, before, added, faults);
    SumLinksFrame(st, st', gap, before, faults);
    SumLinksFrame(st, st', gap, added, faults);
  }
}

=== FILE: text.dfy ===
/** String operations the forms and lists use: ASCII case mapping, `includes`,
    `trim`, `split`/`join` and `localeCompare` read as plain lexicographic order. */
module Text {

  function UpperChar(c: char): char {
    if 'a' <= c <= 'z' then (c as int - 32) as char else c
  }

  function LowerChar(c: char): char {
    if 'A' <= c <= 'Z' then (c as int + 32) as char else c
  }

  /** `toUpperCase`, restricted to the ASCII letters. */
  function ToUpper(s: string): (r: string)
    ensures |r| == |s|
  {
    seq(|s|, i requires 0 <= i < |s| => UpperChar(s[i]))
  }

  /** `toLowerCase`, restricted to the ASCII letters. */
  function ToLower(s: string): (r: string)
    ensures |r| == |s|
  {
    seq(|s|, i requires 0 <= i < |s| => LowerChar(s[i]))
  }

  lemma UpperIdempotent(s: string)
    ensures ToUpper(ToUpper(s)) == ToUpper(s)
  {
  }

  lemma LowerIdempotent(s: string)
    ensures ToLower(ToLower(s)) == ToLower(s)
  {
  }

  lemma UpperOfLower(s: string)
    ensures ToUpper(ToLower(s)) == ToUpper(s)
  {
  }

  /** `t` occurs in `s` at position `i`. */
  predicate OccursAt(s: string, t: string, i: int) {
    0 <= i && i + |t| <= |s| && s[i..i + |t|] == t
  }

  /** `s.includes(t)`. */
  predicate Contains(s: string, t: string) {
    exists i | 0 <= i <= |s| - |t| :: OccursAt(s, t, i)
  }

  lemma ContainsEmpty(s: string)
    ensures Contains(s, "")
  {
    assert OccursAt(s, "", 0);
  }

  /** The characters `String.prototype.trim` removes: the white space and line
      terminators of section 12.2 and 12.3 of ECMA-262, that is tab, vertical tab,
      form feed, space, no-break space, the byte order mark, every other space
      separator (U+1680, U+2000 to U+200A, U+202F, U+205F, U+3000), line feed,
      carriage return, and the line and paragraph separators. */
  predicate IsSpace(c: char) {
    || c == '\t' || c == '\U{000B}' || c == '\U{000C}' || c == ' ' || c == '\U{00A0}' || c == '\U{FEFF}'
    || c == '\U{1680}' || '\U{2000}' <= c <= '\U{200A}' || c == '\U{202F}' || c == '\U{205F}' || c == '\U{3000}'
    || c == '\n' || c == '\r' || c == '\U{2028}' || c == '\U{2029}'
  }

  function TrimStart(s: string): (r: string)
    ensures |r| == 0 || !IsSpace(r[0])
    decreases |s|
  {
    if |s| > 0 && IsSpace(s[0]) then TrimStart(s[1..]) else s
  }

  function TrimEnd(s: string): string
    decreases |s|
  {
    if |s| > 0 && IsSpace(s[|s| - 1]) then TrimEnd(s[..|s| - 1]) else s
  }

  /** `s.trim()`. */
  function Trim(s: string): string {
    TrimEnd(TrimStart(s))
  }

  predicate AllSpace(s: string) {
    forall i :: 0 <= i < |s| ==> IsSpace(s[i])
  }

  /** `s.trim()` is empty exactly when every character of `s` is white space. */
  lemma {:induction false} TrimEmptyIff(s: string)
    ensures Trim(s) == "" <==> AllSpace(s)
  {
    TrimStartEmptyIff(s);
    TrimEndOfNonEmpty(TrimStart(s));
  }

  lemma {:induction false} TrimStartEmptyIff(s: string)
    ensures TrimStart(s) == "" <==> AllSpace(s)
    decreases |s|
  {
    if |s| > 0 && IsSpace(s[0]) {
      TrimStartEmptyIff(s[1..]);
      if AllSpace(s[1..]) {
        forall i | 0 <= i < |s| ensures IsSpace(s[i]) {
          if i > 0 { assert s[i] == s[1..][i - 1]; }
        }
      }
    }
  }

  lemma {:induction false} TrimEndOfNonEmpty(s: string)
    ensures |s| > 0 && !IsSpace(s[0]) ==> TrimEnd(s) != ""
    ensures s == "" ==> TrimEnd(s) == ""
    decreases |s|
  {
    if |s| > 0 && !IsSpace(s[0]) && IsSpace(s[|s| - 1]) {
      assert |s| > 1;
      TrimEndOfNonEmpty(s[..|s| - 1]);
    }
  }

  /** `a.localeCompare(b)` read as plain lexicographic order on code points:
      negative, zero or positive. */
  function LexCompare(a: string, b: string): (r: int)
    ensures -1 <= r <= 1
    decreases |a|
  {
    if |a| == 0 && |b| == 0 then 0
    else if |a| == 0 then -1
    else if |b| == 0 then 1
    else if a[0] < b[0] then -1
    else if b[0] < a[0] then 1
    else LexCompare(a[1..], b[1..])
  }

  lemma {:induction false} LexCompareZeroIff(a: string, b: string)
    ensures LexCompare(a, b) == 0 <==> a == b
    decreases |a|
  {
    if |a| > 0 && |b| > 0 && a[0] == b[0] {
      LexCompareZeroIff(a[1..], b[1..]);
      if a[1..] == b[1..] {
        assert a == [a[0]] + a[1..] && b == [b[0]] + b[1..];
      }
    }
  }

  lemma {:induction false} LexCompareAntisymmetric(a: string, b: string)
    ensures LexCompare(b, a) == -LexCompare(a, b)
    decreases |a|
  {
    if |a| > 0 && |b| > 0 && a[0] == b[0] {
      LexCompareAntisymmetric(a[1..], b[1..]);
    }
  }

  lemma {:induction false} LexCompareTransitive(a: string, b: string, c: string)
    requires LexCompare(a, b) <= 0 && LexCompare(b, c) <= 0
    ensures LexCompare(a, c) <= 0
    decreases |a|
  {
    if |a| > 0 && |b| > 0 && |c| > 0 && a[0] == b[0] && b[0] == c[0] {
      LexCompareTransitive(a[1..], b[1..], c[1..]);
    }
  }

  /** `s.split(c)`: the maximal pieces between occurrences of `c`, with an empty
      piece on either side of an occurrence at an end, and `[""]` for "". */
  function Split(s: string, c: char): (ws: seq<string>)
    ensures |ws| > 0
    ensures forall i :: 0 <= i < |ws| ==> c !in ws[i]
    decreases |s|
  {
    if |s| == 0 then [""]
    else
      var rest := Split(s[1..], c);
      if s[0] == c then [""] + rest
      else [[s[0]] + rest[0]] + rest[1..]
  }

  /** `ws.join(c)`. */
  function Join(ws: seq<string>, c: char): string
    requires |ws| > 0
    decreases |ws|
  {
    if |ws| == 1 then ws[0] else ws[0] + [c] + Join(ws[1..], c)
  }

  /** Joining the pieces of a split gives the string back. */
  lemma {:induction false} JoinSplit(s: string, c: char)
    ensures Join(Split(s, c), c) == s
    decreases |s|
  {
    if |s| > 0 {
      JoinSplit(s[1..], c);
      var rest := Split(s[1..], c);
      if s[0] != c && |rest| > 1 {
        assert Join(rest, c) == rest[0] + [c] + Join(rest[1..], c);
        assert Join([[s[0]] + rest[0]] + rest[1..], c)
            == ([s[0]] + rest[0]) + [c] + Join(rest[1..], c);
      } else if s[0] == c {
        assert Join([""] + rest, c) == "" + [c] + Join(rest, c);
      }
      assert s == [s[0]] + s[1..];
    }
  }

  lemma {:induction false} SplitFree(w: string, c: char)
    requires c !in w
    ensures Split(w, c) == [w]
    decreases |w|
  {
    if |w| > 0 {
      SplitFree(w[1..], c);
      assert [w[0]] + w[1..] == w;
    }
  }

  lemma {:induction false} SplitCons(w: string, c: char, t: string)
    requires c !in w
    ensures Split(w + [c] + t, c) == [w] + Split(t, c)
    decreases |w|
  {
    var s := w + [c] + t;
    if |w| == 0 {
      assert s[1..] == t;
    } else {
      assert s[1..] == w[1..] + [c] + t;
      SplitCons(w[1..], c, t);
      assert [w[0]] + w[1..] == w;
    }
  }

  /** Splitting a join of pieces free of the separator gives the pieces back. */
  lemma {:induction false} SplitJoin(ws: seq<string>, c: char)
    requires |ws| > 0
    requires forall i :: 0 <= i < |ws| ==> c !in ws[i]
    ensures Split(Join(ws, c), c) == ws
    decreases |ws|
  {
    if |ws| == 1 {
      SplitFree(ws[0], c);
    } else {
      SplitJoin(ws[1..], c);
      SplitCons(ws[0], c, Join(ws[1..], c));
      assert [ws[0]] + ws[1..] == ws;
    }
  }
}

=== FILE: values.dfy ===
/** Field values of the document store and the loose JavaScript readings of them
    (`x || d`, `parseFloat`, `x ?? d`) that the application relies on. */
module Values {

  datatype Option<+T> = None | Some(value: T) {
    function GetOr(default: T): T {
      match this
      case Some(v) => v
      case None => default
    }
  }

  datatype Result<+T, +E> = Success(value: T) | Failure(error: E)

  /** Document identifiers and field names are plain strings. */
  type Id = string

  /** A stored field value. `Num` stands for anything `parseFloat` reads as a number
      (a number, or a numeric string); `Str` is any other text; `Ref` is a reference
      to the group document `kelompok_tani/{target}`. Timestamps are opaque values
      supplied by the caller. */
  datatype Value = Null | Bool(b: bool) | Num(n: real) | Str(s: string) | Ref(target: Id)

  /** The fields of one document; an absent key is JavaScript's `undefined`. */
  type Fields = map<string, Value>

  /** JavaScript truthiness of a present value. */
  predicate Truthy(v: Value) {
    match v
    case Null => false
    case Bool(b) => b
    case Num(n) => n != 0.0
    case Str(s) => s != ""
    case Ref(_) => true
  }

  function Get(f: Fields, k: string): Option<Value> {
    if k in f then Some(f[k]) else None
  }

  /** `parseFloat(v)` with NaN read as 0 (`toNumber`, and `parseFloat(v) || 0`). */
  function ToNumber(v: Option<Value>): (r: real)
    ensures v.Some? && v.value.Num? ==> r == v.value.n
    ensures !(v.Some? && v.value.Num?) ==> r == 0.0
  {
    if v.Some? && v.value.Num? then v.value.n else 0.0
  }

  /** `f[k] || d` for a text field: the text when it is non-empty, else the default. */
  function TextOr(f: Fields, k: string, d: string): (r: string)
    ensures r == d || (k in f && f[k] == Str(r) && r != "")
    ensures k in f && f[k].Str? && f[k].s != "" ==> r == f[k].s
  {
    if k in f && f[k].Str? && f[k].s != "" then f[k].s else d
  }

  /** `data.kategori || "Kelompok Tani"`: a group with no category is a Kelompok Tani. */
  function KategoriOf(f: Fields): (r: string)
    ensures r != ""
    ensures "kategori" !in f ==> r == "Kelompok Tani"
    ensures r == "Gapoktan" <==> IsGapoktan(f)
  {
    TextOr(f, "kategori", "Kelompok Tani")
  }

  /** `item.kategori === "Gapoktan"`, the strict test the list and the card use. */
  predicate IsGapoktan(f: Fields) {
    Get(f, "kategori") == Some(Str("Gapoktan"))
  }

  /** `v || 0` for a displayed number: the value when truthy, else 0. */
  function OrZero(v: Option<Value>): (r: Value)
    ensures v.Some? && Truthy(v.value) ==> r == v.value
    ensures !(v.Some? && Truthy(v.value)) ==> r == Num(0.0)
  {
    if v.Some? && Truthy(v.value) then v.value else Num(0.0)
  }

  /** The defaulted category and the strict test agree: a missing category defaults
      to "Kelompok Tani", which is not "Gapoktan". */
  lemma KategoriGapoktanIff(f: Fields)
    ensures KategoriOf(f) == "Gapoktan" <==> IsGapoktan(f)
  {
  }
}
